=== FILE: README.md ===
# Image editor core

This project models the in-browser image editor of the repository's `frontend/src`. It covers:

- **Prompt compiler** (`PromptCompiler`). `parsePrompt` turns a free-text edit request into a transformation descriptor. It runs seventeen rule groups in a fixed order; each group may overwrite filter channels and record an effect. An ordered table of named colours chooses the tint and gradient colours.
- **Editing session** (`Session`, `History`, `Elements`). The `useCanvasEditor` hook is modelled as an immutable session record with one function `Session -> Session` per callback. Undo history is a bounded snapshot list with a cursor. Element layers, filters, crop and resize, and applying a transformation descriptor are all modelled.
- **Render pipeline as a command list** (`Render`, `FilterString`):
  - `redrawCanvas` and `renderElements`, with the text, shape and stroke renderers, produce a sequence of abstract canvas commands;
  - `buildFilterString` serialises the filters into CSS filter-function notation (the "Filter Functions" section of the W3C Filter Effects Module Level 1), and a decoder reads it back;
  - `drawVignette` is modelled as its gradient geometry.
- **Canvas controller** (`Workspace`). The pointer-drag state machine of `CanvasWorkspace` is modelled as functions that return the calls the controller makes into the editor. `EditorPage` wires those calls to the session the way `pages/Editor.tsx` does.
- **Tool panels**:
  - `LayersPanel`: the reversed row order, the drop-to-reorder index mapping and the row labels;
  - `FilterTool`: channel ranges and defaults, live changes, reset-all and per-channel reset;
  - `ResizeTool`: the aspect-locked width and height inputs, presets and the apply guard;
  - `CropTool`: the apply guard and the selected-region display.
- **Shared data types** (`EditorTypes`, `Filters`): the tool modes, the element union, the filter record, crop regions, history snapshots and descriptors.

Modelling choices:

- Geometry is `real` and filter channels are `int`.
- Pixel content is symbolic. An image records how it was produced: decoded from file number `k`, cropped, resized, or overlaid with a paint.
- The regular-expression tests of the prompt compiler are abstract. A caller-supplied `detect` function turns the lower-cased prompt into a `Keywords` record of booleans, one per group, plus the set of colours a tint pattern named.
  - Lower-casing (ASCII letters) is modelled concretely.
  - So are the `blur\s+(\d+)` number and `lower.includes(colour)`.
- Layer ids (`Date.now()` in the source) are parameters.
- `Math.round` is round-half-up (`Base.Round`).
- A canvas dimension set from a real number follows the HTML rule for `canvas.width` and `canvas.height` (`Session.CanvasDim`). The number becomes its integer part modulo 2^32. A result above 2^31 - 1 gives the default of 300 for the width or 150 for the height. That covers every size whose integer part lies from -2^31 to -1, and every size from 2^31 up to but not including 2^32. A size between -1 and 0 gives 0, and no result is negative.

Behaviour of the code worth noting:

- `startDrawing` does not check whether a stroke is already in progress, so a second press starts a second stroke (`Session.StartDrawing`).
- Undo and redo restore image, layers and filters but not the canvas size.

## Model

| member | source | states |
|---|---|---|
| Base.Round | frontend/src/components/editor/tools/ResizeTool.tsx:24 | `Math.round` lands within half a unit of its argument, with halves rounded up |
| Strings.Lower | frontend/src/utils/promptParser.ts:34 | lower-casing keeps the length and maps each character through the ASCII lower-case map |
| Strings.LowerIgnoresCase | frontend/src/utils/promptParser.ts:34 | two texts that differ only in letter case lower-case to the same text |
| Strings.JsParseIntOfInt | frontend/src/components/editor/tools/ResizeTool.tsx:22 | `parseInt` reads back the decimal text of every integer |
| Strings.JsParseIntStopsAtNonDigit | frontend/src/utils/promptParser.ts:81-82 | `parseInt` of digits followed by a non-digit is the value of the digits alone |
| Strings.JoinSplit | frontend/src/utils/canvasOperations.ts:56 | joining the pieces of `split('\n')` with the separator restores the text |
| Strings.SplitJoin | frontend/src/utils/canvasOperations.ts:56 | splitting a join of separator-free pieces restores the pieces |
| Strings.IntToStringRoundTrip | frontend/src/utils/canvasOperations.ts:25-32 | the integer printed into a filter function reads back as the same integer |
| EditorTypes.ParseTool | frontend/src/types/editor.ts:1-10 | only the nine tool literals are accepted, and each reads as the mode that prints it |
| EditorTypes.ToolNameRoundTrip | frontend/src/types/editor.ts:1-10 | each of the nine tool modes has its own literal that reads back as that mode |
| EditorTypes.ShapeNameRoundTrip | frontend/src/types/editor.ts:12 | each of the four shape kinds has its own literal that reads back as that kind |
| Filters.With | frontend/src/components/editor/tools/FilterTool.tsx:24-26 | `{ ...filters, [key]: value }` sets that channel and leaves the other seven unchanged |
| Filters.ConfigDefaultsMatch | frontend/src/components/editor/tools/FilterTool.tsx:12-21 | every channel's declared default is the editor's initial value (`DEFAULT_FILTERS`, useCanvasEditor.ts:27-36) and lies within its slider range |
| Filters.Merge | frontend/src/hooks/useCanvasEditor.ts:285-288 | `Object.assign` of a partial record: a channel present in the partial record takes its value, and every other channel keeps the old one |
| Filters.MergeLaws | frontend/src/hooks/useCanvasEditor.ts:285-288 | merging no changes is the identity, and merging the same changes twice is merging once |
| Filters.Extensionality | frontend/src/types/editor.ts:14-23 | a filter state is determined by its eight channels |
| History.Push | frontend/src/hooks/useCanvasEditor.ts:72-79 | a commit keeps the snapshots up to the cursor, appends the new one and keeps the last 50. The new snapshot is current, nothing is left to redo, the length is min(cursor+2, 50), and the earlier snapshots are the old ones just below it |
| History.Undo | frontend/src/hooks/useCanvasEditor.ts:119-129 | undo moves the cursor back by one and happens exactly when `canUndo` (cursor > 0) holds |
| History.Redo | frontend/src/hooks/useCanvasEditor.ts:131-141 | redo moves the cursor forward by one and happens exactly when `canRedo` (cursor < length-1) holds |
| History.EmptyHistoryValid | frontend/src/hooks/useCanvasEditor.ts:44-45 | the empty history with cursor -1 is well formed, and neither undo nor redo is offered |
| History.UndoRedoInverse | frontend/src/hooks/useCanvasEditor.ts:119-141 | redo undoes an undo, and undo undoes a redo |
| History.UndoAfterPush | frontend/src/hooks/useCanvasEditor.ts:72-79 | undo right after a commit returns to the snapshot that was current before it |
| History.FirstPush | frontend/src/hooks/useCanvasEditor.ts:72-79 | the first commit leaves exactly one snapshot, at cursor 0 |
| History.PushAtCapacity | frontend/src/hooks/useCanvasEditor.ts:76-78 | committing to a full history drops the oldest snapshot, and the cursor stays at 49 |
| Elements.RemoveId | frontend/src/hooks/useCanvasEditor.ts:257 | the filter keeps exactly the layers whose id differs |
| Elements.RemoveIdAppend | frontend/src/hooks/useCanvasEditor.ts:257 | removal distributes over concatenation, so the survivors keep their order |
| Elements.RemoveAbsentId | frontend/src/hooks/useCanvasEditor.ts:257 | removing an id that no layer carries changes nothing |
| Elements.RemoveIdIdempotent | frontend/src/hooks/useCanvasEditor.ts:257 | removing an id twice is removing it once |
| Elements.ToggleVisibility | frontend/src/hooks/useCanvasEditor.ts:265-267 | toggling flips `visible` on exactly the layers with the id; length, order and every other field are unchanged |
| Elements.ToggleInvolution | frontend/src/hooks/useCanvasEditor.ts:264-270 | toggling the same id twice restores the layers |
| Elements.UpdateElement | frontend/src/hooks/useCanvasEditor.ts:332-338 | the patch applies to the layers with the id and no others |
| Elements.ToggleIsUpdate | frontend/src/hooks/useCanvasEditor.ts:264-270 | toggling is the update that flips the flag, and an empty patch changes nothing |
| Elements.AppendPoint | frontend/src/hooks/useCanvasEditor.ts:237-243 | the point is appended only to the draw layers carrying the stroke's id; every other layer and field is unchanged |
| Elements.AppendPointUndone | frontend/src/hooks/useCanvasEditor.ts:237-243 | taking the newest point off again restores the layers |
| Elements.Move | frontend/src/hooks/useCanvasEditor.ts:273-275 | the two splices put the element from `from` at the target position and keep the rest in order |
| Elements.MovePermutes | frontend/src/hooks/useCanvasEditor.ts:273-275 | a reorder is a permutation |
| Elements.MoveBack | frontend/src/hooks/useCanvasEditor.ts:272-279 | moving back undoes a move between two in-range positions |
| Elements.MoveExample | frontend/src/hooks/useCanvasEditor.ts:272-279 | moving the first of [A, B, C] to position 2 gives [B, C, A] |
| FilterString.Ops | frontend/src/utils/canvasOperations.ts:23-34 | the filter functions are exactly the non-default channels, once each, in the fixed order, and there are none exactly for the identity state |
| FilterString.Format | frontend/src/utils/canvasOperations.ts:25-32 | one filter function is a single non-empty token without spaces |
| FilterString.BuildFilterString | frontend/src/utils/canvasOperations.ts:23-34 | the result is `none` exactly when no channel contributes |
| FilterString.ParseBuild | frontend/src/utils/canvasOperations.ts:23-34 | reading the serialised text gives back the ordered operation list, with names and units as written |
| FilterString.DecodeBuild | frontend/src/utils/canvasOperations.ts:23-34 | round trip: decoding the serialisation of a state whose blur, grayscale and sepia are non-negative gives the state back |
| FilterString.DefaultIsIdentity | frontend/src/utils/canvasOperations.ts:34 | the default filters serialise to `none` |
| Render.FontOf | frontend/src/utils/canvasOperations.ts:50 | the font string starts with `italic ` exactly for italic text. After that prefix comes `bold ` exactly for bold text. The text between the prefixes and `px ` + family parses back to the font size |
| Render.LineSpacing | frontend/src/utils/canvasOperations.ts:57-59 | line 0 sits at y, and each further line is 1.2 times the font size below the previous one |
| Render.RenderText | frontend/src/utils/canvasOperations.ts:48-61 | one `fillText` per line of `split('\n')`, at the anchor for the alignment (x, x+w/2, x+w), at y + i*1.2*fontSize, in the layer's colour and its `FontOf` font |
| Render.TextLinesRejoin | frontend/src/utils/canvasOperations.ts:56-59 | the drawn lines, rejoined with line breaks, are exactly the text |
| Render.RenderShape | frontend/src/utils/canvasOperations.ts:63-106 | rectangle and circle are filled exactly when the fill is not `transparent` and are always stroked last. The rectangle is `fillRect` in the fill colour and `strokeRect` in the stroke colour and width, both over (x, y, w, h); the circle's fill is in the fill colour. The circle is the ellipse at the centre with radii \|w/2\| and \|h/2\|; line and arrow run from (x,y) to (x+w,y+h); the arrow adds a head at the end point |
| Render.RenderDraw | frontend/src/utils/canvasOperations.ts:108-122 | fewer than two points draw nothing; otherwise one round-capped polyline through all points in order |
| Render.VisibleOnly | frontend/src/utils/canvasOperations.ts:41 | keeps exactly the visible layers |
| Render.RenderOnlyVisible | frontend/src/utils/canvasOperations.ts:36-46 | rendering the layers is rendering exactly the visible ones, in sequence order |
| Render.RenderAppend | frontend/src/utils/canvasOperations.ts:40-45 | later layers are drawn after (on top of) earlier ones |
| Render.RenderSkipsHidden | frontend/src/utils/canvasOperations.ts:41 | a hidden layer contributes nothing to the frame |
| Render.VignettePaint | frontend/src/utils/canvasOperations.ts:220-226 | the vignette gradient is centred on the canvas, clear to 0.3 of the shorter side, and reaches the intensity (default 0.7) at 0.7 of the longer side |
| Render.VignetteInsideCanvas | frontend/src/utils/canvasOperations.ts:222-226 | on any canvas the clear disc lies inside the canvas, and the dark ring starts beyond the midpoint of every edge |
| Render.VignetteScales | frontend/src/utils/canvasOperations.ts:222-226 | scaling the canvas by k scales the vignette's centre and both radii by k and keeps its intensity |
| Render.DrawVignette | frontend/src/utils/canvasOperations.ts:220-229 | the vignette is one opaque fill of the whole canvas with the radial paint `VignettePaint` |
| Render.DrawColorOverlay | frontend/src/utils/canvasOperations.ts:231-237 | the colour overlay covers the whole canvas in the colour at the given alpha |
| Render.Redraw | frontend/src/hooks/useCanvasEditor.ts:86-87 | there is no frame exactly when there is no canvas |
| Render.RedrawLayout | frontend/src/hooks/useCanvasEditor.ts:81-101 | a frame clears the canvas, then paints the placeholder exactly when there is no image (else the image under its filter string), and ends with the rendered layers |
| Render.RedrawFilterLossless | frontend/src/utils/canvasOperations.ts:11 | for a state whose blur, grayscale and sepia are non-negative, the filter the image is painted under determines the whole filter state (the frame-side reading of `FilterString.DecodeBuild`) |
| Workspace.DragRegion | frontend/src/components/editor/CanvasWorkspace.tsx:120-125 | the region spans the two corners with non-negative width and height |
| Workspace.DragRegionSymmetric | frontend/src/components/editor/CanvasWorkspace.tsx:120-125 | the region does not depend on the direction of the drag |
| Workspace.MouseDown | frontend/src/components/editor/CanvasWorkspace.tsx:101-111 | a press starts a drag at the point; draw starts a stroke, crop and shape set an empty region there, and other tools call nothing |
| Workspace.MouseMove | frontend/src/components/editor/CanvasWorkspace.tsx:113-129 | nothing unless dragging; draw extends the stroke, crop and shape set the drag region, and every other tool does nothing |
| Workspace.MouseUp | frontend/src/components/editor/CanvasWorkspace.tsx:131-146 | nothing unless dragging; otherwise the drag ends. Draw ends the stroke and text clicks at the release point. Shape emits the region only when it is strictly larger than 5 each way and clears it either way. Crop leaves the region alone, and crop or any other tool issues no call at all |
| Workspace.ShapeGesture | frontend/src/components/editor/CanvasWorkspace.tsx:101-146 | a whole shape drag makes exactly: empty region, drag region, the shape if large enough, clear |
| Session.Initial | frontend/src/hooks/useCanvasEditor.ts:40-70 | the editor opens with no image, no layers, default filters and an empty history. The working size is 800x600, and the canvas, once mounted, is rendered at exactly that size (CanvasWorkspace.tsx:176-177) |
| Session.CanvasDim | frontend/src/hooks/useCanvasEditor.ts:157-158 | a size from 0 up to 2^31 - 1 becomes its integer part. Sizes whose integer part is from -2^31 to -1, and sizes from 2^31 up to but not including 2^32, give the attribute's default. Sizes between -1 and 0 give 0, and no result is negative |
| Session.CanvasDimExamples | frontend/src/hooks/useCanvasEditor.ts:171-172 | a width of -5 or of 3000000000 becomes the default 300, a height of -0.5 becomes 0, and 4096.7 becomes 4096 |
| Session.Repaint | frontend/src/hooks/useCanvasEditor.ts:81-101 | after a redraw the canvas shows the session's image, layers and filters, and nothing else changes |
| Session.OverlayPaint | frontend/src/hooks/useCanvasEditor.ts:300-312 | a vignette always paints (opacity default 0.6); a colour wash or gradient paints only with a colour, at its opacity or the default 0.25 / 0.4 |
| Session.CommitRecords | frontend/src/hooks/useCanvasEditor.ts:72-79 | a commit makes the session's snapshot current and leaves nothing to redo; undo then returns to the previous snapshot |
| Session.UndoRedoGuards | frontend/src/hooks/useCanvasEditor.ts:119-141 | undo and redo do nothing exactly when `canUndo` / `canRedo` fail; otherwise they move the cursor by one, restore that snapshot's image, layers and filters, and redraw |
| Session.UndoThenRedo | frontend/src/hooks/useCanvasEditor.ts:119-141 | redo after undo (and undo after redo) returns to the same history and shows the same snapshot |
| Session.DeleteElementSpec | frontend/src/hooks/useCanvasEditor.ts:256-262 | delete keeps exactly the other layers and clears the selection only if it named the id. It commits even when the id is absent, in which case the layers are unchanged |
| Session.ToggleSpec | frontend/src/hooks/useCanvasEditor.ts:264-270 | toggling commits nothing, keeps the number of layers, and is undone by toggling again |
| Session.ReorderSpec | frontend/src/hooks/useCanvasEditor.ts:272-279 | a reorder permutes the layers, puts the moved one at its target and commits once |
| Session.StrokeSpec | frontend/src/hooks/useCanvasEditor.ts:220-254 | start puts a one-point stroke on top without a commit. Continue and stop do nothing unless drawing; continue extends only the current stroke; stop ends it and commits once |
| Session.TransformationSpec | frontend/src/hooks/useCanvasEditor.ts:281-323 | nothing happens without a canvas. Otherwise each channel takes the descriptor's value when given and keeps its own otherwise, layers are unchanged, one commit happens and the canvas is redrawn. Without an overlay or an image the image is unchanged |
| Session.CropResizeSpec | frontend/src/hooks/useCanvasEditor.ts:152-177 | crop and resize replace the image and the size only: layers and filters stay, crop clears the region, and each commits once |
| Session.UploadSpec | frontend/src/hooks/useCanvasEditor.ts:103-117 | an upload shows the new image with no layers and default filters, commits that snapshot, and takes the canvas size from the image; a failed load changes nothing. Undo is then offered exactly when there was a snapshot before, so the first upload on the empty history offers none |
| LayersPanel.Reverse | frontend/src/components/editor/LayersPanel.tsx:41 | row i of the reversed list is element n-1-i |
| LayersPanel.DisplayRows | frontend/src/components/editor/LayersPanel.tsx:41 | the panel lists as many rows as layers, the top-most first |
| LayersPanel.ActualIndexBijection | frontend/src/components/editor/LayersPanel.tsx:50-51 | the row-to-position mapping n-1-row stays in range and is its own inverse |
| LayersPanel.HandleDrop | frontend/src/components/editor/LayersPanel.tsx:47-53 | no reorder without a dragged row or onto the same row; otherwise a reorder between the positions of the two rows, and the drag index is cleared |
| LayersPanel.DropMovesRow | frontend/src/components/editor/LayersPanel.tsx:47-53 | the reorder a drop asks for moves the dragged row to the target row of the displayed list |
| LayersPanel.LabelIdentifiesKind | frontend/src/components/editor/LayersPanel.tsx:22-28 | a label starts with `Text: "`, `Shape: ` or is `Drawing` exactly for the kind. A text label holds the first 15 characters, and a shape label names the shape type |
| FilterTool.SliderMoved | frontend/src/components/editor/tools/FilterTool.tsx:24-26 | moving a slider makes one live change of that channel only |
| FilterTool.SliderKeepsRange | frontend/src/components/editor/tools/FilterTool.tsx:55-62 | a slider value within its bounds keeps every channel within its declared range |
| FilterTool.ResetAll | frontend/src/components/editor/tools/FilterTool.tsx:28-33 | reset-all is one live change to every channel's declared default |
| FilterTool.ResetAllUnfiltered | frontend/src/components/editor/tools/FilterTool.tsx:28-33 | reset-all shows the unfiltered image (filter string `none`) and calls no commit |
| FilterTool.ResetChannel | frontend/src/components/editor/tools/FilterTool.tsx:64-71 | the per-channel link exists only when the channel is off its default. It sets that channel to the default, leaves the others, then commits |
| FilterTool.ResetChannelOnce | frontend/src/components/editor/tools/FilterTool.tsx:64 | after a channel's reset its link disappears |
| FilterTool.ResetChannelsSpec | frontend/src/components/editor/tools/FilterTool.tsx:64-71 | following the reset links of a list of channels resets exactly those channels |
| FilterTool.EveryChannelResetIsResetAll | frontend/src/components/editor/tools/FilterTool.tsx:28-33 | resetting every channel one by one gives the same state as reset-all |
| ResizeTool.InputValue | frontend/src/components/editor/tools/ResizeTool.tsx:22 | `parseInt(val) \|\| 1`: never zero; 1 for unparsable or zero input, otherwise the parsed number |
| ResizeTool.InputReadsTypedNumber | frontend/src/components/editor/tools/ResizeTool.tsx:22 | a typed number reads as itself, 0 and the empty field as 1 |
| ResizeTool.WidthChanged | frontend/src/components/editor/tools/ResizeTool.tsx:21-25 | the width takes the input; the height follows round(w / ratio) with the lock and is unchanged without it |
| ResizeTool.HeightChanged | frontend/src/components/editor/tools/ResizeTool.tsx:27-31 | the height takes the input; the width follows round(h * ratio) with the lock and is unchanged without it |
| ResizeTool.LockedWidthKeepsAspect | frontend/src/components/editor/tools/ResizeTool.tsx:19-25 | with the lock, the new height keeps the canvas aspect ratio to within half a pixel |
| ResizeTool.LockedHeightKeepsAspect | frontend/src/components/editor/tools/ResizeTool.tsx:19-31 | with the lock, the new width keeps the canvas aspect ratio to within half a pixel |
| ResizeTool.HalfSizeExample | frontend/src/components/editor/tools/ResizeTool.tsx:19-31 | on an 800x600 canvas, typing width 400 gives 400x300, and so does typing height 300 |
| ResizeTool.ChoosePreset | frontend/src/components/editor/tools/ResizeTool.tsx:33-39 | a preset sets both sides exactly and leaves the lock setting alone |
| ResizeTool.PresetIgnoresLock | frontend/src/components/editor/tools/ResizeTool.tsx:89 | the lock makes no difference to a preset |
| ResizeTool.Apply | frontend/src/components/editor/tools/ResizeTool.tsx:98-100 | apply passes the form's size, and only when there is an image and the size differs from the canvas |
| ResizeTool.ApplyGuard | frontend/src/components/editor/tools/ResizeTool.tsx:100 | apply is disabled exactly without an image or at the current size |
| CropTool.Show | frontend/src/components/editor/tools/CropTool.tsx:25-74 | the hint shows exactly when nothing is selected; otherwise apply is enabled exactly by the guard |
| CropTool.ShownWithinHalfPixel | frontend/src/components/editor/tools/CropTool.tsx:31-43 | the displayed x, y, width and height are the region's, each rounded to within half a pixel |
| CropTool.Press | frontend/src/components/editor/tools/CropTool.tsx:45-63 | a press does nothing without a region. Cancel clears the region; apply fires only for a region that passes the guard |
| CropTool.ApplyPassesRegion | frontend/src/components/editor/tools/CropTool.tsx:48-51 | apply is enabled exactly for regions at least 5 each way and passes the region through unchanged |
| CropTool.CropThresholdLooser | frontend/src/components/editor/tools/CropTool.tsx:51 | every region the shape tool keeps (strictly > 5) can be cropped to, but a 5x5 region only cropped |
| CropTool.CropDragApplicable | frontend/src/components/editor/tools/CropTool.tsx:51 | a crop drag can be applied exactly when it spans at least 5 each way |
| EditorPage.RunShapeGesture | frontend/src/pages/Editor.tsx:76-80 | in shape mode, a large enough gesture appends one shape with the tool's settings, selects it and commits; a small one changes no layer and no history; the region is cleared either way |
| EditorPage.ShapeDrag | frontend/src/components/editor/CanvasWorkspace.tsx:101-146 | a shape drag, press to release, adds a layer exactly when its region is strictly larger than 5 each way, and leaves no region |
| EditorPage.TextClick | frontend/src/pages/Editor.tsx:70-74 | a click with the text tool adds one text layer at the point with the tool's settings, selects it and commits |
| EditorPage.SliderDragCommitsOnce | frontend/src/components/editor/tools/FilterTool.tsx:60-61 | a slider drag through two values ends at the last one and commits once, on release |
| EditorPage.ResetAllNotCommitted | frontend/src/components/editor/tools/FilterTool.tsx:28-33 | reset-all shows the defaults and leaves the history alone |
| EditorPage.ChannelResetCommitted | frontend/src/components/editor/tools/FilterTool.tsx:64-67 | a per-channel reset sets the channel to its default, leaves the others, and commits the result |
| EditorPage.DropReordersRows | frontend/src/components/editor/LayersPanel.tsx:47-53 | a drop from row i onto a different row j reorders the session's layers so the panel's rows move as dragged, and commits once |
| EditorPage.DropWithoutMove | frontend/src/components/editor/LayersPanel.tsx:48 | a drop without a dragged row, or onto it, changes nothing |
| EditorPage.CropApply | frontend/src/pages/Editor.tsx:126-127 | pressing apply crops to exactly the selected region when it passes the guard, and calls nothing otherwise |
| PromptCompiler.CaseInsensitive | frontend/src/utils/promptParser.ts:34 | prompts that differ only in letter case compile to the same result |
| PromptCompiler.BlurNumberReadsNumber | frontend/src/utils/promptParser.ts:81-82 | `blur N` yields the number N |
| PromptCompiler.FirstSetSpec | frontend/src/utils/promptParser.ts:111-125 | the search finds the first set flag in table order, or reports that none is set |
| PromptCompiler.TintFirstMatchWins | frontend/src/utils/promptParser.ts:111-118 | the colour group fires exactly when some colour is tinted, and picks the first tinted colour in table order |
| PromptCompiler.GradientColorFirstMentioned | frontend/src/utils/promptParser.ts:122-125 | the gradient colour is the first table colour mentioned anywhere in the text, else `#000000` |
| PromptCompiler.OnlyBlackIsBlack | frontend/src/utils/promptParser.ts:15-31 | black is the only table colour whose hex is `#000000` |
| PromptCompiler.GradientBlackExactly | frontend/src/utils/promptParser.ts:122-125 | the gradient is black exactly when no non-black colour is named, or when an earlier table colour (such as black) is named before it |
| PromptCompiler.StepEffects | frontend/src/utils/promptParser.ts:40-173 | each group records its effect exactly when it matches |
| PromptCompiler.RunEffects | frontend/src/utils/promptParser.ts:40-173 | a run appends exactly the effects of its matching groups, in order |
| PromptCompiler.RecordedEmpty | frontend/src/utils/promptParser.ts:175-180 | nothing is recorded exactly when no group matches |
| PromptCompiler.TonePhaseSpec | frontend/src/utils/promptParser.ts:40-71 | brightness 140/60, contrast 150/70, saturation 180/40 and grayscale 100 from their exclusive branches; nothing else changes |
| PromptCompiler.DetailPhaseSpec | frontend/src/utils/promptParser.ts:73-102 | sepia 80; blur N or 4; sharpen forces blur 0 and adds 20 to contrast (from 100 when unset); warm sets hue -20 and adds 20 saturation and 10 brightness, else cool sets hue 20 |
| PromptCompiler.OverlayPhaseFilters | frontend/src/utils/promptParser.ts:104-134 | the overlay groups change opacity (to 60) and no other channel |
| PromptCompiler.OverlayPhaseOverlay | frontend/src/utils/promptParser.ts:104-128 | a gradient replaces any overlay; otherwise the first tinted colour at 0.25; otherwise a 0.6 vignette |
| PromptCompiler.MoodPhaseSpec | frontend/src/utils/promptParser.ts:136-150 | dramatic adds 30 contrast and subtracts 20 saturation (from 100 when unset) and keeps an existing overlay, else sets a 0.5 vignette; neon assigns 200/120/130 |
| PromptCompiler.PresetPhaseSpec | frontend/src/utils/promptParser.ts:152-173 | matte, night and invert assign their fixed values; later groups win |
| PromptCompiler.BrightnessOutcome | frontend/src/utils/promptParser.ts:40-173 | final brightness is the closed form: the last matching writer wins, and warm adds to what was there |
| PromptCompiler.ContrastOutcome | frontend/src/utils/promptParser.ts:40-173 | final contrast is the closed form, with sharpen and dramatic adding to what was there |
| PromptCompiler.SaturationOutcome | frontend/src/utils/promptParser.ts:40-173 | final saturation is the closed form, with warm adding and dramatic subtracting |
| PromptCompiler.BlurAndHueOutcome | frontend/src/utils/promptParser.ts:79-102 | final blur and hue rotation are the closed form; sharpen beats blur, and invert beats warm and cool |
| PromptCompiler.SingleWriterOutcome | frontend/src/utils/promptParser.ts:67-77 | grayscale, sepia and opacity come from their single groups |
| PromptCompiler.OverlayOutcome | frontend/src/utils/promptParser.ts:104-142 | the final overlay is the closed form: gradient, then colour, then vignette 0.6, then dramatic's 0.5 vignette |
| PromptCompiler.RulesMeetExpectation | frontend/src/utils/promptParser.ts:33-186 | the rule pipeline computes exactly the closed-form filter changes and overlay |
| PromptCompiler.ChangedChannelsExactly | frontend/src/utils/promptParser.ts:181 | a channel appears in the descriptor's filters exactly when some group that writes it matched |
| PromptCompiler.EffectsByPhase | frontend/src/utils/promptParser.ts:40-173 | the effects are those of the five phases, in order |
| PromptCompiler.EffectsAndDescription | frontend/src/utils/promptParser.ts:175-185 | the kind is `none` and the description is the no-effects message exactly when nothing matched; otherwise the kind is the first effect and the description is "Applied: " plus the effects joined by ", " |
| PromptCompiler.KindIsFirstMatch | frontend/src/utils/promptParser.ts:180 | the kind is the effect of the first group in pipeline order that matched |
| PromptCompiler.VintageSepiaExample | frontend/src/utils/promptParser.ts:73-77 | "Make it look vintage with sepia tones" changes only sepia, to 80, with no overlay |
| PromptCompiler.VintageSepiaKind | frontend/src/utils/promptParser.ts:180 | ... and has kind `sepia` |
| PromptCompiler.DramaticVignetteExample | frontend/src/utils/promptParser.ts:104-142 | "Add a dramatic vignette effect" gives contrast 130, saturation 80 and a 0.6 vignette |
| PromptCompiler.DramaticVignetteKind | frontend/src/utils/promptParser.ts:180 | ... and has kind `vignette` |
| PromptCompiler.BlurTenExample | frontend/src/utils/promptParser.ts:79-84 | "blur 10" sets blur 10 |
| PromptCompiler.BlackAndWhiteExample | frontend/src/utils/promptParser.ts:67-71 | "make it black and white" changes only grayscale, to 100 |

## Left out

- Pixel content: loading, cropping, resampling, filtering and exporting pixels are browser canvas work. Images carry only their size and how they were produced.
- The colour and gradient overlay compositing in `applyAITransformation` is modelled only as the paint and alpha it uses, for the same reason.
- Arrow-head geometry (`atan2`, `cos`, `sin`) is floating-point trigonometry. The head is kept as the segment it points along.
- Client-to-canvas coordinate scaling and the crop overlay drawing in `CanvasWorkspace` are DOM layout; positions are taken in canvas coordinates.
- React's state batching and stale closures are not modelled. Each callback sees the latest state and runs to completion. In the source, `pushHistory` reads a captured cursor, and the per-channel filter reset commits the filters from before the reset; the model commits the reset state.
- Regular-expression matching of the prompt rule groups is abstracted into the `Keywords` record, because JavaScript's `\b` word-boundary semantics are not reproduced.
- Unicode case mapping beyond ASCII letters is not modelled.
- Layer ids come from `Date.now()`; they are parameters, and their uniqueness is not assumed.
- The 800 ms delay and the prompt saving of the AI panel are left out as asynchronous UI and network calls, as are all storefront, catalogue, admin and routing pages.
- The keyboard shortcuts of `pages/Editor.tsx` are left out as presentational wiring.
- The toolbar, tools panel, properties panel and the text, shape and draw settings panels are left out as presentational; their settings enter the session as records.
- `getLayerLabel`'s fallback to the id cannot be reached, because the element union has exactly three kinds.
- Undo and redo do not restore the canvas size (the source does not either). The canvas attribute reset that a size assignment causes is not modelled.
- ResizeTool.WidthChanged: requires a non-zero canvas width and height. With a zero side the source divides by zero and produces `Infinity` or `NaN`, which the model does not represent.
- ResizeTool.HeightChanged: requires a non-zero canvas height for the same reason.
- The resize form keeps its values across canvas changes (it is initialised on mount only); the model's form starts from the mount state.
- Session.ReorderElements: requires the source index to name a layer. The panel only ever passes such indices; an out-of-range index would make the source insert `undefined`.
- LayersPanel.Label: keeps the first 15 Unicode scalar values of a text. JavaScript's `slice(0, 15)` counts UTF-16 code units, so above the Basic Multilingual Plane it keeps fewer characters and may split a surrogate pair.
- LayersPanel.LabelIdentifiesKind: its "first 15 characters" are Unicode scalar values, not the UTF-16 code units `slice` counts, for the reason above.
- PromptCompiler.BlurNumber: reads the digits as an exact natural number. `parseInt` gives a double, which loses precision above 2^53; blur radii that large are not modelled.
- PromptCompiler.BlurNumberReadsNumber: the number N read back is exact, whereas the source's double equals N only up to 2^53.
- ResizeTool.InputValue: reads decimal text only. JavaScript's `parseInt` also reads a `0x` prefix as hexadecimal and loses precision beyond 2^53; neither is modelled.

=== FILE: base.dfy ===
/** Small shared vocabulary: an option type for JavaScript's `undefined`/`null`
    and the numeric conversions the editor relies on (`Math.round`, `Math.min`,
    `Math.max`, `Math.abs`, and the truncation a canvas applies to its size). */
module Base {

  /** A value that may be absent (`undefined` or `null` in the editor). */
  datatype Option<+T> = None | Some(value: T) {

    /** The value, or `default` when absent (JavaScript's `??`). */
    function GetOr(default: T): T {
      match this
      case Some(v) => v
      case None => default
    }
  }

  function Min(a: real, b: real): (r: real)
    ensures r <= a && r <= b
    ensures r == a || r == b
  {
    if a <= b then a else b
  }

  function Max(a: real, b: real): (r: real)
    ensures r >= a && r >= b
    ensures r == a || r == b
  {
    if a >= b then a else b
  }

  function Abs(x: real): (r: real)
    ensures r >= 0.0
    ensures r == x || r == -x
  {
    if x >= 0.0 then x else -x
  }

  /** `Math.round`: the nearest integer, halves rounded towards +infinity. */
  function Round(x: real): (r: int)
    ensures x - 0.5 < r as real <= x + 0.5
  {
    (x + 0.5).Floor
  }

  /** Conversion of a non-integral size to a canvas dimension: towards zero. */
  function Trunc(x: real): (r: int)
    ensures x >= 0.0 ==> 0 <= r && r as real <= x < r as real + 1.0
    ensures x < 0.0 ==> r <= 0 && x <= r as real < x + 1.0
  {
    if x >= 0.0 then x.Floor else -((-x).Floor)
  }

  /** The position a JavaScript `slice` or `splice` bound `k` denotes in a
      sequence of length `n`: a negative bound counts back from the end, and
      every bound is clamped into `[0, n]`. */
  function RelativeIndex(n: nat, k: int): (r: nat)
    ensures r <= n
    ensures 0 <= k <= n ==> r == k
    ensures k > n ==> r == n
    ensures k < 0 && n + k >= 0 ==> r == n + k
    ensures n + k < 0 ==> r == 0
  {
    if k < 0 then (if n + k < 0 then 0 else n + k)
    else if k <= n then k else n
  }
}

=== FILE: crop_tool.dfy ===
/** The crop panel: it shows the selected region, rounded to whole pixels,
    and hands it unchanged to the editor once it is at least five pixels on
    each side. */
module CropTool {
  import opened Base
  import opened EditorTypes
  import Workspace

  /** The apply button's guard: five pixels or more on each side. */
  predicate CanApply(region: CropRegion) {
    region.width >= 5.0 && region.height >= 5.0
  }

  /** What the panel shows: a hint while nothing is selected, otherwise the
      region in whole pixels and whether apply is enabled. */
  datatype View =
    | Hint
    | Selected(x: int, y: int, width: int, height: int, applyEnabled: bool)

  function Show(region: Option<CropRegion>): (v: View)
    ensures region.None? <==> v.Hint?
    ensures region.Some? ==> v.applyEnabled == CanApply(region.value)
  {
    match region
    case None => Hint
    case Some(r) => Selected(Round(r.x), Round(r.y), Round(r.width), Round(r.height), CanApply(r))
  }

  /** The displayed numbers are the region's, each within half a pixel. */
  lemma ShownWithinHalfPixel(r: CropRegion)
    ensures var v := Show(Some(r));
              Abs(v.x as real - r.x) <= 0.5 && Abs(v.y as real - r.y) <= 0.5 &&
              Abs(v.width as real - r.width) <= 0.5 && Abs(v.height as real - r.height) <= 0.5
  {
  }

  /** The panel's two buttons, and the calls they make into the editor. */
  datatype Button = ApplyButton | CancelButton

  datatype Call = ApplyCrop(region: CropRegion) | CancelCrop

  /** The call a button press makes: apply passes the selected region through
      as it is, cancel clears it; a press on a disabled or hidden button does
      nothing. */
  function Press(region: Option<CropRegion>, b: Button): (call: Option<Call>)
    ensures region.None? ==> call.None?
    ensures b == CancelButton && region.Some? ==> call == Some(CancelCrop)
    ensures b == ApplyButton && call.Some? ==> region.Some? && CanApply(region.value)
  {
    match region
    case None => None
    case Some(r) =>
      if b == CancelButton then Some(CancelCrop)
      else if CanApply(r) then Some(ApplyCrop(r))
      else None
  }

  /** Apply is offered exactly for regions of five pixels or more each way,
      and it applies the selected region itself. */
  lemma ApplyPassesRegion(r: CropRegion)
    ensures Press(Some(r), ApplyButton).Some? <==> CanApply(r)
    ensures CanApply(r) ==> Press(Some(r), ApplyButton) == Some(ApplyCrop(r))
  {
  }

  /** Every region the shape tool would keep can also be cropped to, but not
      the other way round: a five by five region is croppable and too small
      for a shape. */
  lemma CropThresholdLooser(r: CropRegion)
    ensures Workspace.LargeEnoughForShape(r) ==> CanApply(r)
    ensures CanApply(CropRegion(0.0, 0.0, 5.0, 5.0)) && !Workspace.LargeEnoughForShape(CropRegion(0.0, 0.0, 5.0, 5.0))
  {
  }

  /** A crop drag from `a` to `b` can be applied exactly when it spans five
      pixels or more in each direction. */
  lemma CropDragApplicable(a: Point, b: Point)
    ensures CanApply(Workspace.DragRegion(a, b)) <==> Abs(b.x - a.x) >= 5.0 && Abs(b.y - a.y) >= 5.0
  {
  }
}

=== FILE: editor_page.dfy ===
/** The editor page's wiring: the calls the canvas controller, the filter,
    crop and resize panels and the layers panel make, carried out on the
    session. Ids of new layers come from the clock in the editor and are
    parameters here. */
module EditorPage {
  import opened Base
  import opened EditorTypes
  import opened Filters
  import opened History
  import opened Elements
  import opened Session
  import W = Workspace
  import FT = FilterTool
  import CT = CropTool
  import LP = LayersPanel

  /** `handleCanvasClick`: a click places text only in text mode. */
  function CanvasClicked(s: Session, id: string, at: Point): Session {
    if s.tool == Text then AddTextElement(s, id, at.x, at.y) else s
  }

  /** `handleShapeEnd`: a finished rectangle becomes a shape only in shape
      mode. */
  function ShapeEnded(s: Session, id: string, r: CropRegion): Session {
    if s.tool == Shape then AddShapeElement(s, id, r.x, r.y, r.width, r.height) else s
  }

  /** One call of the canvas controller; `id` names a layer it creates. */
  function RunCanvasCall(s: Session, id: string, c: W.Call): Session {
    match c
    case DrawStart(at) => StartDrawing(s, id, at.x, at.y)
    case DrawMove(at) => ContinueDrawing(s, at.x, at.y)
    case DrawEnd => StopDrawing(s)
    case CanvasClick(at) => CanvasClicked(s, id, at)
    case ShapeEnd(r) => ShapeEnded(s, id, r)
    case SetRegion(next) => s.(cropRegion := next)
  }

  function RunCanvasCalls(s: Session, id: string, calls: seq<W.Call>): Session
    decreases |calls|
  {
    if calls == [] then s else RunCanvasCalls(RunCanvasCall(s, id, calls[0]), id, calls[1..])
  }

  /** One call of the filter panel. */
  function RunFilterCall(s: Session, c: FT.Call): Session {
    match c
    case Change(f) => UpdateFilters(s, f)
    case Commit => CommitFilters(s)
  }

  function RunFilterCalls(s: Session, calls: seq<FT.Call>): Session
    decreases |calls|
  {
    if calls == [] then s else RunFilterCalls(RunFilterCall(s, calls[0]), calls[1..])
  }

  /** One call of the crop panel: apply, or clear the region. */
  function RunCropCall(s: Session, c: CT.Call): Session {
    match c
    case ApplyCrop(r) => ApplyCrop(s, r)
    case CancelCrop => s.(cropRegion := None)
  }

  /** A drop in the layers panel, from the row being dragged onto `row`. */
  function DropOnRow(s: Session, dragIndex: Option<int>, row: int): (r: (Session, Option<int>))
    requires dragIndex.Some? ==> 0 <= dragIndex.value < |s.elements|
  {
    var d := LP.HandleDrop(|s.elements|, dragIndex, row);
    match d.reorder
    case None => (s, d.dragIndex)
    case Some(p) => (ReorderElements(s, p.0, p.1), d.dragIndex)
  }

  // ---------------------------------------------------------------------------
  // properties

  lemma RunCanvasCallsCons(s: Session, id: string, c: W.Call, rest: seq<W.Call>)
    ensures RunCanvasCalls(s, id, [c] + rest) == RunCanvasCalls(RunCanvasCall(s, id, c), id, rest)
  {
    assert ([c] + rest)[1..] == rest;
  }

  /** The calls of a shape gesture, carried out: a large enough rectangle
      becomes one new shape layer on top with the current shape settings,
      and one commit; a smaller one changes nothing but the region. The
      region is cleared either way. */
  lemma RunShapeGesture(s: Session, id: string, start: CropRegion, region: CropRegion)
    requires s.tool == Shape
    ensures var large := W.LargeEnoughForShape(region);
            var calls := [W.SetRegion(Some(start)), W.SetRegion(Some(region))] +
                         (if large then [W.ShapeEnd(region)] else []) + [W.SetRegion(None)];
            var r := RunCanvasCalls(s, id, calls);
            var t := s.shapeSettings;
            r.cropRegion.None? &&
            (large ==>
               r.elements == s.elements + [ShapeElement(id, t.shapeType, region.x, region.y, region.width,
                                                        region.height, t.strokeColor, t.fillColor,
                                                        t.strokeWidth, true)] &&
               r.history == Push(s.history, Snapshot(r)) && r.selected == Some(id)) &&
            (!large ==> r.elements == s.elements && r.history == s.history)
  {
    var large := W.LargeEnoughForShape(region);
    var tail := (if large then [W.ShapeEnd(region)] else []) + [W.SetRegion(None)];
    var calls := [W.SetRegion(Some(start)), W.SetRegion(Some(region))] + tail;
    assert calls == [W.SetRegion(Some(start))] + ([W.SetRegion(Some(region))] + tail);
    assert calls == [W.SetRegion(Some(start)), W.SetRegion(Some(region))] +
                    (if large then [W.ShapeEnd(region)] else []) + [W.SetRegion(None)];
    var s1 := s.(cropRegion := Some(start));
    var s2 := s1.(cropRegion := Some(region));
    RunCanvasCallsCons(s, id, W.SetRegion(Some(start)), [W.SetRegion(Some(region))] + tail);
    RunCanvasCallsCons(s1, id, W.SetRegion(Some(region)), tail);
    if large {
      assert tail == [W.ShapeEnd(region)] + [W.SetRegion(None)];
      var s3 := ShapeEnded(s2, id, region);
      RunCanvasCallsCons(s2, id, W.ShapeEnd(region), [W.SetRegion(None)]);
      RunCanvasCallsCons(s3, id, W.SetRegion(None), []);
      assert RunCanvasCalls(s, id, calls) == s3.(cropRegion := None);
    } else {
      assert tail == [W.SetRegion(None)];
      RunCanvasCallsCons(s2, id, W.SetRegion(None), []);
      assert RunCanvasCalls(s, id, calls) == s2.(cropRegion := None);
    }
  }

  /** A shape drag from `a` to `b` in shape mode, press to release: the
      spanned rectangle, when large enough, becomes a shape layer, as
      above. */
  lemma ShapeDrag(s: Session, id: string, a: Point, b: Point)
    requires s.tool == Shape
    ensures var (d1, c1) := W.MouseDown(Shape, a);
            var c2 := W.MouseMove(d1, Shape, b);
            var region := W.DragRegion(a, b);
            var (_, c3) := W.MouseUp(d1, Shape, Some(region), b);
            var r := RunCanvasCalls(s, id, c1 + c2 + c3);
            r.cropRegion.None? &&
            (W.LargeEnoughForShape(region) <==> |r.elements| == |s.elements| + 1)
  {
    W.ShapeGesture(a, b);
    var region := W.DragRegion(a, b);
    RunShapeGesture(s, id, CropRegion(a.x, a.y, 0.0, 0.0), region);
  }

  /** A click with the text tool (press and release at `p`) adds one text
      layer at `p` with the current text settings, selects it and commits
      once. */
  lemma TextClick(s: Session, id: string, p: Point)
    requires s.tool == Text
    ensures var (d1, c1) := W.MouseDown(Text, p);
            var (_, c2) := W.MouseUp(d1, Text, s.cropRegion, p);
            var r := RunCanvasCalls(s, id, c1 + c2);
            r.elements == s.elements + [NewText(s.textSettings, id, p.x, p.y)] &&
            r.selected == Some(id) && r.history == Push(s.history, Snapshot(r))
  {
    var (d1, c1) := W.MouseDown(Text, p);
    var (_, c2) := W.MouseUp(d1, Text, s.cropRegion, p);
    assert c1 + c2 == [W.CanvasClick(p)];
  }

  lemma RunFilterCallsCons(s: Session, c: FT.Call, rest: seq<FT.Call>)
    ensures RunFilterCalls(s, [c] + rest) == RunFilterCalls(RunFilterCall(s, c), rest)
  {
    assert ([c] + rest)[1..] == rest;
  }

  /** Dragging a slider through two values and letting go commits once,
      with the last value shown and recorded. */
  lemma SliderDragCommitsOnce(s: Session, ch: Channel, v1: int, v2: int)
    ensures var s1 := RunFilterCalls(s, FT.SliderMoved(s.filters, ch, v1));
            var r := RunFilterCalls(s1, FT.SliderMoved(s1.filters, ch, v2) + FT.SliderReleased());
            Get(r.filters, ch) == v2 && r.history == Push(s.history, Snapshot(r))
  {
    var m1 := FT.SliderMoved(s.filters, ch, v1);
    RunFilterCallsCons(s, m1[0], []);
    assert m1 == [m1[0]] + [];
    var s1 := UpdateFilters(s, m1[0].filters);
    assert RunFilterCalls(s, m1) == s1;
    var m2 := FT.SliderMoved(s1.filters, ch, v2);
    var s2 := UpdateFilters(s1, m2[0].filters);
    RunFilterCallsCons(s1, m2[0], [FT.Commit]);
    RunFilterCallsCons(s2, FT.Commit, []);
    assert m2 + FT.SliderReleased() == [m2[0]] + [FT.Commit];
    assert RunFilterCalls(s1, m2 + FT.SliderReleased()) == CommitFilters(s2);
  }

  /** The panel's reset shows the defaults but records nothing in the
      history. */
  lemma ResetAllNotCommitted(s: Session)
    ensures var r := RunFilterCalls(s, FT.ResetAll());
            r.filters == DefaultFilters && r.history == s.history
  {
  }

  /** A per-channel reset leaves that channel at its default, the others as
      they were, and a committed snapshot of exactly that state. */
  lemma ChannelResetCommitted(s: Session, ch: Channel)
    requires Valid(s.history) && FT.ShowsChannelReset(s.filters, ch)
    ensures var r := RunFilterCalls(s, FT.ResetChannel(s.filters, ch));
            Get(r.filters, ch) == Config(ch).default &&
            (forall other :: other != ch ==> Get(r.filters, other) == Get(s.filters, other)) &&
            Current(r.history) == Some(Snapshot(r)) && !CanRedo(r.history)
  {
    var calls := FT.ResetChannel(s.filters, ch);
    var s1 := UpdateFilters(s, calls[0].filters);
    assert calls == [calls[0], calls[1]];
    assert RunFilterCalls(s, calls) == CommitFilters(s1);
    CommitRecords(s1);
  }

  /** Dropping display row `i` on row `j` of the layers panel leaves the rows
      in the order the user dragged them, commits once and clears the drag. */
  lemma DropReordersRows(s: Session, i: int, j: int)
    requires 0 <= i < |s.elements| && 0 <= j < |s.elements| && i != j
    ensures var (r, drag) := DropOnRow(s, Some(i), j);
            LP.DisplayRows(r.elements) == Move(LP.DisplayRows(s.elements), i, j) &&
            r.history == Push(s.history, Snapshot(r)) && drag.None?
  {
    LP.DropMovesRow(s.elements, i, j);
  }

  /** A drop without a dragged row, or onto the dragged row, changes
      nothing. */
  lemma DropWithoutMove(s: Session, dragIndex: Option<int>, row: int)
    requires dragIndex.Some? ==> 0 <= dragIndex.value < |s.elements|
    requires dragIndex.None? || dragIndex == Some(row)
    ensures DropOnRow(s, dragIndex, row) == (s, dragIndex)
  {
  }

  /** Pressing apply in the crop panel crops to exactly the selected region
      when it is five pixels or more on each side, and otherwise does
      nothing. */
  lemma CropApply(s: Session)
    requires s.cropRegion.Some?
    ensures var call := CT.Press(s.cropRegion, CT.ApplyButton);
            var region := s.cropRegion.value;
            (CT.CanApply(region) ==> call.Some? && RunCropCall(s, call.value) == ApplyCrop(s, region)) &&
            (!CT.CanApply(region) ==> call.None?)
  {
  }
}

=== FILE: editor_types.dfy ===
/** The shared data model of the image editor: tool modes, element layers,
    filter channels, crop regions, history snapshots and the descriptor a text
    prompt is compiled into. */
module EditorTypes {
  import opened Base

  /** The nine tool modes of the editor. */
  datatype ToolType = Select | Crop | Draw | Text | Shape | Filter | Resize | Layers | AiEdit

  datatype ShapeType = Rectangle | Circle | Line | Arrow

  datatype Align = Left | Center | Right

  /** The eight display-time adjustment channels. */
  datatype FilterState = FilterState(
    brightness: int, contrast: int, saturation: int, blur: int,
    grayscale: int, sepia: int, hueRotate: int, opacity: int)

  datatype Point = Point(x: real, y: real)

  /** A vector layer above the raster. Every variant carries `id` and
      `visible`; its position in the element sequence is its z-order. */
  datatype CanvasElement =
    | TextElement(id: string, x: real, y: real, width: real, height: real,
                  text: string, fontSize: int, fontFamily: string, color: string,
                  bold: bool, italic: bool, align: Align, visible: bool)
    | ShapeElement(id: string, shapeType: ShapeType, x: real, y: real,
                   width: real, height: real, strokeColor: string,
                   fillColor: string, strokeWidth: real, visible: bool)
    | DrawElement(id: string, points: seq<Point>, color: string,
                  brushSize: real, visible: bool)

  datatype CropRegion = CropRegion(x: real, y: real, width: real, height: real)

  datatype OverlayKind = Vignette | Gradient | ColorWash

  /** The overlay part of a transformation descriptor; every field but the
      kind may be left out. */
  datatype Overlay = Overlay(kind: OverlayKind, color: Option<string>,
                             opacity: Option<real>, direction: Option<string>)

  /** A fill style: a flat colour, a radial gradient from transparent at
      `innerRadius` to black at `edgeAlpha` at `outerRadius`, or a vertical
      gradient from transparent at the top to `bottomColor` at `height`. */
  datatype Paint =
    | Solid(color: string)
    | Radial(cx: real, cy: real, innerRadius: real, outerRadius: real, edgeAlpha: real)
    | Vertical(height: real, bottomColor: string)

  /** Pixel content is not modelled; a raster is identified by how it was
      produced: decoded from an uploaded file, cut to a rectangle, resampled
      to a size, or covered edge to edge with a paint at a global alpha. */
  datatype Pixels =
    | Decoded(file: nat)
    | Cropped(source: Pixels, region: CropRegion)
    | Resized(source: Pixels, newWidth: real, newHeight: real)
    | Overlaid(source: Pixels, paint: Paint, alpha: real)

  /** An `ImageData`: its dimensions and (opaque) content. */
  datatype Image = Image(width: int, height: int, pixels: Pixels)

  /** One immutable undo snapshot. */
  datatype HistoryEntry = HistoryEntry(image: Option<Image>, elements: seq<CanvasElement>,
                                       filters: FilterState)

  /** A `Partial<FilterState>`: the channels a descriptor overwrites. */
  datatype PartialFilters = PartialFilters(
    brightness: Option<int>, contrast: Option<int>, saturation: Option<int>,
    blur: Option<int>, grayscale: Option<int>, sepia: Option<int>,
    hueRotate: Option<int>, opacity: Option<int>)

  const NoFilterChanges := PartialFilters(None, None, None, None, None, None, None, None)

  /** The result of interpreting a free-text edit request. */
  datatype Descriptor = Descriptor(kind: string, filters: Option<PartialFilters>,
                                   overlay: Option<Overlay>, text: Option<string>)

  datatype DrawToolSettings = DrawToolSettings(color: string, brushSize: real)

  datatype TextToolSettings = TextToolSettings(
    text: string, fontSize: int, fontFamily: string, color: string,
    bold: bool, italic: bool, align: Align)

  datatype ShapeToolSettings = ShapeToolSettings(
    shapeType: ShapeType, strokeColor: string, fillColor: string, strokeWidth: real)

  // ---------------------------------------------------------------------------
  // the string literal unions of the source and their Dafny counterparts

  function ToolName(t: ToolType): string {
    match t
    case Select => "select"
    case Crop => "crop"
    case Draw => "draw"
    case Text => "text"
    case Shape => "shape"
    case Filter => "filter"
    case Resize => "resize"
    case Layers => "layers"
    case AiEdit => "aiEdit"
  }

  /** Reads a tool-mode literal; anything but the nine names is rejected. */
  function ParseTool(name: string): (r: Option<ToolType>)
    ensures r.Some? ==> ToolName(r.value) == name
  {
    if name == "select" then Some(Select)
    else if name == "crop" then Some(Crop)
    else if name == "draw" then Some(Draw)
    else if name == "text" then Some(Text)
    else if name == "shape" then Some(Shape)
    else if name == "filter" then Some(Filter)
    else if name == "resize" then Some(Resize)
    else if name == "layers" then Some(Layers)
    else if name == "aiEdit" then Some(AiEdit)
    else None
  }

  /** Every tool mode has its own literal, which reads back as that mode. */
  lemma ToolNameRoundTrip(t: ToolType)
    ensures ParseTool(ToolName(t)) == Some(t)
  {
  }

  function ShapeName(k: ShapeType): string {
    match k
    case Rectangle => "rectangle"
    case Circle => "circle"
    case Line => "line"
    case Arrow => "arrow"
  }

  function ParseShape(name: string): (r: Option<ShapeType>)
    ensures r.Some? ==> ShapeName(r.value) == name
  {
    if name == "rectangle" then Some(Rectangle)
    else if name == "circle" then Some(Circle)
    else if name == "line" then Some(Line)
    else if name == "arrow" then Some(Arrow)
    else None
  }

  lemma ShapeNameRoundTrip(k: ShapeType)
    ensures ParseShape(ShapeName(k)) == Some(k)
  {
  }
}

=== FILE: elements.dfy ===
/** Operations on the element sequence, whose order is the stacking order:
    removing the layers with an id, flipping a layer's visibility, patching
    a layer, extending a stroke, and moving one layer to another position. */
module Elements {
  import opened Base
  import opened EditorTypes

  // ---------------------------------------------------------------------------
  // removing by id

  /** `elements.filter(el => el.id !== id)`. */
  function RemoveId(els: seq<CanvasElement>, id: string): (r: seq<CanvasElement>)
    ensures forall e :: e in r <==> e in els && e.id != id
    ensures |r| <= |els|
    decreases |els|
  {
    if |els| == 0 then []
    else (if els[0].id == id then [] else [els[0]]) + RemoveId(els[1..], id)
  }

  /** Removal keeps the survivors in their order: it distributes over
      concatenation. */
  lemma {:induction false} RemoveIdAppend(a: seq<CanvasElement>, b: seq<CanvasElement>, id: string)
    ensures RemoveId(a + b, id) == RemoveId(a, id) + RemoveId(b, id)
    decreases |a|
  {
    if |a| == 0 {
      assert a + b == b;
    } else {
      assert (a + b)[1..] == a[1..] + b;
      RemoveIdAppend(a[1..], b, id);
    }
  }

  /** Removing an id no element carries changes nothing. */
  lemma {:induction false} RemoveAbsentId(els: seq<CanvasElement>, id: string)
    requires forall k :: 0 <= k < |els| ==> els[k].id != id
    ensures RemoveId(els, id) == els
    decreases |els|
  {
    if |els| > 0 {
      RemoveAbsentId(els[1..], id);
    }
  }

  /** Removing twice is removing once. */
  lemma RemoveIdIdempotent(els: seq<CanvasElement>, id: string)
    ensures RemoveId(RemoveId(els, id), id) == RemoveId(els, id)
  {
    var r := RemoveId(els, id);
    forall k | 0 <= k < |r| ensures r[k].id != id {
      assert r[k] in r;
    }
    RemoveAbsentId(r, id);
  }

  // ---------------------------------------------------------------------------
  // visibility and patches

  /** `elements.map(el => el.id === id ? { ...el, visible: !el.visible } : el)`:
      the matching layers flip their flag, and nothing else changes. */
  function ToggleVisibility(els: seq<CanvasElement>, id: string): (r: seq<CanvasElement>)
    ensures |r| == |els|
    ensures forall k :: 0 <= k < |els| ==> r[k].visible == (els[k].visible != (els[k].id == id))
    ensures forall k :: 0 <= k < |els| ==> r[k].(visible := true) == els[k].(visible := true)
  {
    seq(|els|, k requires 0 <= k < |els| =>
      if els[k].id == id then els[k].(visible := !els[k].visible) else els[k])
  }

  /** Toggling the same id twice restores the sequence. */
  lemma ToggleInvolution(els: seq<CanvasElement>, id: string)
    ensures ToggleVisibility(ToggleVisibility(els, id), id) == els
  {
    var r := ToggleVisibility(ToggleVisibility(els, id), id);
    forall k | 0 <= k < |els| ensures r[k] == els[k] {
      var e := els[k];
      assert r[k].(visible := true) == e.(visible := true);
      assert r[k].visible == e.visible;
    }
  }

  /** `elements.map(el => el.id === id ? { ...el, ...updates } : el)`, with the
      partial record `updates` read as the change it makes to a layer. */
  function UpdateElement(els: seq<CanvasElement>, id: string, apply: CanvasElement -> CanvasElement)
    : (r: seq<CanvasElement>)
    ensures |r| == |els|
    ensures forall k :: 0 <= k < |els| && els[k].id != id ==> r[k] == els[k]
    ensures forall k :: 0 <= k < |els| && els[k].id == id ==> r[k] == apply(els[k])
  {
    seq(|els|, k requires 0 <= k < |els| => if els[k].id == id then apply(els[k]) else els[k])
  }

  /** Toggling is the patch that flips the flag, and an empty patch changes
      nothing. */
  lemma ToggleIsUpdate(els: seq<CanvasElement>, id: string)
    ensures ToggleVisibility(els, id) == UpdateElement(els, id, (e: CanvasElement) => e.(visible := !e.visible))
    ensures UpdateElement(els, id, (e: CanvasElement) => e) == els
  {
  }

  // ---------------------------------------------------------------------------
  // strokes

  /** `continueDrawing`'s map: the draw layers with the stroke's id get the
      point appended; every other layer is unchanged. */
  function AppendPoint(els: seq<CanvasElement>, id: string, p: Point): (r: seq<CanvasElement>)
    ensures |r| == |els|
    ensures forall k :: 0 <= k < |els| && !(els[k].DrawElement? && els[k].id == id) ==> r[k] == els[k]
    ensures forall k :: 0 <= k < |els| && els[k].DrawElement? && els[k].id == id ==>
              r[k].DrawElement? && r[k].points == els[k].points + [p] &&
              r[k].(points := []) == els[k].(points := [])
  {
    seq(|els|, k requires 0 <= k < |els| =>
      if els[k].DrawElement? && els[k].id == id then els[k].(points := els[k].points + [p]) else els[k])
  }

  /** Removes the newest point of the stroke with `id`. */
  function DropLastPoint(els: seq<CanvasElement>, id: string): (r: seq<CanvasElement>)
    ensures |r| == |els|
  {
    seq(|els|, k requires 0 <= k < |els| =>
      if els[k].DrawElement? && els[k].id == id && |els[k].points| > 0
      then els[k].(points := els[k].points[..|els[k].points| - 1]) else els[k])
  }

  /** Appending a point loses nothing: taking it off again restores the layers. */
  lemma AppendPointUndone(els: seq<CanvasElement>, id: string, p: Point)
    ensures DropLastPoint(AppendPoint(els, id, p), id) == els
  {
    var r := DropLastPoint(AppendPoint(els, id, p), id);
    forall k | 0 <= k < |els| ensures r[k] == els[k] {
      if els[k].DrawElement? && els[k].id == id {
        assert (els[k].points + [p])[..|els[k].points|] == els[k].points;
      }
    }
  }

  // ---------------------------------------------------------------------------
  // moving one layer

  /** `splice(from, 1)` then `splice(to, 0, moved)`: the element at `from` is
      taken out and put back in at `to` of what remains. Both positions follow
      JavaScript's rules for negative and too-large indices. */
  function Move<T>(s: seq<T>, from: int, to: int): (r: seq<T>)
    requires 0 < |s| && from < |s|
    ensures |r| == |s|
    ensures r[MoveTarget(|s|, to)] == s[RelativeIndex(|s|, from)]
    ensures Without(r, MoveTarget(|s|, to)) == Without(s, RelativeIndex(|s|, from))
  {
    var f := RelativeIndex(|s|, from);
    var rest := Without(s, f);
    var t := RelativeIndex(|rest|, to);
    var r := rest[..t] + [s[f]] + rest[t..];
    assert r[..t] == rest[..t] && r[t + 1..] == rest[t..];
    r
  }

  /** Where the moved element ends up. */
  function MoveTarget(n: nat, to: int): (t: nat)
    requires n > 0
    ensures t < n
  {
    RelativeIndex(n - 1, to)
  }

  /** The sequence with position `i` taken out. */
  function Without<T>(s: seq<T>, i: nat): (r: seq<T>)
    requires i < |s|
    ensures |r| == |s| - 1
  {
    s[..i] + s[i + 1..]
  }

  /** A sequence is its remainder with the taken-out element put back. */
  lemma PutBack<T>(s: seq<T>, i: nat)
    requires i < |s|
    ensures s == Without(s, i)[..i] + [s[i]] + Without(s, i)[i..]
    ensures multiset(s) == multiset(Without(s, i)) + multiset{s[i]}
  {
    var w := Without(s, i);
    assert w[..i] == s[..i] && w[i..] == s[i + 1..];
    assert s == s[..i] + [s[i]] + s[i + 1..];
  }

  /** A move is a permutation. */
  lemma MovePermutes<T>(s: seq<T>, from: int, to: int)
    requires 0 < |s| && from < |s|
    ensures multiset(Move(s, from, to)) == multiset(s)
  {
    PutBack(s, RelativeIndex(|s|, from));
    PutBack(Move(s, from, to), MoveTarget(|s|, to));
  }

  /** Moving back undoes a move between two in-range positions. */
  lemma MoveBack<T>(s: seq<T>, from: nat, to: nat)
    requires from < |s| && to < |s|
    ensures Move(Move(s, from, to), to, from) == s
  {
    var r2 := Move(Move(s, from, to), to, from);
    PutBack(r2, from);
    PutBack(s, from);
  }

  /** `[A, B, C]` with the first layer moved to the last position gives
      `[B, C, A]`. */
  lemma MoveExample()
    ensures Move(['A', 'B', 'C'], 0, 2) == ['B', 'C', 'A']
  {
  }
}

=== FILE: filter_string.dfy ===
/** The filter compositor: a filter state becomes the ordered list of
    adjustments that differ from the defaults, serialised in the
    filter-function notation of the W3C Filter Effects Module Level 1
    ("Filter Functions" section), e.g. `brightness(140%) blur(4px)`.
    A decoder for exactly that notation is the partner that shows the
    serialisation loses nothing. */
module FilterString {
  import opened Base
  import opened Strings
  import opened EditorTypes
  import opened Filters

  /** One adjustment: a channel and its magnitude. */
  datatype Op = Op(channel: Channel, amount: int)

  /** Position of a channel in the fixed serialisation order. */
  function Rank(ch: Channel): (k: nat)
    ensures k < |AllChannels| && AllChannels[k] == ch
  {
    match ch
    case Brightness => 0
    case Contrast => 1
    case Saturation => 2
    case Blur => 3
    case Grayscale => 4
    case Sepia => 5
    case HueRotate => 6
    case Opacity => 7
  }

  /** Whether a channel contributes a filter function: the toggling channels
      are compared with their default, the three that start at zero only
      count when positive. */
  predicate Active(f: FilterState, ch: Channel) {
    match ch
    case Brightness => f.brightness != 100
    case Contrast => f.contrast != 100
    case Saturation => f.saturation != 100
    case Blur => f.blur > 0
    case Grayscale => f.grayscale > 0
    case Sepia => f.sepia > 0
    case HueRotate => f.hueRotate != 0
    case Opacity => f.opacity != 100
  }

  /** No channel contributes: the compositor is the identity. */
  predicate IsIdentity(f: FilterState) {
    forall ch :: !Active(f, ch)
  }

  /** The adjustments of the channels in `chans`, in that order, keeping only
      active channels. */
  function OpsOver(f: FilterState, chans: seq<Channel>): (ops: seq<Op>)
    ensures forall i :: 0 <= i < |ops| ==> Active(f, ops[i].channel) && ops[i].amount == Get(f, ops[i].channel)
    ensures forall i :: 0 <= i < |ops| ==> ops[i].channel in chans
    ensures forall ch :: ch in chans && Active(f, ch) ==> Op(ch, Get(f, ch)) in ops
    ensures Increasing(chans) ==> InOrder(ops)
    decreases |chans|
  {
    if |chans| == 0 then []
    else
      var ch := chans[0];
      (if Active(f, ch) then [Op(ch, Get(f, ch))] else []) + OpsOver(f, chans[1..])
  }

  /** The compositor's operation list: active channels in the fixed order
      brightness, contrast, saturate, blur, grayscale, sepia, hue-rotate,
      opacity. */
  function Ops(f: FilterState): (ops: seq<Op>)
    ensures forall i :: 0 <= i < |ops| ==> Active(f, ops[i].channel) && ops[i].amount == Get(f, ops[i].channel)
    ensures forall ch :: Active(f, ch) <==> Op(ch, Get(f, ch)) in ops
    ensures InOrder(ops)
    ensures ops == [] <==> IsIdentity(f)
  {
    EveryChannelListed();
    OpsOverEvery(f, AllChannels);
    OpsOver(f, AllChannels)
  }

  /** Channels listed strictly in serialisation order. */
  predicate Increasing(chans: seq<Channel>) {
    forall i, j :: 0 <= i < j < |chans| ==> Rank(chans[i]) < Rank(chans[j])
  }

  /** Adjustments listed strictly in serialisation order (so each channel at
      most once). */
  predicate InOrder(ops: seq<Op>) {
    forall i, j :: 0 <= i < j < |ops| ==> Rank(ops[i].channel) < Rank(ops[j].channel)
  }

  lemma OpsOverEvery(f: FilterState, chans: seq<Channel>)
    requires forall ch :: ch in chans
    ensures forall ch :: Active(f, ch) <==> Op(ch, Get(f, ch)) in OpsOver(f, chans)
    ensures OpsOver(f, chans) == [] <==> IsIdentity(f)
  {
    var ops := OpsOver(f, chans);
    if ops == [] {
      forall ch ensures !Active(f, ch) {
        assert Op(ch, Get(f, ch)) !in ops;
      }
    } else {
      assert Active(f, ops[0].channel);
    }
  }

  lemma EveryChannelListed()
    ensures forall ch :: ch in AllChannels
    ensures Increasing(AllChannels)
  {
    forall ch ensures ch in AllChannels {
      assert AllChannels[Rank(ch)] == ch;
    }
    forall i | 0 <= i < |AllChannels| ensures Rank(AllChannels[i]) == i {
      if i == 0 { assert AllChannels[0] == Brightness; }
      else if i == 1 { assert AllChannels[1] == Contrast; }
      else if i == 2 { assert AllChannels[2] == Saturation; }
      else if i == 3 { assert AllChannels[3] == Blur; }
      else if i == 4 { assert AllChannels[4] == Grayscale; }
      else if i == 5 { assert AllChannels[5] == Sepia; }
      else if i == 6 { assert AllChannels[6] == HueRotate; }
      else { assert AllChannels[7] == Opacity; }
    }
  }

  function FunctionName(ch: Channel): string {
    match ch
    case Brightness => "brightness"
    case Contrast => "contrast"
    case Saturation => "saturate"
    case Blur => "blur"
    case Grayscale => "grayscale"
    case Sepia => "sepia"
    case HueRotate => "hue-rotate"
    case Opacity => "opacity"
  }

  function Unit(ch: Channel): string {
    match ch
    case Blur => "px"
    case HueRotate => "deg"
    case _ => "%"
  }

  /** One filter function, e.g. `hue-rotate(-20deg)`. */
  function Format(op: Op): (s: string)
    ensures ' ' !in s && |s| > 0 && s[0] != 'n'
  {
    FunctionName(op.channel) + "(" + IntToString(op.amount) + Unit(op.channel) + ")"
  }

  function FormatAll(ops: seq<Op>): (parts: seq<string>)
    ensures |parts| == |ops|
    ensures forall k :: 0 <= k < |ops| ==> parts[k] == Format(ops[k])
  {
    seq(|ops|, k requires 0 <= k < |ops| => Format(ops[k]))
  }

  /** `buildFilterString`: the space-separated filter functions, or `none`
      exactly when every channel is at its default. */
  function BuildFilterString(f: FilterState): (r: string)
    ensures r == "none" <==> IsIdentity(f)
  {
    var parts := FormatAll(Ops(f));
    if |parts| > 0 then
      JoinStartsWithFirst(parts, " ");
      assert Join(parts, " ")[0] == parts[0][0];
      Join(parts, " ")
    else "none"
  }

  // ---------------------------------------------------------------------------
  // the partner: reading the notation back

  function ChannelNamed(name: string): (r: Option<Channel>)
    ensures r.Some? ==> FunctionName(r.value) == name
  {
    if name == "brightness" then Some(Brightness)
    else if name == "contrast" then Some(Contrast)
    else if name == "saturate" then Some(Saturation)
    else if name == "blur" then Some(Blur)
    else if name == "grayscale" then Some(Grayscale)
    else if name == "sepia" then Some(Sepia)
    else if name == "hue-rotate" then Some(HueRotate)
    else if name == "opacity" then Some(Opacity)
    else None
  }

  /** Reads one filter function `name(<integer><unit>)`. */
  function ParseFunction(tok: string): Option<Op> {
    var i := IndexOf(tok, '(');
    if i == |tok| then None
    else
      match ChannelNamed(tok[..i])
      case None => None
      case Some(ch) =>
        var rest := tok[i + 1..];
        var close := Unit(ch) + ")";
        if |rest| < |close| || rest[|rest| - |close|..] != close then None
        else
          match ParseInt(rest[..|rest| - |close|])
          case None => None
          case Some(v) => Some(Op(ch, v))
  }

  function ParseAll(toks: seq<string>): Option<seq<Op>>
    decreases |toks|
  {
    if |toks| == 0 then Some([])
    else
      match ParseFunction(toks[0])
      case None => None
      case Some(op) =>
        match ParseAll(toks[1..])
        case None => None
        case Some(ops) => Some([op] + ops)
  }

  function ParseFilterString(s: string): Option<seq<Op>> {
    if s == "none" then Some([]) else ParseAll(Split(s, ' '))
  }

  /** Applies adjustments in order, each overwriting its channel. */
  function ApplyOps(g: FilterState, ops: seq<Op>): FilterState
    decreases |ops|
  {
    if |ops| == 0 then g else ApplyOps(With(g, ops[0].channel, ops[0].amount), ops[1..])
  }

  /** The filter state a serialised filter list denotes. */
  function DecodeFilterString(s: string): Option<FilterState> {
    match ParseFilterString(s)
    case None => None
    case Some(ops) => Some(ApplyOps(DefaultFilters, ops))
  }

  lemma FunctionNameHasNoParen(ch: Channel)
    ensures '(' !in FunctionName(ch)
    ensures ChannelNamed(FunctionName(ch)) == Some(ch)
  {
  }

  lemma {:induction false} ParseFormat(op: Op)
    ensures ParseFunction(Format(op)) == Some(op)
  {
    var name := FunctionName(op.channel);
    var num := IntToString(op.amount);
    var close := Unit(op.channel) + ")";
    var tok := Format(op);
    FunctionNameHasNoParen(op.channel);
    assert tok == name + ['('] + (num + close);
    IndexOfPrefix(name, '(', num + close);
    assert tok[..|name|] == name;
    var rest := tok[|name| + 1..];
    assert rest == num + close;
    assert rest[|rest| - |close|..] == close;
    assert rest[..|rest| - |close|] == num;
    IntToStringRoundTrip(op.amount);
  }

  lemma {:induction false} ParseFormatAll(ops: seq<Op>)
    ensures ParseAll(FormatAll(ops)) == Some(ops)
    decreases |ops|
  {
    if |ops| > 0 {
      ParseFormat(ops[0]);
      assert FormatAll(ops)[1..] == FormatAll(ops[1..]);
      ParseFormatAll(ops[1..]);
      assert ops == [ops[0]] + ops[1..];
    }
  }

  /** Reading the serialisation gives back the compositor's operation list. */
  lemma ParseBuild(f: FilterState)
    ensures ParseFilterString(BuildFilterString(f)) == Some(Ops(f))
  {
    var parts := FormatAll(Ops(f));
    if |parts| > 0 {
      SplitJoin(parts, ' ');
      ParseFormatAll(Ops(f));
    }
  }

  /** The blur, grayscale and sepia channels are never negative. */
  predicate NonNegative(f: FilterState) {
    f.blur >= 0 && f.grayscale >= 0 && f.sepia >= 0
  }

  lemma {:induction false} ApplyOpsOver(g: FilterState, f: FilterState, chans: seq<Channel>)
    requires forall ch :: !Active(f, ch) ==> Get(f, ch) == Get(DefaultFilters, ch)
    requires forall ch :: Get(g, ch) == Get(f, ch) || (ch in chans && Get(g, ch) == Get(DefaultFilters, ch))
    ensures ApplyOps(g, OpsOver(f, chans)) == f
    decreases |chans|
  {
    if |chans| == 0 {
      Extensionality(g, f);
    } else {
      var ch := chans[0];
      var rest := OpsOver(f, chans[1..]);
      if Active(f, ch) {
        var op := Op(ch, Get(f, ch));
        assert OpsOver(f, chans) == [op] + rest;
        var g' := With(g, ch, Get(f, ch));
        assert ([op] + rest)[1..] == rest;
        assert ApplyOps(g, OpsOver(f, chans)) == ApplyOps(g', rest);
        forall c ensures Get(g', c) == Get(f, c) || (c in chans[1..] && Get(g', c) == Get(DefaultFilters, c)) {
          if c != ch {
            assert c in chans ==> c == chans[0] || c in chans[1..];
          }
        }
        ApplyOpsOver(g', f, chans[1..]);
      } else {
        assert OpsOver(f, chans) == rest;
        forall c ensures Get(g, c) == Get(f, c) || (c in chans[1..] && Get(g, c) == Get(DefaultFilters, c)) {
          assert c in chans ==> c == chans[0] || c in chans[1..];
        }
        ApplyOpsOver(g, f, chans[1..]);
      }
    }
  }

  /** Replaying the operation list over the defaults rebuilds the state. */
  lemma ApplyOpsRebuilds(f: FilterState)
    requires NonNegative(f)
    ensures ApplyOps(DefaultFilters, Ops(f)) == f
  {
    forall ch ensures Get(DefaultFilters, ch) == Get(f, ch) || (ch in AllChannels && Get(DefaultFilters, ch) == Get(DefaultFilters, ch)) {
      assert AllChannels[Rank(ch)] == ch;
    }
    ApplyOpsOver(DefaultFilters, f, AllChannels);
  }

  /** Round trip: decoding what `buildFilterString` produced gives back the
      filter state, for every state whose blur, grayscale and sepia are not
      negative (in particular every state within the sliders' ranges). */
  lemma DecodeBuild(f: FilterState)
    requires NonNegative(f)
    ensures DecodeFilterString(BuildFilterString(f)) == Some(f)
  {
    ParseBuild(f);
    ApplyOpsRebuilds(f);
  }

  /** The default filters compose to the identity. */
  lemma DefaultIsIdentity()
    ensures Ops(DefaultFilters) == []
    ensures BuildFilterString(DefaultFilters) == "none"
  {
    assert IsIdentity(DefaultFilters);
  }
}

=== FILE: filter_tool.dfy ===
/** The filter panel: one slider per channel within its declared range, a
    reset of every channel, and a per-channel reset shown only for channels
    away from their default. Each control returns the calls it makes into
    the editor, in order. */
module FilterTool {
  import opened EditorTypes
  import opened Filters
  import FilterString

  /** `onChange` with a new filter state, or `onCommit`. */
  datatype Call = Change(filters: FilterState) | Commit

  /** A slider being dragged (`handleChange`): a live change of one channel
      and no commit. */
  function SliderMoved(f: FilterState, ch: Channel, v: int): (calls: seq<Call>)
    ensures |calls| == 1 && calls[0].Change?
    ensures Get(calls[0].filters, ch) == v
    ensures forall other :: other != ch ==> Get(calls[0].filters, other) == Get(f, other)
  {
    [Change(With(f, ch, v))]
  }

  /** A slider let go: the history commit. */
  function SliderReleased(): (calls: seq<Call>)
  {
    [Commit]
  }

  /** A slider only offers values in its channel's range, so moving it keeps
      every channel of an in-range state in range. */
  lemma SliderKeepsRange(f: FilterState, ch: Channel, v: int)
    requires InRange(f) && Config(ch).min <= v <= Config(ch).max
    ensures InRange(SliderMoved(f, ch, v)[0].filters)
  {
    var g := SliderMoved(f, ch, v)[0].filters;
    forall c
      ensures Config(c).min <= Get(g, c) <= Config(c).max
    {
      if c != ch {
        assert Get(g, c) == Get(f, c);
      }
    }
  }

  /** `handleReset`: every channel back to its default, shown live, without a
      history commit. */
  function ResetAll(): (calls: seq<Call>)
    ensures |calls| == 1 && calls[0].Change?
    ensures forall ch :: Get(calls[0].filters, ch) == Config(ch).default
  {
    [Change(DefaultFilters)]
  }

  /** Resetting everything shows the unfiltered image: the filter string of
      the result is `none`. */
  lemma ResetAllUnfiltered()
    ensures FilterString.BuildFilterString(ResetAll()[0].filters) == "none"
    ensures Commit !in ResetAll()
  {
    FilterString.DefaultIsIdentity();
  }

  /** Whether the per-channel "Reset to default" link is shown. */
  predicate ShowsChannelReset(f: FilterState, ch: Channel) {
    Get(f, ch) != Config(ch).default
  }

  /** The per-channel reset link: nothing when hidden; otherwise the channel
      set back to its default, then a commit. */
  function ResetChannel(f: FilterState, ch: Channel): (calls: seq<Call>)
    ensures !ShowsChannelReset(f, ch) ==> calls == []
    ensures ShowsChannelReset(f, ch) ==>
              |calls| == 2 && calls[0].Change? && calls[1] == Commit &&
              Get(calls[0].filters, ch) == Config(ch).default &&
              forall other :: other != ch ==> Get(calls[0].filters, other) == Get(f, other)
  {
    if ShowsChannelReset(f, ch) then SliderMoved(f, ch, Config(ch).default) + SliderReleased() else []
  }

  /** After a channel's reset its link disappears, so a second reset of the
      same channel does nothing. */
  lemma ResetChannelOnce(f: FilterState, ch: Channel)
    requires ShowsChannelReset(f, ch)
    ensures ResetChannel(ResetChannel(f, ch)[0].filters, ch) == []
  {
  }

  /** The state after following the per-channel reset links of `chans` in
      turn (a link that is hidden does nothing). */
  function ResetChannels(f: FilterState, chans: seq<Channel>): FilterState
    decreases |chans|
  {
    if chans == [] then f
    else
      var calls := ResetChannel(f, chans[0]);
      ResetChannels(if calls == [] then f else calls[0].filters, chans[1..])
  }

  /** Each channel named is at its default afterwards; every other channel is
      untouched. */
  lemma {:induction false} ResetChannelsSpec(f: FilterState, chans: seq<Channel>, c: Channel)
    ensures Get(ResetChannels(f, chans), c) == (if c in chans then Config(c).default else Get(f, c))
    decreases |chans|
  {
    if chans != [] {
      var calls := ResetChannel(f, chans[0]);
      var g := if calls == [] then f else calls[0].filters;
      ResetChannelsSpec(g, chans[1..], c);
      assert c in chans <==> c == chans[0] || c in chans[1..];
      if c == chans[0] {
        ConfigDefaultsMatch(c);
      }
    }
  }

  /** Following every per-channel reset link gives the same state as the
      global reset. */
  lemma EveryChannelResetIsResetAll(f: FilterState)
    ensures ResetChannels(f, AllChannels) == ResetAll()[0].filters
  {
    var g := ResetChannels(f, AllChannels);
    forall ch
      ensures Get(g, ch) == Get(DefaultFilters, ch)
    {
      ResetChannelsSpec(f, AllChannels, ch);
      assert ch in AllChannels by {
        match ch
        case Brightness => assert AllChannels[0] == ch;
        case Contrast => assert AllChannels[1] == ch;
        case Saturation => assert AllChannels[2] == ch;
        case Blur => assert AllChannels[3] == ch;
        case Grayscale => assert AllChannels[4] == ch;
        case Sepia => assert AllChannels[5] == ch;
        case HueRotate => assert AllChannels[6] == ch;
        case Opacity => assert AllChannels[7] == ch;
      }
      ConfigDefaultsMatch(ch);
    }
    Extensionality(g, DefaultFilters);
  }
}

=== FILE: filters.dfy ===
/** The eight filter channels as data: their declared ranges and defaults,
    reading and writing one channel, and merging a partial filter record
    over a full one (the `Object.assign` of a transformation descriptor). */
module Filters {
  import opened Base
  import opened EditorTypes

  datatype Channel = Brightness | Contrast | Saturation | Blur | Grayscale | Sepia | HueRotate | Opacity

  /** The channels in the order the filter panel lists them. */
  const AllChannels: seq<Channel> :=
    [Brightness, Contrast, Saturation, Blur, Grayscale, Sepia, HueRotate, Opacity]

  /** The initial and reset value of every channel. */
  const DefaultFilters := FilterState(100, 100, 100, 0, 0, 0, 0, 100)

  /** A slider's declared bounds and default. */
  datatype ChannelConfig = ChannelConfig(min: int, max: int, default: int)

  function Config(ch: Channel): ChannelConfig {
    match ch
    case Brightness => ChannelConfig(0, 200, 100)
    case Contrast => ChannelConfig(0, 200, 100)
    case Saturation => ChannelConfig(0, 200, 100)
    case Blur => ChannelConfig(0, 20, 0)
    case Grayscale => ChannelConfig(0, 100, 0)
    case Sepia => ChannelConfig(0, 100, 0)
    case HueRotate => ChannelConfig(-180, 180, 0)
    case Opacity => ChannelConfig(0, 100, 100)
  }

  function Get(f: FilterState, ch: Channel): int {
    match ch
    case Brightness => f.brightness
    case Contrast => f.contrast
    case Saturation => f.saturation
    case Blur => f.blur
    case Grayscale => f.grayscale
    case Sepia => f.sepia
    case HueRotate => f.hueRotate
    case Opacity => f.opacity
  }

  /** `{ ...f, [ch]: v }`: exactly one channel changes. */
  function With(f: FilterState, ch: Channel, v: int): (r: FilterState)
    ensures Get(r, ch) == v
    ensures forall other :: other != ch ==> Get(r, other) == Get(f, other)
  {
    match ch
    case Brightness => f.(brightness := v)
    case Contrast => f.(contrast := v)
    case Saturation => f.(saturation := v)
    case Blur => f.(blur := v)
    case Grayscale => f.(grayscale := v)
    case Sepia => f.(sepia := v)
    case HueRotate => f.(hueRotate := v)
    case Opacity => f.(opacity := v)
  }

  /** Two filter states that agree on every channel are the same state. */
  lemma Extensionality(a: FilterState, b: FilterState)
    requires forall ch :: Get(a, ch) == Get(b, ch)
    ensures a == b
  {
    assert Get(a, Brightness) == Get(b, Brightness) && Get(a, Contrast) == Get(b, Contrast);
    assert Get(a, Saturation) == Get(b, Saturation) && Get(a, Blur) == Get(b, Blur);
    assert Get(a, Grayscale) == Get(b, Grayscale) && Get(a, Sepia) == Get(b, Sepia);
    assert Get(a, HueRotate) == Get(b, HueRotate) && Get(a, Opacity) == Get(b, Opacity);
  }

  /** The panel's declared defaults are exactly the editor's initial filters,
      and every default lies inside its channel's range. */
  lemma ConfigDefaultsMatch(ch: Channel)
    ensures Get(DefaultFilters, ch) == Config(ch).default
    ensures Config(ch).min <= Config(ch).default <= Config(ch).max
  {
  }

  /** Every channel within its declared slider range. */
  predicate InRange(f: FilterState) {
    forall ch :: Config(ch).min <= Get(f, ch) <= Config(ch).max
  }

  /** The channel a partial record overwrites, if it does. */
  function GetPartial(p: PartialFilters, ch: Channel): Option<int> {
    match ch
    case Brightness => p.brightness
    case Contrast => p.contrast
    case Saturation => p.saturation
    case Blur => p.blur
    case Grayscale => p.grayscale
    case Sepia => p.sepia
    case HueRotate => p.hueRotate
    case Opacity => p.opacity
  }

  /** `Object.assign({ ...f }, p)`: the keys present in `p` win, every other
      channel keeps its value. */
  function Merge(f: FilterState, p: PartialFilters): (r: FilterState)
    ensures forall ch :: Get(r, ch) == GetPartial(p, ch).GetOr(Get(f, ch))
  {
    FilterState(
      p.brightness.GetOr(f.brightness), p.contrast.GetOr(f.contrast),
      p.saturation.GetOr(f.saturation), p.blur.GetOr(f.blur),
      p.grayscale.GetOr(f.grayscale), p.sepia.GetOr(f.sepia),
      p.hueRotate.GetOr(f.hueRotate), p.opacity.GetOr(f.opacity))
  }

  /** Merging an empty change set changes nothing, and merging twice is the
      same as merging once. */
  lemma MergeLaws(f: FilterState, p: PartialFilters)
    ensures Merge(f, NoFilterChanges) == f
    ensures Merge(Merge(f, p), p) == Merge(f, p)
  {
  }
}

=== FILE: history.dfy ===
/** The undo stack: at most fifty snapshots and a cursor naming the current
    one. Committing cuts off everything after the cursor, so a new edit
    discards the redo branch; undo and redo only move the cursor. */
module History {
  import opened Base
  import opened EditorTypes

  /** The number of snapshots kept. */
  const Limit := 50

  /** `cursor` is `-1` before the first commit. */
  datatype History = History(entries: seq<HistoryEntry>, cursor: int)

  const EmptyHistory := History([], -1)

  /** The shape every reachable history has: the cursor names a snapshot
      unless there is none. */
  predicate Valid(h: History) {
    -1 <= h.cursor < |h.entries| <= Limit && (h.cursor == -1 ==> |h.entries| == 0)
  }

  predicate CanUndo(h: History) {
    h.cursor > 0
  }

  predicate CanRedo(h: History) {
    h.cursor < |h.entries| - 1
  }

  /** The snapshot the cursor names, if any. */
  function Current(h: History): Option<HistoryEntry> {
    if 0 <= h.cursor < |h.entries| then Some(h.entries[h.cursor]) else None
  }

  /** `pushHistory`: keep the snapshots up to the cursor, append `e`, keep the
      last fifty, and make the new snapshot current. The newest snapshots
      before it are the ones that were at and below the old cursor. */
  function Push(h: History, e: HistoryEntry): (r: History)
    ensures Valid(h) ==> Valid(r) && !CanRedo(r) && Current(r) == Some(e)
    ensures Valid(h) ==> |r.entries| == (if h.cursor + 2 < Limit then h.cursor + 2 else Limit)
    ensures Valid(h) ==>
              forall j :: 0 <= j < r.cursor ==> r.entries[j] == h.entries[h.cursor + 1 - r.cursor + j]
  {
    var kept := h.entries[..RelativeIndex(|h.entries|, h.cursor + 1)] + [e];
    History(kept[RelativeIndex(|kept|, -Limit)..], if h.cursor + 1 < Limit - 1 then h.cursor + 1 else Limit - 1)
  }

  /** `undo`: the snapshot before the current one becomes current; `None`
      when the editor does nothing. */
  function Undo(h: History): (r: Option<History>)
    ensures r.Some? ==> r.value.entries == h.entries && r.value.cursor == h.cursor - 1
    ensures Valid(h) ==> (r.Some? <==> CanUndo(h))
    ensures Valid(h) && r.Some? ==> Valid(r.value) && Current(r.value).Some?
  {
    if h.cursor <= 0 then None
    else if h.cursor - 1 >= |h.entries| then None
    else Some(h.(cursor := h.cursor - 1))
  }

  /** `redo`: the snapshot after the current one becomes current; `None`
      when the editor does nothing. */
  function Redo(h: History): (r: Option<History>)
    ensures r.Some? ==> r.value.entries == h.entries && r.value.cursor == h.cursor + 1
    ensures Valid(h) ==> (r.Some? <==> CanRedo(h))
    ensures Valid(h) && r.Some? ==> Valid(r.value) && Current(r.value).Some?
  {
    if h.cursor >= |h.entries| - 1 then None
    else if h.cursor + 1 < 0 then None
    else Some(h.(cursor := h.cursor + 1))
  }

  /** The editor starts in a valid history. */
  lemma EmptyHistoryValid()
    ensures Valid(EmptyHistory) && !CanUndo(EmptyHistory) && !CanRedo(EmptyHistory)
  {
  }

  /** Redo takes back an undo, and undo takes back a redo. */
  lemma UndoRedoInverse(h: History)
    requires Valid(h)
    ensures CanUndo(h) ==> Undo(h).Some? && Redo(Undo(h).value) == Some(h)
    ensures CanRedo(h) ==> Redo(h).Some? && Undo(Redo(h).value) == Some(h)
  {
  }

  /** Undo right after a commit returns to the snapshot that was current
      before it, even when the commit pushed the oldest snapshot out. */
  lemma UndoAfterPush(h: History, e: HistoryEntry)
    requires Valid(h) && h.cursor >= 0
    ensures Undo(Push(h, e)).Some?
    ensures Current(Undo(Push(h, e)).value) == Current(h)
  {
    var r := Push(h, e);
    assert r.entries[r.cursor - 1] == h.entries[h.cursor];
  }

  /** A commit with nothing before the cursor leaves a single snapshot. */
  lemma FirstPush(e: HistoryEntry)
    ensures Push(EmptyHistory, e) == History([e], 0)
  {
  }

  /** The cap: committing to a full history at its newest snapshot keeps
      fifty snapshots, dropping the oldest. */
  lemma PushAtCapacity(h: History, e: HistoryEntry)
    requires Valid(h) && |h.entries| == Limit && h.cursor == Limit - 1
    ensures Push(h, e).entries == h.entries[1..] + [e]
    ensures Push(h, e).cursor == Limit - 1
  {
  }
}

=== FILE: layers.dfy ===
/** The layers panel: it lists the layers top-most first, names each one, and
    turns a drag from one row onto another into a reorder of the element
    sequence. */
module LayersPanel {
  import opened Base
  import opened EditorTypes
  import opened Elements

  function Reverse<T>(s: seq<T>): (r: seq<T>)
    ensures |r| == |s|
    ensures forall i :: 0 <= i < |s| ==> r[i] == s[|s| - 1 - i]
  {
    seq(|s|, i requires 0 <= i < |s| => s[|s| - 1 - i])
  }

  /** The rows of the panel: the element sequence reversed, so the layer
      painted last is listed first. */
  function DisplayRows(els: seq<CanvasElement>): (rows: seq<CanvasElement>)
    ensures |rows| == |els|
    ensures |els| > 0 ==> rows[0] == els[|els| - 1]
  {
    Reverse(els)
  }

  /** The element position a display row stands for. */
  function ActualIndex(n: nat, row: int): int {
    n - 1 - row
  }

  /** Row and position correspond one to one. */
  lemma ActualIndexBijection(n: nat, row: int)
    requires 0 <= row < n
    ensures 0 <= ActualIndex(n, row) < n
    ensures ActualIndex(n, ActualIndex(n, row)) == row
  {
  }

  /** What a drop does: the reorder it asks for, if any, and the drag index
      afterwards. */
  datatype Drop = Drop(reorder: Option<(int, int)>, dragIndex: Option<int>)

  /** `handleDrop`: nothing without a dragged row or onto the dragged row
      itself; otherwise a reorder between the corresponding element positions,
      and the drag index is cleared. */
  function HandleDrop(n: nat, dragIndex: Option<int>, row: int): (r: Drop)
    ensures dragIndex.None? || dragIndex == Some(row) ==> r == Drop(None, dragIndex)
    ensures dragIndex.Some? && dragIndex.value != row ==>
              r.dragIndex.None? && r.reorder.Some? &&
              ActualIndex(n, r.reorder.value.0) == dragIndex.value && ActualIndex(n, r.reorder.value.1) == row
  {
    if dragIndex.None? || dragIndex.value == row then Drop(None, dragIndex)
    else Drop(Some((ActualIndex(n, dragIndex.value), ActualIndex(n, row))), None)
  }

  /** Taking a position out of a reversed sequence is reversing the sequence
      with the mirrored position taken out. */
  lemma ReverseWithout<T>(s: seq<T>, k: nat)
    requires k < |s|
    ensures Without(Reverse(s), k) == Reverse(Without(s, |s| - 1 - k))
  {
  }

  /** Dropping display row `i` onto row `j` moves the dragged layer in the
      list exactly as the user dragged it: the rows after the reorder are the
      old rows with row `i` moved to row `j`. */
  lemma DropMovesRow(els: seq<CanvasElement>, i: nat, j: nat)
    requires i < |els| && j < |els|
    ensures DisplayRows(Move(els, ActualIndex(|els|, i), ActualIndex(|els|, j))) == Move(DisplayRows(els), i, j)
  {
    MovedRowLands(els, i, j);
    WithoutMovedRow(els, i, j);
    SameRemainder(Reverse(Move(els, |els| - 1 - i, |els| - 1 - j)), Move(Reverse(els), i, j), j);
  }

  /** Two sequences that agree at one position and everywhere else are equal. */
  lemma SameRemainder<T>(a: seq<T>, b: seq<T>, j: nat)
    requires j < |a| && j < |b|
    requires a[j] == b[j] && Without(a, j) == Without(b, j)
    ensures a == b
  {
    PutBack(a, j);
    PutBack(b, j);
  }

  /** The dragged layer lands on the target row. */
  lemma MovedRowLands(els: seq<CanvasElement>, i: nat, j: nat)
    requires i < |els| && j < |els|
    ensures Reverse(Move(els, |els| - 1 - i, |els| - 1 - j))[j] == Move(Reverse(els), i, j)[j]
  {
    var n := |els|;
    var moved := Move(els, n - 1 - i, n - 1 - j);
    assert MoveTarget(n, n - 1 - j) == n - 1 - j;
    assert moved[n - 1 - j] == els[n - 1 - i];
    assert MoveTarget(n, j) == j;
    assert Move(Reverse(els), i, j)[j] == Reverse(els)[i];
  }

  /** The other rows keep their order. */
  lemma WithoutMovedRow(els: seq<CanvasElement>, i: nat, j: nat)
    requires i < |els| && j < |els|
    ensures Without(Reverse(Move(els, |els| - 1 - i, |els| - 1 - j)), j) == Without(Move(Reverse(els), i, j), j)
  {
    var n := |els|;
    var moved := Move(els, n - 1 - i, n - 1 - j);
    MoveRemainder(els, n - 1 - i, n - 1 - j);
    MoveRemainder(Reverse(els), i, j);
    calc {
      Without(Reverse(moved), j);
      { ReverseWithout(moved, j); }
      Reverse(Without(moved, n - 1 - j));
      Reverse(Without(els, n - 1 - i));
      { ReverseWithout(els, i); }
      Without(Reverse(els), i);
      Without(Move(Reverse(els), i, j), j);
    }
  }

  /** A move between two in-range positions leaves the remainder in place. */
  lemma MoveRemainder<T>(s: seq<T>, f: nat, t: nat)
    requires f < |s| && t < |s|
    ensures Without(Move(s, f, t), t) == Without(s, f)
  {
    assert MoveTarget(|s|, t) == t;
  }

  // ---------------------------------------------------------------------------
  // row labels

  function Take(s: string, n: nat): (r: string)
    ensures |r| == (if n < |s| then n else |s|) && r == s[..|r|]
  {
    if |s| <= n then s else s[..n]
  }

  /** `getLayerLabel`. */
  function Label(e: CanvasElement): string {
    match e
    case TextElement(_, _, _, _, _, text, _, _, _, _, _, _, _) => "Text: \"" + Take(text, 15) + "...\""
    case ShapeElement(_, shapeType, _, _, _, _, _, _, _, _) => "Shape: " + ShapeName(shapeType)
    case DrawElement(_, _, _, _, _) => "Drawing"
  }

  /** A label tells the kind of layer: a text label quotes the first fifteen
      characters of the text, a shape label names a shape that reads back as
      the layer's shape, and only a stroke is labelled `Drawing`. */
  lemma LabelIdentifiesKind(e: CanvasElement)
    ensures e.TextElement? <==> |Label(e)| >= 7 && Label(e)[..7] == "Text: \""
    ensures e.TextElement? ==> Label(e)[7..|Label(e)| - 4] == Take(e.text, 15)
    ensures e.ShapeElement? <==> |Label(e)| >= 7 && Label(e)[..7] == "Shape: "
    ensures e.ShapeElement? ==> ParseShape(Label(e)[7..]) == Some(e.shapeType)
    ensures e.DrawElement? <==> Label(e) == "Drawing"
  {
    var l := Label(e);
    if e.ShapeElement? {
      ShapeNameRoundTrip(e.shapeType);
      assert l[7..] == ShapeName(e.shapeType);
      assert l[0] == 'S';
    } else if e.TextElement? {
      assert l[7..|l| - 4] == Take(e.text, 15);
      assert l[0] == 'T';
    } else {
      assert l[0] == 'D';
    }
  }
}

=== FILE: prompt_compiler.dfy ===
/** The prompt compiler: free text becomes a transformation descriptor by a
    fixed, ordered list of independent rule groups over the lower-cased text.
    Each group may set or overwrite filter channels and the overlay, so the
    last matching group wins per channel; within the colour-overlay group the
    first colour in table order wins.

    Whether a group's word pattern matches is not computed here: the caller
    supplies `detect`, which reports for the lower-cased prompt which groups
    match (the `Keywords` record). Lower-casing, the `blur N` number and the
    colour names mentioned anywhere in the text are computed. */
module PromptCompiler {
  import opened Base
  import opened Strings
  import opened EditorTypes
  import opened Filters

  /** Which rule groups' word patterns match the lower-cased prompt.
      `tinted` holds the colour names whose tint pattern (`<name> tint`,
      `tint with <name>`, `<name> filter`, ...) matches. */
  datatype Keywords = Keywords(
    brighten: bool, darken: bool,
    highContrast: bool, lowContrast: bool,
    saturate: bool, desaturate: bool,
    grayscale: bool, sepia: bool,
    blur: bool, sharpen: bool,
    warm: bool, cool: bool,
    vignette: bool, tinted: set<string>, gradient: bool,
    transparent: bool, dramatic: bool,
    neon: bool, matte: bool, night: bool, invert: bool)

  const NoKeywords := Keywords(false, false, false, false, false, false, false, false,
                               false, false, false, false, false, {}, false,
                               false, false, false, false, false, false)

  datatype ColorEntry = ColorEntry(name: string, hex: string)

  /** The named colours, in the order they are tried. */
  const ColorMap: seq<ColorEntry> := [
    ColorEntry("red", "#ff4444"), ColorEntry("blue", "#4488ff"),
    ColorEntry("green", "#44bb44"), ColorEntry("yellow", "#ffdd44"),
    ColorEntry("orange", "#ff8844"), ColorEntry("purple", "#aa44ff"),
    ColorEntry("pink", "#ff44aa"), ColorEntry("cyan", "#44ddff"),
    ColorEntry("teal", "#44bbaa"), ColorEntry("white", "#ffffff"),
    ColorEntry("black", "#000000"), ColorEntry("gray", "#888888"),
    ColorEntry("brown", "#885533"), ColorEntry("gold", "#ffcc00"),
    ColorEntry("silver", "#cccccc")]

  /** What the compiler returns. */
  datatype Parsed = Parsed(descriptor: Descriptor, filterChanges: PartialFilters,
                           overlayEffect: Option<Overlay>, description: string)

  /** The state threaded through the rule groups. */
  datatype Acc = Acc(filters: PartialFilters, overlay: Option<Overlay>, effects: seq<string>)

  // ---------------------------------------------------------------------------
  // the `blur N` number

  /** The number captured by the leftmost match of `blur\s+(\d+)` starting at
      or after `k`. */
  function BlurNumberFrom(s: string, k: nat): Option<nat>
    requires k <= |s|
    decreases |s| - k
  {
    if k + 4 > |s| then None
    else
      var sp := SpaceRun(s, k + 4);
      var digits := DigitRun(s, k + 4 + sp);
      if s[k..k + 4] == "blur" && sp > 0 && digits > 0 then
        Some(DigitsValue(s[k + 4 + sp..k + 4 + sp + digits]))
      else BlurNumberFrom(s, k + 1)
  }

  function BlurNumber(lower: string): Option<nat> {
    BlurNumberFrom(lower, 0)
  }

  /** The number written after `blur ` is the one the blur group uses. */
  lemma BlurNumberReadsNumber(n: nat)
    ensures BlurNumber("blur " + NatToString(n)) == Some(n)
  {
    var s := "blur " + NatToString(n);
    assert s[..4] == "blur";
    assert s[5..] == NatToString(n);
    DigitRunToEnd(s, 5);
    assert SpaceRun(s, 5) == 0;
    assert SpaceRun(s, 4) == 1;
    assert s[5..|s|] == NatToString(n);
    DigitsValueOfNat(n);
  }

  // ---------------------------------------------------------------------------
  // colour tables

  /** The first position from `k` on whose flag is set: the search the
      colour groups run over the colour table. */
  function FirstSet(hits: seq<bool>, k: nat): (r: Option<nat>)
    requires k <= |hits|
    ensures r.Some? ==> k <= r.value < |hits|
    decreases |hits| - k
  {
    if k == |hits| then None
    else if hits[k] then Some(k)
    else FirstSet(hits, k + 1)
  }

  /** The search finds a set flag with none set before it, and finds
      nothing only when no flag from `k` on is set. */
  lemma {:induction false} FirstSetSpec(hits: seq<bool>, k: nat)
    requires k <= |hits|
    ensures FirstSet(hits, k).Some? ==> hits[FirstSet(hits, k).value]
    ensures FirstSet(hits, k).Some? ==> forall j :: k <= j < FirstSet(hits, k).value ==> !hits[j]
    ensures FirstSet(hits, k).None? ==> forall j :: k <= j < |hits| ==> !hits[j]
    decreases |hits| - k
  {
    if k < |hits| && !hits[k] {
      FirstSetSpec(hits, k + 1);
    }
  }

  /** Which table colours the tint patterns matched. */
  function TintHits(tinted: set<string>): (hits: seq<bool>)
    ensures |hits| == |ColorMap|
  {
    seq(|ColorMap|, k requires 0 <= k < |ColorMap| => ColorMap[k].name in tinted)
  }

  /** Which table colours are named anywhere in the text. */
  function MentionHits(lower: string): (hits: seq<bool>)
    ensures |hits| == |ColorMap|
  {
    seq(|ColorMap|, k requires 0 <= k < |ColorMap| => Contains(lower, ColorMap[k].name))
  }

  // ---------------------------------------------------------------------------
  // the rule groups, in evaluation order

  function Record(a: Acc, effect: string): Acc {
    a.(effects := a.effects + [effect])
  }

  function BrightnessRule(kw: Keywords, a: Acc): Acc {
    if kw.brighten then Record(a.(filters := a.filters.(brightness := Some(140))), "brightened")
    else if kw.darken then Record(a.(filters := a.filters.(brightness := Some(60))), "darkened")
    else a
  }

  function ContrastRule(kw: Keywords, a: Acc): Acc {
    if kw.highContrast then Record(a.(filters := a.filters.(contrast := Some(150))), "high contrast")
    else if kw.lowContrast then Record(a.(filters := a.filters.(contrast := Some(70))), "low contrast")
    else a
  }

  function SaturationRule(kw: Keywords, a: Acc): Acc {
    if kw.saturate then Record(a.(filters := a.filters.(saturation := Some(180))), "saturated")
    else if kw.desaturate then Record(a.(filters := a.filters.(saturation := Some(40))), "desaturated")
    else a
  }

  function GrayscaleRule(kw: Keywords, a: Acc): Acc {
    if kw.grayscale then Record(a.(filters := a.filters.(grayscale := Some(100))), "grayscale") else a
  }

  function SepiaRule(kw: Keywords, a: Acc): Acc {
    if kw.sepia then Record(a.(filters := a.filters.(sepia := Some(80))), "sepia") else a
  }

  function BlurRule(kw: Keywords, lower: string, a: Acc): Acc {
    if kw.blur then
      var amount := match BlurNumber(lower) case Some(n) => n case None => 4;
      Record(a.(filters := a.filters.(blur := Some(amount))), "blurred")
    else a
  }

  function SharpenRule(kw: Keywords, a: Acc): Acc {
    if kw.sharpen then
      var c := a.filters.contrast.GetOr(100) + 20;
      Record(a.(filters := a.filters.(blur := Some(0), contrast := Some(c))), "sharpened")
    else a
  }

  function HueRule(kw: Keywords, a: Acc): Acc {
    if kw.warm then
      var s := a.filters.saturation.GetOr(100) + 20;
      var b := a.filters.brightness.GetOr(100) + 10;
      Record(a.(filters := a.filters.(hueRotate := Some(-20), saturation := Some(s), brightness := Some(b))),
             "warm tone")
    else if kw.cool then Record(a.(filters := a.filters.(hueRotate := Some(20))), "cool tone")
    else a
  }

  function VignetteRule(kw: Keywords, a: Acc): Acc {
    if kw.vignette then Record(a.(overlay := Some(Overlay(Vignette, None, Some(0.6), None))), "vignette")
    else a
  }

  function ColorOverlayRule(kw: Keywords, a: Acc): Acc {
    match FirstSet(TintHits(kw.tinted), 0)
    case None => a
    case Some(k) =>
      Record(a.(overlay := Some(Overlay(ColorWash, Some(ColorMap[k].hex), Some(0.25), None))),
             ColorMap[k].name + " overlay")
  }

  /** The colour a gradient overlay uses: the first named colour mentioned
      anywhere in the text, else black. */
  function GradientColor(lower: string): string {
    match FirstSet(MentionHits(lower), 0)
    case Some(k) => ColorMap[k].hex
    case None => "#000000"
  }

  function GradientRule(kw: Keywords, lower: string, a: Acc): Acc {
    if kw.gradient then
      Record(a.(overlay := Some(Overlay(Gradient, Some(GradientColor(lower)), Some(0.4), Some("bottom")))),
             "gradient overlay")
    else a
  }

  function OpacityRule(kw: Keywords, a: Acc): Acc {
    if kw.transparent then Record(a.(filters := a.filters.(opacity := Some(60))), "faded") else a
  }

  function DramaticRule(kw: Keywords, a: Acc): Acc {
    if kw.dramatic then
      var c := a.filters.contrast.GetOr(100) + 30;
      var s := a.filters.saturation.GetOr(100) - 20;
      var o := if a.overlay.Some? then a.overlay else Some(Overlay(Vignette, None, Some(0.5), None));
      Record(a.(filters := a.filters.(contrast := Some(c), saturation := Some(s)), overlay := o), "cinematic")
    else a
  }

  function NeonRule(kw: Keywords, a: Acc): Acc {
    if kw.neon then
      Record(a.(filters := a.filters.(saturation := Some(200), brightness := Some(120), contrast := Some(130))),
             "neon glow")
    else a
  }

  function MatteRule(kw: Keywords, a: Acc): Acc {
    if kw.matte then
      Record(a.(filters := a.filters.(contrast := Some(80), saturation := Some(70), brightness := Some(110))),
             "matte")
    else a
  }

  function NightRule(kw: Keywords, a: Acc): Acc {
    if kw.night then
      Record(a.(filters := a.filters.(brightness := Some(50), contrast := Some(120), saturation := Some(80))),
             "night mode")
    else a
  }

  function InvertRule(kw: Keywords, a: Acc): Acc {
    if kw.invert then
      Record(a.(filters := a.filters.(hueRotate := Some(180), saturation := Some(100))), "inverted")
    else a
  }

  /** The rule groups, as data, so that the pipeline can be reasoned about
      one group at a time. */
  datatype Group =
    | BrightnessGroup | ContrastGroup | SaturationGroup | GrayscaleGroup | SepiaGroup
    | BlurGroup | SharpenGroup | HueGroup | VignetteGroup | ColorGroup | GradientGroup
    | OpacityGroup | DramaticGroup | NeonGroup | MatteGroup | NightGroup | InvertGroup

  /** The groups in evaluation order, in five phases: tone, detail, overlay,
      mood and presets. */
  const TonePhase: seq<Group> := [BrightnessGroup, ContrastGroup, SaturationGroup, GrayscaleGroup]
  const DetailPhase: seq<Group> := [SepiaGroup, BlurGroup, SharpenGroup, HueGroup]
  const OverlayPhase: seq<Group> := [VignetteGroup, ColorGroup, GradientGroup, OpacityGroup]
  const MoodPhase: seq<Group> := [DramaticGroup, NeonGroup]
  const PresetPhase: seq<Group> := [MatteGroup, NightGroup, InvertGroup]
  const Pipeline: seq<Group> := TonePhase + DetailPhase + OverlayPhase + MoodPhase + PresetPhase

  function Step(g: Group, kw: Keywords, lower: string, a: Acc): Acc {
    match g
    case BrightnessGroup => BrightnessRule(kw, a)
    case ContrastGroup => ContrastRule(kw, a)
    case SaturationGroup => SaturationRule(kw, a)
    case GrayscaleGroup => GrayscaleRule(kw, a)
    case SepiaGroup => SepiaRule(kw, a)
    case BlurGroup => BlurRule(kw, lower, a)
    case SharpenGroup => SharpenRule(kw, a)
    case HueGroup => HueRule(kw, a)
    case VignetteGroup => VignetteRule(kw, a)
    case ColorGroup => ColorOverlayRule(kw, a)
    case GradientGroup => GradientRule(kw, lower, a)
    case OpacityGroup => OpacityRule(kw, a)
    case DramaticGroup => DramaticRule(kw, a)
    case NeonGroup => NeonRule(kw, a)
    case MatteGroup => MatteRule(kw, a)
    case NightGroup => NightRule(kw, a)
    case InvertGroup => InvertRule(kw, a)
  }

  /** Applies the groups `gs` in order. */
  function Run(gs: seq<Group>, kw: Keywords, lower: string, a: Acc): Acc
    decreases |gs|
  {
    if |gs| == 0 then a else Run(gs[1..], kw, lower, Step(gs[0], kw, lower, a))
  }

  /** No filter changes, no overlay, no effects. */
  const Start := Acc(NoFilterChanges, None, [])

  /** All rule groups, applied in their fixed order to an empty start. */
  function RunRules(kw: Keywords, lower: string): Acc {
    Run(Pipeline, kw, lower, Start)
  }

  const NoEffectsMessage := "No recognized effects found in prompt"

  /** The compiler on an already lower-cased prompt whose group matches are
      `kw`. */
  function CompileLowered(kw: Keywords, lower: string): Parsed {
    var a := RunRules(kw, lower);
    var description := if |a.effects| > 0 then "Applied: " + Join(a.effects, ", ") else NoEffectsMessage;
    var kind := if |a.effects| > 0 then a.effects[0] else "none";
    Parsed(Descriptor(kind, Some(a.filters), a.overlay, None), a.filters, a.overlay, description)
  }

  /** `parsePrompt`: every rule reads the lower-cased prompt. */
  function ParsePrompt(prompt: string, detect: string -> Keywords): Parsed {
    var lower := Lower(prompt);
    CompileLowered(detect(lower), lower)
  }

  /** Prompts that differ only in the case of their letters compile alike;
      in particular shouting a prompt changes nothing. */
  lemma CaseInsensitive(a: string, b: string, detect: string -> Keywords)
    requires SameIgnoringCase(a, b)
    ensures ParsePrompt(a, detect) == ParsePrompt(b, detect)
    ensures ParsePrompt(Upper(a), detect) == ParsePrompt(a, detect)
  {
    LowerIgnoresCase(a, b);
    UpperSameIgnoringCase(a);
    LowerIgnoresCase(Upper(a), a);
  }

  // ---------------------------------------------------------------------------
  // a declarative reading of the groups

  /** The colour group's choice: the first tinted colour in table order. */
  function TintChoice(kw: Keywords): Option<nat> {
    FirstSet(TintHits(kw.tinted), 0)
  }

  /** Whether a group's pattern matched. */
  predicate Fires(g: Group, kw: Keywords) {
    match g
    case BrightnessGroup => kw.brighten || kw.darken
    case ContrastGroup => kw.highContrast || kw.lowContrast
    case SaturationGroup => kw.saturate || kw.desaturate
    case GrayscaleGroup => kw.grayscale
    case SepiaGroup => kw.sepia
    case BlurGroup => kw.blur
    case SharpenGroup => kw.sharpen
    case HueGroup => kw.warm || kw.cool
    case VignetteGroup => kw.vignette
    case ColorGroup => exists k :: 0 <= k < |ColorMap| && ColorMap[k].name in kw.tinted
    case GradientGroup => kw.gradient
    case OpacityGroup => kw.transparent
    case DramaticGroup => kw.dramatic
    case NeonGroup => kw.neon
    case MatteGroup => kw.matte
    case NightGroup => kw.night
    case InvertGroup => kw.invert
  }

  /** The effect name a matching group reports. */
  function EffectOf(g: Group, kw: Keywords): string {
    match g
    case BrightnessGroup => if kw.brighten then "brightened" else "darkened"
    case ContrastGroup => if kw.highContrast then "high contrast" else "low contrast"
    case SaturationGroup => if kw.saturate then "saturated" else "desaturated"
    case GrayscaleGroup => "grayscale"
    case SepiaGroup => "sepia"
    case BlurGroup => "blurred"
    case SharpenGroup => "sharpened"
    case HueGroup => if kw.warm then "warm tone" else "cool tone"
    case VignetteGroup => "vignette"
    case ColorGroup =>
      (match TintChoice(kw) case Some(k) => ColorMap[k].name case None => "no colour") + " overlay"
    case GradientGroup => "gradient overlay"
    case OpacityGroup => "faded"
    case DramaticGroup => "cinematic"
    case NeonGroup => "neon glow"
    case MatteGroup => "matte"
    case NightGroup => "night mode"
    case InvertGroup => "inverted"
  }

  /** The effects the groups `gs` record: one per matching group, in order. */
  function Recorded(gs: seq<Group>, kw: Keywords): seq<string>
    decreases |gs|
  {
    if |gs| == 0 then []
    else (if Fires(gs[0], kw) then [EffectOf(gs[0], kw)] else []) + Recorded(gs[1..], kw)
  }

  // ---------------------------------------------------------------------------
  // properties

  /** The first tinted colour wins: nothing earlier in the table was tinted,
      and a choice is made exactly when some table colour is tinted. */
  lemma TintFirstMatchWins(kw: Keywords)
    ensures TintChoice(kw).Some? <==> Fires(ColorGroup, kw)
    ensures TintChoice(kw).Some? ==>
              ColorMap[TintChoice(kw).value].name in kw.tinted &&
              forall j :: 0 <= j < TintChoice(kw).value ==> ColorMap[j].name !in kw.tinted
  {
    var hits := TintHits(kw.tinted);
    FirstSetSpec(hits, 0);
    var r := FirstSet(hits, 0);
    if r.Some? {
      assert hits[r.value];
      forall j | 0 <= j < r.value ensures ColorMap[j].name !in kw.tinted {
        assert !hits[j];
      }
    } else {
      forall j | 0 <= j < |ColorMap| ensures ColorMap[j].name !in kw.tinted {
        assert !hits[j];
      }
    }
  }

  /** The gradient colour is the first colour named anywhere in the text, in
      table order, and black when no colour is named. */
  lemma GradientColorFirstMentioned(lower: string)
    ensures forall k :: 0 <= k < |ColorMap| && Contains(lower, ColorMap[k].name) &&
              (forall j :: 0 <= j < k ==> !Contains(lower, ColorMap[j].name))
              ==> GradientColor(lower) == ColorMap[k].hex
    ensures (forall k :: 0 <= k < |ColorMap| ==> !Contains(lower, ColorMap[k].name))
              ==> GradientColor(lower) == "#000000"
  {
    var hits := MentionHits(lower);
    FirstSetSpec(hits, 0);
    var r := FirstSet(hits, 0);
    forall k | 0 <= k < |ColorMap| && Contains(lower, ColorMap[k].name) &&
               (forall j :: 0 <= j < k ==> !Contains(lower, ColorMap[j].name))
      ensures GradientColor(lower) == ColorMap[k].hex
    {
      assert hits[k];
    }
  }

  /** Black is the only table colour whose hex is `#000000`. */
  lemma OnlyBlackIsBlack(k: nat)
    requires k < |ColorMap|
    ensures ColorMap[k].hex == "#000000" <==> ColorMap[k].name == "black"
  {
  }

  /** The gradient is black exactly when no colour is named, or when black is
      the first one named. */
  lemma GradientBlackExactly(lower: string)
    ensures GradientColor(lower) == "#000000" <==>
              (forall j :: 0 <= j < |ColorMap| && ColorMap[j].name != "black" && Contains(lower, ColorMap[j].name)
                 ==> exists i :: 0 <= i < j && Contains(lower, ColorMap[i].name))
  {
    var hits := MentionHits(lower);
    FirstSetSpec(hits, 0);
    var r := FirstSet(hits, 0);
    if r.Some? {
      var v := r.value;
      OnlyBlackIsBlack(v);
      assert hits[v];
      assert GradientColor(lower) == ColorMap[v].hex;
      if ColorMap[v].name == "black" {
        forall j | 0 <= j < |ColorMap| && ColorMap[j].name != "black" && Contains(lower, ColorMap[j].name)
          ensures exists i :: 0 <= i < j && Contains(lower, ColorMap[i].name)
        {
          assert hits[j] && j != v;
          assert 0 <= v < j && Contains(lower, ColorMap[v].name);
        }
        assert GradientColor(lower) == "#000000";
      } else {
        assert !exists i :: 0 <= i < v && Contains(lower, ColorMap[i].name) by {
          forall i | 0 <= i < v ensures !Contains(lower, ColorMap[i].name) {
            assert !hits[i];
          }
        }
        assert ColorMap[v].name != "black" && Contains(lower, ColorMap[v].name);
        assert GradientColor(lower) != "#000000";
      }
    } else {
      forall j | 0 <= j < |ColorMap| ensures !Contains(lower, ColorMap[j].name) {
        assert !hits[j];
      }
    }
  }

  /** One group's step records its effect exactly when the group matches. */
  lemma StepEffects(g: Group, kw: Keywords, lower: string, a: Acc)
    ensures Step(g, kw, lower, a).effects == a.effects + (if Fires(g, kw) then [EffectOf(g, kw)] else [])
  {
    if g == ColorGroup {
      TintFirstMatchWins(kw);
    }
  }

  lemma {:induction false} RunAppend(p: seq<Group>, q: seq<Group>, kw: Keywords, lower: string, a: Acc)
    ensures Run(p + q, kw, lower, a) == Run(q, kw, lower, Run(p, kw, lower, a))
    decreases |p|
  {
    if |p| > 0 {
      assert (p + q)[0] == p[0];
      assert (p + q)[1..] == p[1..] + q;
      RunAppend(p[1..], q, kw, lower, Step(p[0], kw, lower, a));
    } else {
      assert p + q == q;
    }
  }

  /** Running groups appends exactly the effects they record. */
  lemma {:induction false} RunEffects(gs: seq<Group>, kw: Keywords, lower: string, a: Acc)
    ensures Run(gs, kw, lower, a).effects == a.effects + Recorded(gs, kw)
    decreases |gs|
  {
    if |gs| > 0 {
      StepEffects(gs[0], kw, lower, a);
      RunEffects(gs[1..], kw, lower, Step(gs[0], kw, lower, a));
    }
  }

  lemma {:induction false} RecordedAppend(p: seq<Group>, q: seq<Group>, kw: Keywords)
    ensures Recorded(p + q, kw) == Recorded(p, kw) + Recorded(q, kw)
    decreases |p|
  {
    if |p| > 0 {
      assert (p + q)[0] == p[0];
      assert (p + q)[1..] == p[1..] + q;
      RecordedAppend(p[1..], q, kw);
    } else {
      assert p + q == q;
    }
  }

  /** Nothing is recorded exactly when no group matches. */
  lemma {:induction false} RecordedEmpty(gs: seq<Group>, kw: Keywords)
    ensures Recorded(gs, kw) == [] <==> forall i :: 0 <= i < |gs| ==> !Fires(gs[i], kw)
    decreases |gs|
  {
    if |gs| > 0 {
      RecordedEmpty(gs[1..], kw);
      assert forall i :: 1 <= i < |gs| ==> gs[i] == gs[1..][i - 1];
    }
  }

  /** No effect is called `none`, so a `none` kind means nothing matched. */
  lemma {:induction false} RecordedNamesAreNotNone(gs: seq<Group>, kw: Keywords)
    ensures forall k :: 0 <= k < |Recorded(gs, kw)| ==> Recorded(gs, kw)[k] != "none"
    decreases |gs|
  {
    if |gs| > 0 {
      var e := EffectOf(gs[0], kw);
      assert e != "none" by {
        if gs[0] == ColorGroup {
          assert |e| > 4;
        }
      }
      RecordedNamesAreNotNone(gs[1..], kw);
    }
  }

  /** The overlay in closed form: a gradient replaces any overlay; otherwise
      the named colour; otherwise the vignette group's 0.6; otherwise the
      dramatic group's default 0.5 vignette; otherwise none. */
  function ExpectedOverlay(kw: Keywords, lower: string): Option<Overlay> {
    if kw.gradient then Some(Overlay(Gradient, Some(GradientColor(lower)), Some(0.4), Some("bottom")))
    else if TintChoice(kw).Some? then
      Some(Overlay(ColorWash, Some(ColorMap[TintChoice(kw).value].hex), Some(0.25), None))
    else if kw.vignette then Some(Overlay(Vignette, None, Some(0.6), None))
    else if kw.dramatic then Some(Overlay(Vignette, None, Some(0.5), None))
    else None
  }

  /** The filter changes in closed form, channel by channel; the last
      matching writer of a channel wins.
      - brightness: 140 or 60 from its own group, warm adds 10 (to that or to
        100), and neon, matte and night assign 120, 110 and 50;
      - contrast: 150 or 70, sharpen adds 20, dramatic adds 30, and neon,
        matte and night assign 130, 80 and 120;
      - saturation: 180 or 40, warm adds 20, dramatic subtracts 20, and neon,
        matte, night and invert assign 200, 70, 80 and 100;
      - blur: `blur N` gives N, the blur group otherwise 4, sharpen forces 0;
      - hue rotation: warm -20, else cool 20, and invert forces 180;
      - grayscale 100, sepia 80 and opacity 60 from their single groups. */
  function ExpectedFilters(kw: Keywords, lower: string): PartialFilters {
    PartialFilters(
      brightness := ExpectedBrightness(kw),
      contrast := ExpectedContrast(kw),
      saturation := ExpectedSaturation(kw),
      blur := if kw.sharpen then Some(0)
              else if kw.blur then Some(match BlurNumber(lower) case Some(n) => n case None => 4)
              else None,
      grayscale := if kw.grayscale then Some(100) else None,
      sepia := if kw.sepia then Some(80) else None,
      hueRotate := if kw.invert then Some(180) else if kw.warm then Some(-20)
                   else if kw.cool then Some(20) else None,
      opacity := if kw.transparent then Some(60) else None)
  }

  function ExpectedBrightness(kw: Keywords): Option<int> {
    var b0 := if kw.brighten then Some(140) else if kw.darken then Some(60) else None;
    var b1 := if kw.warm then Some(b0.GetOr(100) + 10) else b0;
    if kw.night then Some(50) else if kw.matte then Some(110) else if kw.neon then Some(120) else b1
  }

  function ExpectedContrast(kw: Keywords): Option<int> {
    var c0 := if kw.highContrast then Some(150) else if kw.lowContrast then Some(70) else None;
    var c1 := if kw.sharpen then Some(c0.GetOr(100) + 20) else c0;
    var c2 := if kw.dramatic then Some(c1.GetOr(100) + 30) else c1;
    if kw.night then Some(120) else if kw.matte then Some(80) else if kw.neon then Some(130) else c2
  }

  function ExpectedSaturation(kw: Keywords): Option<int> {
    var s0 := if kw.saturate then Some(180) else if kw.desaturate then Some(40) else None;
    var s1 := if kw.warm then Some(s0.GetOr(100) + 20) else s0;
    var s2 := if kw.dramatic then Some(s1.GetOr(100) - 20) else s1;
    if kw.invert then Some(100) else if kw.night then Some(80)
    else if kw.matte then Some(70) else if kw.neon then Some(200) else s2
  }

  /** The tone phase sets brightness, contrast, saturation and grayscale
      from their own groups and leaves everything else alone. */
  lemma TonePhaseSpec(kw: Keywords, lower: string, a: Acc)
    ensures var r := Run(TonePhase, kw, lower, a).filters;
      && r.brightness == (if kw.brighten then Some(140) else if kw.darken then Some(60) else a.filters.brightness)
      && r.contrast == (if kw.highContrast then Some(150) else if kw.lowContrast then Some(70) else a.filters.contrast)
      && r.saturation == (if kw.saturate then Some(180) else if kw.desaturate then Some(40) else a.filters.saturation)
      && r.grayscale == (if kw.grayscale then Some(100) else a.filters.grayscale)
      && r.blur == a.filters.blur && r.sepia == a.filters.sepia
      && r.hueRotate == a.filters.hueRotate && r.opacity == a.filters.opacity
    ensures Run(TonePhase, kw, lower, a).overlay == a.overlay
  {
    var a1 := BrightnessRule(kw, a);
    var a2 := ContrastRule(kw, a1);
    var a3 := SaturationRule(kw, a2);
    var a4 := GrayscaleRule(kw, a3);
    assert Run(TonePhase[3..], kw, lower, a3) == a4;
    assert Run(TonePhase[2..], kw, lower, a2) == a4;
    assert Run(TonePhase[1..], kw, lower, a1) == a4;
  }

  /** The detail phase sets sepia and blur, lets sharpen raise contrast and
      force blur to 0, and lets a warm tone raise saturation and brightness. */
  lemma DetailPhaseSpec(kw: Keywords, lower: string, a: Acc)
    ensures var f := a.filters;
      var r := Run(DetailPhase, kw, lower, a).filters;
      && r.sepia == (if kw.sepia then Some(80) else f.sepia)
      && r.blur == (if kw.sharpen then Some(0)
                    else if kw.blur then Some(match BlurNumber(lower) case Some(n) => n case None => 4)
                    else f.blur)
      && r.contrast == (if kw.sharpen then Some(f.contrast.GetOr(100) + 20) else f.contrast)
      && r.hueRotate == (if kw.warm then Some(-20) else if kw.cool then Some(20) else f.hueRotate)
      && r.saturation == (if kw.warm then Some(f.saturation.GetOr(100) + 20) else f.saturation)
      && r.brightness == (if kw.warm then Some(f.brightness.GetOr(100) + 10) else f.brightness)
      && r.grayscale == f.grayscale && r.opacity == f.opacity
    ensures Run(DetailPhase, kw, lower, a).overlay == a.overlay
  {
    var a1 := SepiaRule(kw, a);
    var a2 := BlurRule(kw, lower, a1);
    var a3 := SharpenRule(kw, a2);
    var a4 := HueRule(kw, a3);
    assert Run(DetailPhase[3..], kw, lower, a3) == a4;
    assert Run(DetailPhase[2..], kw, lower, a2) == a4;
    assert Run(DetailPhase[1..], kw, lower, a1) == a4;
  }

  /** The overlay phase sets opacity and no other channel. */
  lemma OverlayPhaseFilters(kw: Keywords, lower: string, a: Acc)
    ensures var f := a.filters;
      var r := Run(OverlayPhase, kw, lower, a).filters;
      && r.opacity == (if kw.transparent then Some(60) else f.opacity)
      && r.brightness == f.brightness && r.contrast == f.contrast && r.saturation == f.saturation
      && r.blur == f.blur && r.grayscale == f.grayscale && r.sepia == f.sepia && r.hueRotate == f.hueRotate
  {
    var a1 := VignetteRule(kw, a);
    var a2 := ColorOverlayRule(kw, a1);
    var a3 := GradientRule(kw, lower, a2);
    var a4 := OpacityRule(kw, a3);
    assert Run(OverlayPhase[3..], kw, lower, a3) == a4;
    assert Run(OverlayPhase[2..], kw, lower, a2) == a4;
    assert Run(OverlayPhase[1..], kw, lower, a1) == a4;
  }

  /** The overlay phase chooses the overlay: gradient over colour over
      vignette over whatever was there. */
  lemma OverlayPhaseOverlay(kw: Keywords, lower: string, a: Acc)
    ensures Run(OverlayPhase, kw, lower, a).overlay ==
      (if kw.gradient then Some(Overlay(Gradient, Some(GradientColor(lower)), Some(0.4), Some("bottom")))
       else if TintChoice(kw).Some? then
         Some(Overlay(ColorWash, Some(ColorMap[TintChoice(kw).value].hex), Some(0.25), None))
       else if kw.vignette then Some(Overlay(Vignette, None, Some(0.6), None))
       else a.overlay)
  {
    var a1 := VignetteRule(kw, a);
    var a2 := ColorOverlayRule(kw, a1);
    var a3 := GradientRule(kw, lower, a2);
    var a4 := OpacityRule(kw, a3);
    assert Run(OverlayPhase[3..], kw, lower, a3) == a4;
    assert Run(OverlayPhase[2..], kw, lower, a2) == a4;
    assert Run(OverlayPhase[1..], kw, lower, a1) == a4;
  }

  /** The mood phase: dramatic raises contrast by 30, lowers saturation by
      20 and supplies a default vignette; neon then assigns brightness,
      contrast and saturation. */
  lemma MoodPhaseSpec(kw: Keywords, lower: string, a: Acc)
    ensures var f := a.filters;
      var r := Run(MoodPhase, kw, lower, a).filters;
      && r.brightness == (if kw.neon then Some(120) else f.brightness)
      && r.contrast == (if kw.neon then Some(130)
                        else if kw.dramatic then Some(f.contrast.GetOr(100) + 30) else f.contrast)
      && r.saturation == (if kw.neon then Some(200)
                          else if kw.dramatic then Some(f.saturation.GetOr(100) - 20) else f.saturation)
      && r.blur == f.blur && r.grayscale == f.grayscale && r.sepia == f.sepia
      && r.hueRotate == f.hueRotate && r.opacity == f.opacity
    ensures Run(MoodPhase, kw, lower, a).overlay ==
      (if kw.dramatic && a.overlay.None? then Some(Overlay(Vignette, None, Some(0.5), None)) else a.overlay)
  {
    var a1 := DramaticRule(kw, a);
    var a2 := NeonRule(kw, a1);
    assert Run(MoodPhase[1..], kw, lower, a1) == a2;
  }

  /** The preset phase: matte, night and invert assign fixed values, the
      later ones winning; invert also forces hue rotation. */
  lemma PresetPhaseSpec(kw: Keywords, lower: string, a: Acc)
    ensures var f := a.filters;
      var r := Run(PresetPhase, kw, lower, a).filters;
      && r.brightness == (if kw.night then Some(50) else if kw.matte then Some(110) else f.brightness)
      && r.contrast == (if kw.night then Some(120) else if kw.matte then Some(80) else f.contrast)
      && r.saturation == (if kw.invert then Some(100) else if kw.night then Some(80)
                          else if kw.matte then Some(70) else f.saturation)
      && r.hueRotate == (if kw.invert then Some(180) else f.hueRotate)
      && r.blur == f.blur && r.grayscale == f.grayscale && r.sepia == f.sepia && r.opacity == f.opacity
    ensures Run(PresetPhase, kw, lower, a).overlay == a.overlay
  {
    var a1 := MatteRule(kw, a);
    var a2 := NightRule(kw, a1);
    var a3 := InvertRule(kw, a2);
    assert Run(PresetPhase[2..], kw, lower, a2) == a3;
    assert Run(PresetPhase[1..], kw, lower, a1) == a3;
  }

  /** Running the pipeline is running its five phases in turn. */
  lemma RunPhases(kw: Keywords, lower: string)
    ensures RunRules(kw, lower) ==
      Run(PresetPhase, kw, lower, Run(MoodPhase, kw, lower, Run(OverlayPhase, kw, lower,
        Run(DetailPhase, kw, lower, Run(TonePhase, kw, lower, Start)))))
  {
    RunAppend(TonePhase + DetailPhase + OverlayPhase + MoodPhase, PresetPhase, kw, lower, Start);
    RunAppend(TonePhase + DetailPhase + OverlayPhase, MoodPhase, kw, lower, Start);
    RunAppend(TonePhase + DetailPhase, OverlayPhase, kw, lower, Start);
    RunAppend(TonePhase, DetailPhase, kw, lower, Start);
  }

  /** Brightness ends as the closed form says. */
  lemma BrightnessOutcome(kw: Keywords, lower: string)
    ensures RunRules(kw, lower).filters.brightness == ExpectedBrightness(kw)
  {
    RunPhases(kw, lower);
    var t := Run(TonePhase, kw, lower, Start);
    var d := Run(DetailPhase, kw, lower, t);
    var o := Run(OverlayPhase, kw, lower, d);
    var m := Run(MoodPhase, kw, lower, o);
    TonePhaseSpec(kw, lower, Start);
    DetailPhaseSpec(kw, lower, t);
    OverlayPhaseFilters(kw, lower, d);
    MoodPhaseSpec(kw, lower, o);
    PresetPhaseSpec(kw, lower, m);
  }

  /** Contrast ends as the closed form says. */
  lemma ContrastOutcome(kw: Keywords, lower: string)
    ensures RunRules(kw, lower).filters.contrast == ExpectedContrast(kw)
  {
    RunPhases(kw, lower);
    var t := Run(TonePhase, kw, lower, Start);
    var d := Run(DetailPhase, kw, lower, t);
    var o := Run(OverlayPhase, kw, lower, d);
    var m := Run(MoodPhase, kw, lower, o);
    TonePhaseSpec(kw, lower, Start);
    DetailPhaseSpec(kw, lower, t);
    OverlayPhaseFilters(kw, lower, d);
    MoodPhaseSpec(kw, lower, o);
    PresetPhaseSpec(kw, lower, m);
  }

  /** Saturation ends as the closed form says. */
  lemma SaturationOutcome(kw: Keywords, lower: string)
    ensures RunRules(kw, lower).filters.saturation == ExpectedSaturation(kw)
  {
    RunPhases(kw, lower);
    var t := Run(TonePhase, kw, lower, Start);
    var d := Run(DetailPhase, kw, lower, t);
    var o := Run(OverlayPhase, kw, lower, d);
    var m := Run(MoodPhase, kw, lower, o);
    TonePhaseSpec(kw, lower, Start);
    DetailPhaseSpec(kw, lower, t);
    OverlayPhaseFilters(kw, lower, d);
    MoodPhaseSpec(kw, lower, o);
    PresetPhaseSpec(kw, lower, m);
  }

  /** Blur and hue rotation end as the closed form says. */
  lemma BlurAndHueOutcome(kw: Keywords, lower: string)
    ensures RunRules(kw, lower).filters.blur == ExpectedFilters(kw, lower).blur
    ensures RunRules(kw, lower).filters.hueRotate == ExpectedFilters(kw, lower).hueRotate
  {
    RunPhases(kw, lower);
    var t := Run(TonePhase, kw, lower, Start);
    var d := Run(DetailPhase, kw, lower, t);
    var o := Run(OverlayPhase, kw, lower, d);
    var m := Run(MoodPhase, kw, lower, o);
    TonePhaseSpec(kw, lower, Start);
    DetailPhaseSpec(kw, lower, t);
    OverlayPhaseFilters(kw, lower, d);
    OverlayPhaseOverlay(kw, lower, d);
    MoodPhaseSpec(kw, lower, o);
    PresetPhaseSpec(kw, lower, m);
  }

  /** Grayscale, sepia and opacity end as the closed form says. */
  lemma SingleWriterOutcome(kw: Keywords, lower: string)
    ensures var f := RunRules(kw, lower).filters;
      var e := ExpectedFilters(kw, lower);
      f.grayscale == e.grayscale && f.sepia == e.sepia && f.opacity == e.opacity
  {
    RunPhases(kw, lower);
    var t := Run(TonePhase, kw, lower, Start);
    var d := Run(DetailPhase, kw, lower, t);
    var o := Run(OverlayPhase, kw, lower, d);
    var m := Run(MoodPhase, kw, lower, o);
    TonePhaseSpec(kw, lower, Start);
    DetailPhaseSpec(kw, lower, t);
    OverlayPhaseFilters(kw, lower, d);
    OverlayPhaseOverlay(kw, lower, d);
    MoodPhaseSpec(kw, lower, o);
    PresetPhaseSpec(kw, lower, m);
  }

  /** The overlay ends as the closed form says. */
  lemma OverlayOutcome(kw: Keywords, lower: string)
    ensures RunRules(kw, lower).overlay == ExpectedOverlay(kw, lower)
  {
    RunPhases(kw, lower);
    var t := Run(TonePhase, kw, lower, Start);
    var d := Run(DetailPhase, kw, lower, t);
    var o := Run(OverlayPhase, kw, lower, d);
    var m := Run(MoodPhase, kw, lower, o);
    TonePhaseSpec(kw, lower, Start);
    DetailPhaseSpec(kw, lower, t);
    OverlayPhaseFilters(kw, lower, d);
    OverlayPhaseOverlay(kw, lower, d);
    MoodPhaseSpec(kw, lower, o);
    PresetPhaseSpec(kw, lower, m);
  }

  /** The rule pipeline computes exactly the closed-form filter changes and
      overlay. */
  lemma RulesMeetExpectation(kw: Keywords, lower: string)
    ensures RunRules(kw, lower).filters == ExpectedFilters(kw, lower)
    ensures RunRules(kw, lower).overlay == ExpectedOverlay(kw, lower)
  {
    BrightnessOutcome(kw, lower);
    ContrastOutcome(kw, lower);
    SaturationOutcome(kw, lower);
    BlurAndHueOutcome(kw, lower);
    SingleWriterOutcome(kw, lower);
    OverlayOutcome(kw, lower);
  }

  /** A channel appears in the descriptor's filters exactly when a group that
      writes it matched. */
  lemma ChangedChannelsExactly(kw: Keywords, lower: string)
    ensures var f := CompileLowered(kw, lower).filterChanges;
      && (f.brightness.Some? <==> kw.brighten || kw.darken || kw.warm || kw.neon || kw.matte || kw.night)
      && (f.contrast.Some? <==>
            kw.highContrast || kw.lowContrast || kw.sharpen || kw.dramatic || kw.neon || kw.matte || kw.night)
      && (f.saturation.Some? <==>
            kw.saturate || kw.desaturate || kw.warm || kw.dramatic || kw.neon || kw.matte || kw.night || kw.invert)
      && (f.blur.Some? <==> kw.blur || kw.sharpen)
      && (f.grayscale.Some? <==> kw.grayscale)
      && (f.sepia.Some? <==> kw.sepia)
      && (f.hueRotate.Some? <==> kw.warm || kw.cool || kw.invert)
      && (f.opacity.Some? <==> kw.transparent)
  {
    RulesMeetExpectation(kw, lower);
  }

  /** The effects a run records are what its phases record, in order. */
  lemma EffectsByPhase(kw: Keywords, lower: string)
    ensures RunRules(kw, lower).effects ==
      Recorded(TonePhase, kw) + Recorded(DetailPhase, kw) + Recorded(OverlayPhase, kw) +
      Recorded(MoodPhase, kw) + Recorded(PresetPhase, kw)
  {
    RunEffects(Pipeline, kw, lower, Start);
    RecordedAppend(TonePhase + DetailPhase + OverlayPhase + MoodPhase, PresetPhase, kw);
    RecordedAppend(TonePhase + DetailPhase + OverlayPhase, MoodPhase, kw);
    RecordedAppend(TonePhase + DetailPhase, OverlayPhase, kw);
    RecordedAppend(TonePhase, DetailPhase, kw);
  }

  /** The effects, kind and description: every matching group reports its
      effect, in pipeline order; the kind is the first of them and `none`
      exactly when no group matched; the description lists them all. */
  lemma EffectsAndDescription(kw: Keywords, lower: string)
    ensures RunRules(kw, lower).effects == Recorded(Pipeline, kw)
    ensures var p := CompileLowered(kw, lower);
      && (p.descriptor.kind == "none" <==> forall i :: 0 <= i < |Pipeline| ==> !Fires(Pipeline[i], kw))
      && (p.description == NoEffectsMessage <==> forall i :: 0 <= i < |Pipeline| ==> !Fires(Pipeline[i], kw))
      && (Recorded(Pipeline, kw) != [] ==>
            p.descriptor.kind == Recorded(Pipeline, kw)[0] &&
            p.description == "Applied: " + Join(Recorded(Pipeline, kw), ", "))
  {
    RunEffects(Pipeline, kw, lower, Start);
    RecordedEmpty(Pipeline, kw);
    var r := Recorded(Pipeline, kw);
    if |r| > 0 {
      RecordedNamesAreNotNone(Pipeline, kw);
      var p := CompileLowered(kw, lower);
      assert p.description[0] == 'A';
    }
  }

  /** What a run records first is the effect of the first matching group. */
  lemma {:induction false} RecordedFirst(gs: seq<Group>, kw: Keywords, i: nat)
    requires i < |gs| && Fires(gs[i], kw)
    requires forall j :: 0 <= j < i ==> !Fires(gs[j], kw)
    ensures |Recorded(gs, kw)| > 0 && Recorded(gs, kw)[0] == EffectOf(gs[i], kw)
    decreases i
  {
    if i > 0 {
      RecordedFirst(gs[1..], kw, i - 1);
    }
  }

  /** The kind is the effect of the first group that matched, whatever
      matches later. */
  lemma KindIsFirstMatch(kw: Keywords, lower: string, i: nat)
    requires i < |Pipeline| && Fires(Pipeline[i], kw)
    requires forall j :: 0 <= j < i ==> !Fires(Pipeline[j], kw)
    ensures CompileLowered(kw, lower).descriptor.kind == EffectOf(Pipeline[i], kw)
  {
    EffectsAndDescription(kw, lower);
    RecordedFirst(Pipeline, kw, i);
  }

  // ---------------------------------------------------------------------------
  // worked examples

  /** "Make it look vintage with sepia tones": only the sepia group matches,
      giving sepia 80 and no overlay ... */
  lemma VintageSepiaExample(lower: string)
    ensures var p := CompileLowered(NoKeywords.(sepia := true), lower);
      && p.filterChanges == NoFilterChanges.(sepia := Some(80))
      && p.overlayEffect == None
  {
    var kw := NoKeywords.(sepia := true);
    TintFirstMatchWins(kw);
    RulesMeetExpectation(kw, lower);
  }

  /** ... and kind `sepia`. */
  lemma VintageSepiaKind(lower: string)
    ensures CompileLowered(NoKeywords.(sepia := true), lower).descriptor.kind == "sepia"
  {
    assert Pipeline[4] == SepiaGroup;
    KindIsFirstMatch(NoKeywords.(sepia := true), lower, 4);
  }

  /** "Add a dramatic vignette effect": the vignette group sets a 0.6
      vignette, which the dramatic group keeps, while it moves contrast to
      130 and saturation to 80 ... */
  lemma DramaticVignetteExample(lower: string)
    ensures var p := CompileLowered(NoKeywords.(vignette := true, dramatic := true), lower);
      && p.filterChanges == NoFilterChanges.(contrast := Some(130), saturation := Some(80))
      && p.overlayEffect == Some(Overlay(Vignette, None, Some(0.6), None))
  {
    var kw := NoKeywords.(vignette := true, dramatic := true);
    TintFirstMatchWins(kw);
    RulesMeetExpectation(kw, lower);
  }

  /** ... and reports the vignette first. */
  lemma DramaticVignetteKind(lower: string)
    ensures CompileLowered(NoKeywords.(vignette := true, dramatic := true), lower).descriptor.kind == "vignette"
  {
    assert Pipeline[8] == VignetteGroup;
    KindIsFirstMatch(NoKeywords.(vignette := true, dramatic := true), lower, 8);
  }

  /** "blur 10" gives blur 10. */
  lemma BlurTenExample()
    ensures CompileLowered(NoKeywords.(blur := true), "blur 10").filterChanges.blur == Some(10)
  {
    var kw := NoKeywords.(blur := true);
    RulesMeetExpectation(kw, "blur 10");
    BlurTenReadsTen();
    assert CompileLowered(kw, "blur 10").filterChanges.blur == ExpectedFilters(kw, "blur 10").blur;
  }

  lemma BlurTenReadsTen()
    ensures BlurNumber("blur 10") == Some(10)
  {
    BlurNumberReadsNumber(10);
    assert "blur " + NatToString(10) == "blur 10";
  }

  /** "make it black and white" gives grayscale 100. */
  lemma BlackAndWhiteExample(lower: string)
    ensures CompileLowered(NoKeywords.(grayscale := true), lower).filterChanges ==
              NoFilterChanges.(grayscale := Some(100))
  {
    RulesMeetExpectation(NoKeywords.(grayscale := true), lower);
  }
}

=== FILE: render.dfy ===
/** Rendering as data: a frame is the list of 2D-context drawing commands the
    editor issues, in order, so later commands paint over earlier ones. */
module Render {
  import opened Base
  import opened Strings
  import opened EditorTypes
  import opened FilterString

  /** The pixel size of the canvas element. */
  datatype Dims = Dims(width: int, height: int)

  datatype Command =
    | ClearRect(x: real, y: real, w: real, h: real)
    | FillRect(paint: Paint, alpha: real, x: real, y: real, w: real, h: real)
    | StrokeRect(color: string, lineWidth: real, x: real, y: real, w: real, h: real)
    | FillText(text: string, font: string, color: string, align: Align, x: real, y: real)
    | FillEllipse(color: string, cx: real, cy: real, rx: real, ry: real)
    | StrokeEllipse(color: string, lineWidth: real, cx: real, cy: real, rx: real, ry: real)
      /** A stroked open path; `rounded` is the round cap and join of strokes. */
    | StrokePath(color: string, lineWidth: real, points: seq<Point>, rounded: bool)
      /** The filled head of an arrow ending at `tip` and coming from `tail`. */
    | FillArrowHead(color: string, tip: Point, tail: Point)
      /** The raster copied in under a CSS filter. */
    | PaintImage(image: Image, filter: string)

  // ---------------------------------------------------------------------------
  // text

  /** The CSS font shorthand: optional `italic `, optional `bold `, the size
      in pixels and the family. Each part can be read back from the text. */
  function FontOf(italic: bool, bold: bool, fontSize: int, family: string): (font: string)
    ensures italic <==> |font| >= 7 && font[..7] == "italic "
    ensures var k := if italic then 7 else 0;
            bold <==> |font| >= k + 5 && font[k..k + 5] == "bold "
    ensures var k := (if italic then 7 else 0) + (if bold then 5 else 0);
            k < |font| - 3 - |family| && ParseInt(font[k..|font| - 3 - |family|]) == Some(fontSize)
    ensures |font| >= 3 + |family| && font[|font| - 3 - |family|..] == "px " + family
  {
    var head := (if italic then "italic " else "") + (if bold then "bold " else "");
    FontReads(italic, bold, IntToString(fontSize), "px " + family);
    IntToStringRoundTrip(fontSize);
    head + IntToString(fontSize) + ("px " + family)
  }

  /** The flags, the size text and the tail of a font string are where
      `FontOf` says. */
  lemma FontReads(italic: bool, bold: bool, size: string, tail: string)
    requires |size| > 0 && size[0] != 'i' && size[0] != 'b'
    ensures var head := (if italic then "italic " else "") + (if bold then "bold " else "");
            var font := head + size + tail;
            var k := if italic then 7 else 0;
            (italic <==> |font| >= 7 && font[..7] == "italic ") &&
            (bold <==> |font| >= k + 5 && font[k..k + 5] == "bold ") &&
            font[|head|..|head| + |size|] == size && font[|head| + |size|..] == tail
  {
    var head := (if italic then "italic " else "") + (if bold then "bold " else "");
    var font := head + size + tail;
    ThreeParts(head, size, tail);
    var k := if italic then 7 else 0;
    assert font[..k] == head[..k] && font[k] == (head + size)[k];
    assert head[..k] == (if italic then "italic " else "");
  }

  /** The three parts of a concatenation can be sliced back out of it. */
  lemma ThreeParts<T>(a: seq<T>, b: seq<T>, c: seq<T>)
    ensures (a + b + c)[..|a|] == a && (a + b + c)[..|a| + |b|] == a + b
    ensures (a + b + c)[|a|..|a| + |b|] == b && (a + b + c)[|a| + |b|..] == c
  {
  }

  /** The x the text is anchored at for its alignment. */
  function AnchorX(align: Align, x: real, width: real): real {
    match align
    case Left => x
    case Center => x + width / 2.0
    case Right => x + width
  }

  /** Where line `i` of a text layer is drawn. */
  function LineY(y: real, fontSize: int, i: nat): real {
    y + i as real * (fontSize as real * 1.2)
  }

  /** The first line sits at the layer's top, and each further line
      `1.2 * fontSize` below the one before. */
  lemma LineSpacing(y: real, fontSize: int, i: nat)
    ensures LineY(y, fontSize, 0) == y
    ensures LineY(y, fontSize, i + 1) == LineY(y, fontSize, i) + 1.2 * fontSize as real
  {
  }

  /** `renderTextElement`: one `fillText` per line of the text, in its colour
      and font, all at the anchor for its alignment, line `i` at `LineY`. */
  function RenderText(e: CanvasElement): (cmds: seq<Command>)
    requires e.TextElement?
    ensures |cmds| == |Split(e.text, '\n')| > 0
    ensures forall i :: 0 <= i < |cmds| ==>
              cmds[i].FillText? && cmds[i].x == AnchorX(e.align, e.x, e.width) && cmds[i].y == LineY(e.y, e.fontSize, i) &&
              cmds[i].color == e.color && cmds[i].align == e.align &&
              cmds[i].font == FontOf(e.italic, e.bold, e.fontSize, e.fontFamily)
  {
    var lines := Split(e.text, '\n');
    var font := FontOf(e.italic, e.bold, e.fontSize, e.fontFamily);
    seq(|lines|, i requires 0 <= i < |lines| =>
      FillText(lines[i], font, e.color, e.align, AnchorX(e.align, e.x, e.width), LineY(e.y, e.fontSize, i)))
  }

  /** The texts of a command list. */
  function Texts(cmds: seq<Command>): seq<string>
    requires forall i :: 0 <= i < |cmds| ==> cmds[i].FillText?
  {
    seq(|cmds|, i requires 0 <= i < |cmds| => cmds[i].text)
  }

  /** The drawn lines, put back together with line breaks, are the text: no
      character is lost or drawn twice. */
  lemma TextLinesRejoin(e: CanvasElement)
    requires e.TextElement?
    ensures Join(Texts(RenderText(e)), "\n") == e.text
  {
    assert Texts(RenderText(e)) == Split(e.text, '\n');
    JoinSplit(e.text, '\n');
  }

  // ---------------------------------------------------------------------------
  // shapes and strokes

  /** `renderShapeElement`. The arrow's head is kept as the segment it sits on;
      its trigonometry is not modelled. */
  function RenderShape(e: CanvasElement): (cmds: seq<Command>)
    requires e.ShapeElement?
    ensures 1 <= |cmds| <= 2
    ensures e.shapeType == Rectangle || e.shapeType == Circle ==>
              (|cmds| == 2 <==> e.fillColor != "transparent") &&
              (cmds[|cmds| - 1].StrokeRect? || cmds[|cmds| - 1].StrokeEllipse?) &&
              cmds[|cmds| - 1].color == e.strokeColor && cmds[|cmds| - 1].lineWidth == e.strokeWidth
    ensures e.shapeType == Rectangle ==>
              cmds[|cmds| - 1] == StrokeRect(e.strokeColor, e.strokeWidth, e.x, e.y, e.width, e.height) &&
              (|cmds| == 2 ==> cmds[0] == FillRect(Solid(e.fillColor), 1.0, e.x, e.y, e.width, e.height))
    ensures e.shapeType == Circle ==>
              cmds[|cmds| - 1].StrokeEllipse? && (|cmds| == 2 ==> cmds[0].FillEllipse? && cmds[0].color == e.fillColor)
    ensures e.shapeType == Circle ==>
              forall c :: c in cmds ==>
                (c.FillEllipse? || c.StrokeEllipse?) &&
                c.cx == e.x + e.width / 2.0 && c.cy == e.y + e.height / 2.0 &&
                c.rx == Abs(e.width / 2.0) && c.ry == Abs(e.height / 2.0)
    ensures e.shapeType == Line || e.shapeType == Arrow ==>
              cmds[0] == StrokePath(e.strokeColor, e.strokeWidth,
                                    [Point(e.x, e.y), Point(e.x + e.width, e.y + e.height)], false)
    ensures e.shapeType == Arrow ==>
              |cmds| == 2 && cmds[1] == FillArrowHead(e.strokeColor, Point(e.x + e.width, e.y + e.height), Point(e.x, e.y))
  {
    var filled := e.fillColor != "transparent";
    match e.shapeType
    case Rectangle =>
      (if filled then [FillRect(Solid(e.fillColor), 1.0, e.x, e.y, e.width, e.height)] else []) +
      [StrokeRect(e.strokeColor, e.strokeWidth, e.x, e.y, e.width, e.height)]
    case Circle =>
      var cx, cy, rx, ry := e.x + e.width / 2.0, e.y + e.height / 2.0, Abs(e.width / 2.0), Abs(e.height / 2.0);
      (if filled then [FillEllipse(e.fillColor, cx, cy, rx, ry)] else []) +
      [StrokeEllipse(e.strokeColor, e.strokeWidth, cx, cy, rx, ry)]
    case Line =>
      [StrokePath(e.strokeColor, e.strokeWidth, [Point(e.x, e.y), Point(e.x + e.width, e.y + e.height)], false)]
    case Arrow =>
      var tail, tip := Point(e.x, e.y), Point(e.x + e.width, e.y + e.height);
      [StrokePath(e.strokeColor, e.strokeWidth, [tail, tip], false), FillArrowHead(e.strokeColor, tip, tail)]
  }

  /** `renderDrawElement`: nothing for fewer than two points, otherwise one
      round-capped path through every point in order. */
  function RenderDraw(e: CanvasElement): (cmds: seq<Command>)
    requires e.DrawElement?
    ensures |e.points| < 2 <==> cmds == []
    ensures |e.points| >= 2 ==> cmds == [StrokePath(e.color, e.brushSize, e.points, true)]
  {
    if |e.points| < 2 then [] else [StrokePath(e.color, e.brushSize, e.points, true)]
  }

  function RenderElement(e: CanvasElement): seq<Command> {
    match e
    case TextElement(_, _, _, _, _, _, _, _, _, _, _, _, _) => RenderText(e)
    case ShapeElement(_, _, _, _, _, _, _, _, _, _) => RenderShape(e)
    case DrawElement(_, _, _, _, _) => RenderDraw(e)
  }

  // ---------------------------------------------------------------------------
  // the element layers

  /** `renderElements`: the visible elements in sequence order. */
  function RenderElements(els: seq<CanvasElement>): seq<Command>
    decreases |els|
  {
    if |els| == 0 then []
    else (if els[0].visible then RenderElement(els[0]) else []) + RenderElements(els[1..])
  }

  /** Every element rendered, visible or not. */
  function RenderAll(els: seq<CanvasElement>): seq<Command>
    decreases |els|
  {
    if |els| == 0 then [] else RenderElement(els[0]) + RenderAll(els[1..])
  }

  /** The visible elements, in order. */
  function VisibleOnly(els: seq<CanvasElement>): (r: seq<CanvasElement>)
    ensures forall e :: e in r <==> e in els && e.visible
    decreases |els|
  {
    if |els| == 0 then []
    else (if els[0].visible then [els[0]] else []) + VisibleOnly(els[1..])
  }

  /** Rendering the layers is rendering exactly the visible ones, in order. */
  lemma {:induction false} RenderOnlyVisible(els: seq<CanvasElement>)
    ensures RenderElements(els) == RenderAll(VisibleOnly(els))
    decreases |els|
  {
    if |els| > 0 {
      var v := VisibleOnly(els[1..]);
      RenderOnlyVisible(els[1..]);
      if els[0].visible {
        var w := [els[0]] + v;
        assert VisibleOnly(els) == w;
        assert w[0] == els[0] && w[1..] == v;
        assert RenderAll(w) == RenderElement(els[0]) + RenderAll(v);
      } else {
        assert VisibleOnly(els) == v;
      }
    }
  }

  /** The layers of a concatenation render one after the other: everything
      in `b` paints over everything in `a`. */
  lemma {:induction false} RenderAppend(a: seq<CanvasElement>, b: seq<CanvasElement>)
    ensures RenderElements(a + b) == RenderElements(a) + RenderElements(b)
    decreases |a|
  {
    if |a| == 0 {
      assert a + b == b;
    } else {
      assert (a + b)[1..] == a[1..] + b;
      RenderAppend(a[1..], b);
    }
  }

  /** A hidden layer draws nothing. */
  lemma RenderSkipsHidden(a: seq<CanvasElement>, e: CanvasElement, b: seq<CanvasElement>)
    requires !e.visible
    ensures RenderElements(a + [e] + b) == RenderElements(a + b)
  {
    RenderAppend(a + [e], b);
    RenderAppend(a, [e]);
    RenderAppend(a, b);
    assert RenderElements([e]) == [];
  }

  // ---------------------------------------------------------------------------
  // overlays and the whole frame

  /** The intensity `drawVignette` uses when none is passed. */
  const DefaultVignetteIntensity := 0.7

  /** `drawVignette`'s gradient: centred on the canvas, clear up to 0.3 of the
      shorter side and reaching the intensity at 0.7 of the longer side. */
  function VignettePaint(w: real, h: real, intensity: Option<real>): (p: Paint)
    ensures p.Radial? && p.cx == w / 2.0 && p.cy == h / 2.0
    ensures p.edgeAlpha == intensity.GetOr(DefaultVignetteIntensity)
    ensures w >= 0.0 && h >= 0.0 ==> 0.0 <= p.innerRadius <= p.outerRadius
    ensures p.innerRadius == 0.3 * (if w <= h then w else h)
    ensures p.outerRadius == 0.7 * (if w >= h then w else h)
  {
    Radial(w / 2.0, h / 2.0, Min(w, h) * 0.3, Max(w, h) * 0.7, intensity.GetOr(DefaultVignetteIntensity))
  }

  /** On a canvas of any size, the clear disc of the vignette lies inside the
      canvas. The dark ring starts beyond the midpoint of every edge. */
  lemma VignetteInsideCanvas(w: real, h: real, intensity: Option<real>)
    requires w >= 0.0 && h >= 0.0
    ensures var p := VignettePaint(w, h, intensity);
            0.0 <= p.cx - p.innerRadius && p.cx + p.innerRadius <= w &&
            0.0 <= p.cy - p.innerRadius && p.cy + p.innerRadius <= h
    ensures var p := VignettePaint(w, h, intensity);
            p.outerRadius >= p.cx && p.outerRadius >= p.cy
  {
  }

  /** The vignette has no fixed pixel size: scaling the canvas scales its
      centre and both radii alike and keeps its intensity. */
  lemma VignetteScales(w: real, h: real, k: real, intensity: Option<real>)
    requires k > 0.0
    ensures var p, q := VignettePaint(w, h, intensity), VignettePaint(k * w, k * h, intensity);
            q == Radial(k * p.cx, k * p.cy, k * p.innerRadius, k * p.outerRadius, p.edgeAlpha)
  {
    var p, q := VignettePaint(w, h, intensity), VignettePaint(k * w, k * h, intensity);
    assert (k * w <= k * h) == (w <= h) && (k * w >= k * h) == (w >= h);
    assert q.cx == k * p.cx && q.cy == k * p.cy;
  }

  /** `drawVignette` as the one command it issues. */
  function DrawVignette(w: real, h: real, intensity: Option<real>): (c: Command)
    ensures c.FillRect? && c.x == 0.0 && c.y == 0.0 && c.w == w && c.h == h
    ensures c.paint == VignettePaint(w, h, intensity) && c.alpha == 1.0
  {
    FillRect(VignettePaint(w, h, intensity), 1.0, 0.0, 0.0, w, h)
  }

  /** `drawColorOverlay`: the whole canvas in one colour at a global alpha. */
  function DrawColorOverlay(w: real, h: real, color: string, opacity: real): (c: Command)
    ensures c.FillRect? && c.paint == Solid(color) && c.alpha == opacity
    ensures c.x == 0.0 && c.y == 0.0 && c.w == w && c.h == h
  {
    FillRect(Solid(color), opacity, 0.0, 0.0, w, h)
  }

  /** The background with no image loaded. */
  const Placeholder := "#2a2a3e"

  /** `applyFiltersToCanvas`: clear, then copy the image in under the CSS
      filter of the filter state. */
  function PaintFiltered(d: Dims, img: Image, f: FilterState): seq<Command> {
    [ClearRect(0.0, 0.0, d.width as real, d.height as real), PaintImage(img, BuildFilterString(f))]
  }

  /** `redrawCanvas`: nothing without a canvas; otherwise clear it, paint the
      filtered image or the placeholder, then the element layers on top. */
  function Redraw(canvas: Option<Dims>, image: Option<Image>, els: seq<CanvasElement>, f: FilterState)
    : (frame: Option<seq<Command>>)
    ensures canvas.None? <==> frame.None?
  {
    match canvas
    case None => None
    case Some(d) =>
      var w, h := d.width as real, d.height as real;
      var background :=
        match image
        case Some(img) => PaintFiltered(d, img, f)
        case None => [FillRect(Solid(Placeholder), 1.0, 0.0, 0.0, w, h)];
      Some([ClearRect(0.0, 0.0, w, h)] + background + RenderElements(els))
  }

  /** A frame starts by clearing the canvas; its second command paints the
      placeholder exactly when there is no image, and otherwise the image is
      painted under the filter string; the element layers come last. */
  lemma RedrawLayout(d: Dims, image: Option<Image>, els: seq<CanvasElement>, f: FilterState)
    ensures Redraw(Some(d), image, els, f).Some?
    ensures var frame, w, h := Redraw(Some(d), image, els, f).value, d.width as real, d.height as real;
              |frame| >= 2 + |RenderElements(els)| && frame[0] == ClearRect(0.0, 0.0, w, h) &&
              (image.None? <==> frame[1] == FillRect(Solid(Placeholder), 1.0, 0.0, 0.0, w, h)) &&
              (image.Some? ==> frame[2] == PaintImage(image.value, BuildFilterString(f))) &&
              frame[|frame| - |RenderElements(els)|..] == RenderElements(els)
  {
    RedrawHead(d, image, els, f);
    RedrawImage(d, image, els, f);
    RedrawLayers(d, image, els, f);
  }

  /** The clear and the placeholder-or-image command open every frame. */
  lemma RedrawHead(d: Dims, image: Option<Image>, els: seq<CanvasElement>, f: FilterState)
    ensures var frame, w, h := Redraw(Some(d), image, els, f).value, d.width as real, d.height as real;
              |frame| >= 2 + |RenderElements(els)| && frame[0] == ClearRect(0.0, 0.0, w, h) &&
              (image.None? <==> frame[1] == FillRect(Solid(Placeholder), 1.0, 0.0, 0.0, w, h))
  {
  }

  /** With an image, the third command paints it under the filter string. */
  lemma RedrawImage(d: Dims, image: Option<Image>, els: seq<CanvasElement>, f: FilterState)
    ensures var frame := Redraw(Some(d), image, els, f).value;
              image.Some? ==> |frame| >= 3 && frame[2] == PaintImage(image.value, BuildFilterString(f))
  {
  }

  /** The element layers form the tail of every frame. */
  lemma RedrawLayers(d: Dims, image: Option<Image>, els: seq<CanvasElement>, f: FilterState)
    ensures var frame := Redraw(Some(d), image, els, f).value;
              |frame| >= |RenderElements(els)| && frame[|frame| - |RenderElements(els)|..] == RenderElements(els)
  {
  }

  /** The frame-side reading of `DecodeBuild`: the filter string the image is
      painted under carries the whole filter state of a state whose blur,
      grayscale and sepia are non-negative. Decoding it gives the state back. */
  lemma RedrawFilterLossless(f: FilterState)
    requires NonNegative(f)
    ensures DecodeFilterString(BuildFilterString(f)) == Some(f)
  {
    DecodeBuild(f);
  }
}

=== FILE: resize_tool.dfy ===
/** The resize panel: a width/height form that keeps the canvas's aspect
    ratio while the lock is on, five preset sizes, and the guard on the apply
    button. */
module ResizeTool {
  import opened Base
  import opened Strings

  /** The panel's local state. */
  datatype Form = Form(width: real, height: real, lockAspect: bool)

  /** The form as the panel opens: the current canvas size, lock on. */
  function Opened(canvasWidth: real, canvasHeight: real): Form {
    Form(canvasWidth, canvasHeight, true)
  }

  /** `parseInt(val) || 1`: the number the text starts with, with text that
      holds no number, and zero, replaced by 1. */
  function InputValue(val: string): (v: int)
    ensures v != 0
    ensures JsParseInt(val).None? ==> v == 1
    ensures JsParseInt(val).Some? ==> v == (if JsParseInt(val).value == 0 then 1 else JsParseInt(val).value)
  {
    match JsParseInt(val)
    case None => 1
    case Some(n) => if n == 0 then 1 else n
  }

  /** Typing a non-zero integer enters exactly that integer; typing zero or
      clearing the field enters 1. */
  lemma InputReadsTypedNumber(n: int)
    ensures InputValue(IntToString(n)) == (if n == 0 then 1 else n)
    ensures InputValue("") == 1
  {
    JsParseIntOfInt(n);
    assert SpaceRun("", 0) == 0 && DigitRun("", 0) == 0;
  }

  /** `aspectRatio`: the canvas's width over its height. */
  function Aspect(canvasWidth: real, canvasHeight: real): real
    requires canvasHeight != 0.0
  {
    canvasWidth / canvasHeight
  }

  /** `Math.round(v / ratio)`, the side a width edit derives. */
  function OverRatio(v: int, ratio: real): real
    requires ratio != 0.0
  {
    Round(v as real / ratio) as real
  }

  /** `Math.round(v * ratio)`, the side a height edit derives. */
  function ByRatio(v: int, ratio: real): real {
    Round(v as real * ratio) as real
  }

  /** `handleWidthChange` on a canvas of the given size. */
  function WidthChanged(f: Form, canvasWidth: real, canvasHeight: real, val: string): (r: Form)
    requires canvasWidth != 0.0 && canvasHeight != 0.0
    ensures r.width == InputValue(val) as real && r.lockAspect == f.lockAspect
    ensures !f.lockAspect ==> r.height == f.height
  {
    var w := InputValue(val);
    var aspect := Aspect(canvasWidth, canvasHeight);
    Form(w as real, if f.lockAspect then OverRatio(w, aspect) else f.height, f.lockAspect)
  }

  /** `handleHeightChange` on a canvas of the given size. */
  function HeightChanged(f: Form, canvasWidth: real, canvasHeight: real, val: string): (r: Form)
    requires canvasHeight != 0.0
    ensures r.height == InputValue(val) as real && r.lockAspect == f.lockAspect
    ensures !f.lockAspect ==> r.width == f.width
  {
    var h := InputValue(val);
    var aspect := Aspect(canvasWidth, canvasHeight);
    Form(if f.lockAspect then ByRatio(h, aspect) else f.width, h as real, f.lockAspect)
  }

  /** With the lock on, a width edit makes the height the one that keeps the
      canvas's proportions, up to half a pixel. */
  lemma LockedWidthKeepsAspect(f: Form, canvasWidth: real, canvasHeight: real, val: string)
    requires canvasWidth > 0.0 && canvasHeight > 0.0 && f.lockAspect
    ensures var r := WidthChanged(f, canvasWidth, canvasHeight, val);
              -0.5 * canvasWidth < r.height * canvasWidth - r.width * canvasHeight <= 0.5 * canvasWidth
  {
    var w := InputValue(val);
    assert WidthChanged(f, canvasWidth, canvasHeight, val) ==
           Form(w as real, OverRatio(w, Aspect(canvasWidth, canvasHeight)), true);
    DividedBound(w, canvasWidth, canvasHeight);
  }

  /** With the lock on, a height edit makes the width the one that keeps the
      canvas's proportions, up to half a pixel. */
  lemma LockedHeightKeepsAspect(f: Form, canvasWidth: real, canvasHeight: real, val: string)
    requires canvasWidth > 0.0 && canvasHeight > 0.0 && f.lockAspect
    ensures var r := HeightChanged(f, canvasWidth, canvasHeight, val);
              -0.5 * canvasHeight < r.width * canvasHeight - r.height * canvasWidth <= 0.5 * canvasHeight
  {
    var h := InputValue(val);
    assert HeightChanged(f, canvasWidth, canvasHeight, val) ==
           Form(ByRatio(h, Aspect(canvasWidth, canvasHeight)), h as real, true);
    MultipliedBound(h, canvasWidth, canvasHeight);
  }

  lemma DividedBound(w: int, a: real, b: real)
    requires a > 0.0 && b > 0.0
    ensures -0.5 * a < OverRatio(w, Aspect(a, b)) * a - w as real * b <= 0.5 * a
  {
    var x := w as real / Aspect(a, b);
    DivByRatio(w as real, a, b);
    ScaleBounds(OverRatio(w, Aspect(a, b)), x, a, w as real * b);
  }

  lemma MultipliedBound(h: int, a: real, b: real)
    requires a > 0.0 && b > 0.0
    ensures -0.5 * b < ByRatio(h, Aspect(a, b)) * b - h as real * a <= 0.5 * b
  {
    var y := h as real * Aspect(a, b);
    MulByRatio(h as real, a, b);
    ScaleBounds(ByRatio(h, Aspect(a, b)), y, b, h as real * a);
  }

  lemma DivByRatio(w: real, a: real, b: real)
    requires a > 0.0 && b > 0.0
    ensures (w / Aspect(a, b)) * a == w * b
  {
    var q := Aspect(a, b);
    assert q * b == a;
    var x := w / q;
    assert x * q == w;
    calc {
      x * a;
      x * (q * b);
      (x * q) * b;
      w * b;
    }
  }

  lemma MulByRatio(h: real, a: real, b: real)
    requires b > 0.0
    ensures (h * Aspect(a, b)) * b == h * a
  {
    var q := Aspect(a, b);
    assert q * b == a;
    calc {
      (h * q) * b;
      h * (q * b);
      h * a;
    }
  }

  /** A value within half of `x`, scaled by a positive factor, stays within
      half the factor of the scaled `x`. */
  lemma ScaleBounds(v: real, x: real, k: real, xk: real)
    requires k > 0.0 && x - 0.5 < v <= x + 0.5 && xk == x * k
    ensures -0.5 * k < v * k - xk <= 0.5 * k
  {
    var d := v - x;
    assert -0.5 < d <= 0.5;
    assert v * k - xk == d * k;
    assert -0.5 * k < d * k <= 0.5 * k;
  }

  /** On an 800 by 600 canvas with the lock on, typing width 400 gives height
      300, and typing height 300 gives width 400. */
  lemma HalfSizeExample()
    ensures WidthChanged(Opened(800.0, 600.0), 800.0, 600.0, "400") == Form(400.0, 300.0, true)
    ensures HeightChanged(Opened(800.0, 600.0), 800.0, 600.0, "300") == Form(400.0, 300.0, true)
  {
    TypedValue400();
    TypedValue300();
    RoundsExactly(400.0 / (800.0 / 600.0), 300);
    RoundsExactly(300.0 * (800.0 / 600.0), 400);
  }

  lemma RoundsExactly(x: real, n: int)
    requires x == n as real
    ensures Round(x) == n
  {
  }

  lemma TypedValue400()
    ensures InputValue("400") == 400
  {
    assert NatToString(400) == NatToString(40) + "0";
    assert NatToString(40) == NatToString(4) + "0";
    assert NatToString(400) == "400";
    JsParseIntOfNat(400);
  }

  lemma TypedValue300()
    ensures InputValue("300") == 300
  {
    assert NatToString(300) == NatToString(30) + "0";
    assert NatToString(30) == NatToString(3) + "0";
    assert NatToString(300) == "300";
    JsParseIntOfNat(300);
  }

  /** A field holding only digits, not all zero, enters their value. */
  lemma ReadsDigits(s: string)
    requires |s| > 0 && AllDigits(s) && DigitsValue(s) != 0
    ensures InputValue(s) == DigitsValue(s)
  {
    assert !IsSpace(s[0]);
    assert SpaceRun(s, 0) == 0;
    DigitRunPrefix(s, 0, |s|);
    assert s[0..|s|] == s;
  }

  // ---------------------------------------------------------------------------
  // presets and apply

  datatype Preset = Preset(name: string, w: int, h: int)

  const Presets: seq<Preset> := [
    Preset("HD", 1280, 720), Preset("FHD", 1920, 1080), Preset("Square", 1080, 1080),
    Preset("Portrait", 1080, 1350), Preset("Story", 1080, 1920)]

  /** A preset button: both sides set exactly, whatever the lock says. */
  function ChoosePreset(f: Form, p: Preset): (r: Form)
    ensures r.width == p.w as real && r.height == p.h as real && r.lockAspect == f.lockAspect
  {
    f.(width := p.w as real, height := p.h as real)
  }

  /** Presets ignore the lock: on a locked 800 by 600 form, HD gives 1280 by
      720, which is not 4:3. */
  lemma PresetIgnoresLock()
    ensures var r := ChoosePreset(Opened(800.0, 600.0), Presets[0]);
              r.lockAspect && r.width * 600.0 != r.height * 800.0
  {
  }

  /** Whether the apply button is enabled. */
  predicate ApplyEnabled(f: Form, canvasWidth: real, canvasHeight: real, hasImage: bool) {
    hasImage && !(f.width == canvasWidth && f.height == canvasHeight)
  }

  /** The size the apply button hands to the editor, when it is enabled. */
  function Apply(f: Form, canvasWidth: real, canvasHeight: real, hasImage: bool): (r: Option<(real, real)>)
    ensures r.Some? ==> hasImage && r.value != (canvasWidth, canvasHeight)
    ensures r.Some? ==> r.value == (f.width, f.height)
  {
    if ApplyEnabled(f, canvasWidth, canvasHeight, hasImage) then Some((f.width, f.height)) else None
  }

  /** A freshly opened form offers nothing to apply; once a side differs from
      the canvas, apply is offered exactly when an image is loaded. */
  lemma ApplyGuard(f: Form, canvasWidth: real, canvasHeight: real, hasImage: bool)
    ensures Apply(Opened(canvasWidth, canvasHeight), canvasWidth, canvasHeight, hasImage).None?
    ensures !hasImage ==> Apply(f, canvasWidth, canvasHeight, hasImage).None?
    ensures (f.width != canvasWidth || f.height != canvasHeight) ==>
              (Apply(f, canvasWidth, canvasHeight, hasImage).Some? <==> hasImage)
  {
  }
}

=== FILE: session.dfy ===
/** The editing session: every piece of state the editor hook keeps, as one
    immutable record, and each of its callbacks as a function from session to
    session. A callback sees the latest state, and callbacks run one after the
    other. */
module Session {
  import opened Base
  import opened EditorTypes
  import opened Filters
  import opened History
  import opened Elements
  import opened Render

  datatype Session = Session(
    canvas: Option<Dims>,
    tool: ToolType,
    image: Option<Image>,
    elements: seq<CanvasElement>,
    filters: FilterState,
    history: History,
    selected: Option<string>,
    cropRegion: Option<CropRegion>,
    isDrawing: bool,
    currentDrawId: Option<string>,
    canvasWidth: real,
    canvasHeight: real,
    drawSettings: DrawToolSettings,
    textSettings: TextToolSettings,
    shapeSettings: ShapeToolSettings,
    frame: seq<Command>)

  /** The state when the editor opens: no image, no layers, default filters,
      an empty history, an 800 by 600 working size and the tools' initial
      settings. The canvas element, once mounted, is rendered at the working
      size. */
  function Initial(mounted: bool): (s: Session)
    ensures Valid(s.history) && !CanUndo(s.history) && !CanRedo(s.history)
    ensures s.filters == DefaultFilters && s.elements == [] && s.image.None?
    ensures s.canvasWidth == 800.0 && s.canvasHeight == 600.0
    ensures s.canvas.Some? <==> mounted
    ensures s.canvas.Some? ==> s.canvas.value == Dims(800, 600)
    ensures s.canvas.Some? ==> s.canvas.value == Dims(s.canvasWidth.Floor, s.canvasHeight.Floor)
  {
    Session(if mounted then Some(Dims(800, 600)) else None, Select, None, [], DefaultFilters, EmptyHistory, None, None, false, None,
            800.0, 600.0,
            DrawToolSettings("#14b8a6", 5.0),
            TextToolSettings("Your text here", 32, "Inter", "#ffffff", false, false, Left),
            ShapeToolSettings(Rectangle, "#14b8a6", "transparent", 2.0),
            [])
  }

  /** The snapshot of what the session currently shows. */
  function Snapshot(s: Session): HistoryEntry {
    HistoryEntry(s.image, s.elements, s.filters)
  }

  /** The canvas shows the session's image, layers and filters. */
  predicate Shows(s: Session) {
    s.canvas.Some? ==> Redraw(s.canvas, s.image, s.elements, s.filters) == Some(s.frame)
  }

  /** The default width and height of a canvas element. */
  const DefaultCanvasWidth := 300
  const DefaultCanvasHeight := 150

  /** The largest value a canvas dimension takes from an assignment. */
  const MaxCanvasDim := 0x7FFF_FFFF

  /** The canvas's pixel size after `canvas.width = x` (or `height`): the
      number is converted to an unsigned 32-bit integer, its integer part
      modulo 2^32, and a result above 2^31 - 1 is replaced by the dimension's
      default. */
  function CanvasDim(x: real, default: nat): (d: int)
    ensures d == default || 0 <= d <= MaxCanvasDim
    ensures 0.0 <= x < 2147483648.0 ==> d == x.Floor
    ensures 2147483648.0 <= x < 4294967296.0 ==> d == default
    ensures -2147483649.0 < x <= -1.0 ==> d == default
    ensures -1.0 < x < 0.0 ==> d == 0
  {
    var n := Trunc(x) % 0x1_0000_0000;
    if n <= MaxCanvasDim then n else default
  }

  /** A negative size and one beyond 2^31 - 1 both give the default; a
      size of 4096.7 gives 4096. */
  lemma CanvasDimExamples()
    ensures CanvasDim(-5.0, DefaultCanvasWidth) == 300
    ensures CanvasDim(3000000000.0, DefaultCanvasWidth) == 300
    ensures CanvasDim(-0.5, DefaultCanvasHeight) == 0
    ensures CanvasDim(4096.7, DefaultCanvasHeight) == 4096
  {
  }

  // ---------------------------------------------------------------------------
  // the two internal steps every callback is built from

  /** `pushHistory` with the session's own state. */
  function Commit(s: Session): Session {
    s.(history := Push(s.history, Snapshot(s)))
  }

  /** `redrawCanvas` with the session's own state. */
  function Repaint(s: Session): (r: Session)
    ensures Shows(r)
    ensures r == s.(frame := r.frame)
  {
    match Redraw(s.canvas, s.image, s.elements, s.filters)
    case None => s
    case Some(frame) => s.(frame := frame)
  }

  // ---------------------------------------------------------------------------
  // image, history and filters

  /** `uploadImage`, given what loading the file produced (`None` when it
      failed): the canvas takes the image's size, the layers are dropped, the
      filters reset, and the new state is committed and drawn. */
  function UploadImage(s: Session, loaded: Option<Image>): Session {
    if s.canvas.None? || loaded.None? then s
    else
      var img := loaded.value;
      Repaint(Commit(s.(canvas := Some(Dims(img.width, img.height)),
                        canvasWidth := img.width as real, canvasHeight := img.height as real,
                        image := Some(img), elements := [], filters := DefaultFilters)))
  }

  /** Restores image, layers and filters from a snapshot. */
  function Restore(s: Session, h: History): Session
    requires 0 <= h.cursor < |h.entries|
  {
    var e := h.entries[h.cursor];
    Repaint(s.(history := h, image := e.image, elements := e.elements, filters := e.filters))
  }

  function UndoStep(s: Session): Session {
    match Undo(s.history)
    case None => s
    case Some(h) => if 0 <= h.cursor < |h.entries| then Restore(s, h) else s
  }

  function RedoStep(s: Session): Session {
    match Redo(s.history)
    case None => s
    case Some(h) => if 0 <= h.cursor < |h.entries| then Restore(s, h) else s
  }

  /** `updateFilters`: a live change, drawn but not committed. */
  function UpdateFilters(s: Session, f: FilterState): Session {
    Repaint(s.(filters := f))
  }

  /** `commitFilters`. */
  function CommitFilters(s: Session): Session {
    Commit(s)
  }

  /** `applyCrop`: the image is cut to the region and the canvas takes its
      size; the layers and filters stay, the region is cleared, and the result
      is committed and drawn. */
  function ApplyCrop(s: Session, region: CropRegion): Session {
    if s.image.None? || s.canvas.None? then s
    else
      var d := Dims(CanvasDim(region.width, DefaultCanvasWidth), CanvasDim(region.height, DefaultCanvasHeight));
      var cropped := Image(d.width, d.height, Cropped(s.image.value.pixels, region));
      Repaint(Commit(s.(canvas := Some(d), canvasWidth := region.width, canvasHeight := region.height,
                        image := Some(cropped), cropRegion := None)))
  }

  /** `applyResize`: as `applyCrop`, with the image resampled to the size. */
  function ApplyResize(s: Session, width: real, height: real): Session {
    if s.image.None? || s.canvas.None? then s
    else
      var d := Dims(CanvasDim(width, DefaultCanvasWidth), CanvasDim(height, DefaultCanvasHeight));
      var resized := Image(d.width, d.height, Resized(s.image.value.pixels, width, height));
      Repaint(Commit(s.(canvas := Some(d), canvasWidth := width, canvasHeight := height,
                        image := Some(resized))))
  }

  // ---------------------------------------------------------------------------
  // layers

  /** The text layer `addTextElement` places at a point. */
  function NewText(t: TextToolSettings, id: string, x: real, y: real): CanvasElement {
    TextElement(id, x, y, 200.0, t.fontSize as real * 1.5, t.text, t.fontSize, t.fontFamily,
                t.color, t.bold, t.italic, t.align, true)
  }

  /** `addTextElement`: a new top layer, selected, committed and drawn. */
  function AddTextElement(s: Session, id: string, x: real, y: real): Session {
    var els := s.elements + [NewText(s.textSettings, id, x, y)];
    Repaint(Commit(s.(elements := els, selected := Some(id))))
  }

  /** `addShapeElement`. */
  function AddShapeElement(s: Session, id: string, x: real, y: real, w: real, h: real): Session {
    var t := s.shapeSettings;
    var el := ShapeElement(id, t.shapeType, x, y, w, h, t.strokeColor, t.fillColor, t.strokeWidth, true);
    Repaint(Commit(s.(elements := s.elements + [el], selected := Some(id))))
  }

  /** `startDrawing`: a one-point stroke on top, which becomes the current
      stroke; nothing is committed or drawn yet. */
  function StartDrawing(s: Session, id: string, x: real, y: real): Session {
    var el := DrawElement(id, [Point(x, y)], s.drawSettings.color, s.drawSettings.brushSize, true);
    s.(elements := s.elements + [el], currentDrawId := Some(id), isDrawing := true)
  }

  /** `continueDrawing`: while drawing, the point extends the current stroke. */
  function ContinueDrawing(s: Session, x: real, y: real): Session {
    if !s.isDrawing || s.currentDrawId.None? || s.currentDrawId.value == "" then s
    else Repaint(s.(elements := AppendPoint(s.elements, s.currentDrawId.value, Point(x, y))))
  }

  /** `stopDrawing`: ends the stroke and commits it. */
  function StopDrawing(s: Session): Session {
    if !s.isDrawing then s
    else Commit(s.(isDrawing := false, currentDrawId := None))
  }

  /** `deleteElement`. */
  function DeleteElement(s: Session, id: string): Session {
    var sel := if s.selected == Some(id) then None else s.selected;
    Repaint(Commit(s.(elements := RemoveId(s.elements, id), selected := sel)))
  }

  /** `toggleElementVisibility`: drawn, not committed. */
  function ToggleElementVisibility(s: Session, id: string): Session {
    Repaint(s.(elements := ToggleVisibility(s.elements, id)))
  }

  /** `reorderElements`. The source index must name a layer. */
  function ReorderElements(s: Session, from: int, to: int): Session
    requires 0 < |s.elements| && from < |s.elements|
  {
    Repaint(Commit(s.(elements := Move(s.elements, from, to))))
  }

  /** `updateElement`, the patch read as the change it makes: drawn, not
      committed. */
  function UpdateElementStep(s: Session, id: string, apply: CanvasElement -> CanvasElement): Session {
    Repaint(s.(elements := UpdateElement(s.elements, id, apply)))
  }

  // ---------------------------------------------------------------------------
  // applying a transformation descriptor

  /** The opacity each overlay kind falls back on. */
  function DefaultOpacity(k: OverlayKind): real {
    match k
    case Vignette => 0.6
    case ColorWash => 0.25
    case Gradient => 0.4
  }

  /** A colour JavaScript treats as present: given and not empty. */
  predicate HasColor(c: Option<string>) {
    c.Some? && c.value != ""
  }

  /** The paint and global alpha an overlay lays over a canvas of the given
      size, or `None` when the overlay paints nothing (a colour wash or
      gradient without a colour). */
  function OverlayPaint(o: Overlay, w: real, h: real): (r: Option<(Paint, real)>)
    ensures r.None? <==> o.kind != Vignette && !HasColor(o.color)
    ensures r.Some? && o.kind == Vignette ==>
              r.value.0 == VignettePaint(w, h, Some(o.opacity.GetOr(0.6))) && r.value.1 == 1.0
    ensures r.Some? && o.kind != Vignette ==> r.value.1 == o.opacity.GetOr(DefaultOpacity(o.kind))
  {
    match o.kind
    case Vignette => Some((VignettePaint(w, h, Some(o.opacity.GetOr(0.6))), 1.0))
    case ColorWash =>
      if HasColor(o.color) then Some((Solid(o.color.value), o.opacity.GetOr(0.25))) else None
    case Gradient =>
      if HasColor(o.color) then Some((Vertical(h, o.color.value), o.opacity.GetOr(0.4))) else None
  }

  /** The image `applyAITransformation` reads back: the old raster put on a
      canvas-sized surface at the origin, with the overlay painted over it. */
  function Flatten(img: Image, d: Dims, o: Overlay): Image {
    var placed := Cropped(img.pixels, CropRegion(0.0, 0.0, d.width as real, d.height as real));
    var w, h := d.width as real, d.height as real;
    match OverlayPaint(o, w, h)
    case None => Image(d.width, d.height, placed)
    case Some((p, a)) => Image(d.width, d.height, Overlaid(placed, p, a))
  }

  /** `applyAITransformation`: the descriptor's filter channels are merged
      over the current ones; with an overlay and an image, the image is
      flattened with the overlay; either way the result is committed once and
      drawn. Without a canvas nothing happens. */
  function ApplyTransformation(s: Session, d: Descriptor): Session {
    if s.canvas.None? then s
    else
      var f := Merge(s.filters, d.filters.GetOr(NoFilterChanges));
      if d.overlay.Some? && s.image.Some? then
        Repaint(Commit(s.(filters := f, image := Some(Flatten(s.image.value, s.canvas.value, d.overlay.value)))))
      else
        Repaint(Commit(s.(filters := f)))
  }

  // ---------------------------------------------------------------------------
  // properties

  /** A commit records the session's state as the current snapshot and
      leaves nothing to redo; when there was a snapshot before, undo goes back
      to it. */
  lemma CommitRecords(s: Session)
    requires Valid(s.history)
    ensures Valid(Commit(s).history)
    ensures Current(Commit(s).history) == Some(Snapshot(s)) && !CanRedo(Commit(s).history)
    ensures s.history.cursor >= 0 ==> Current(Undo(Commit(s).history).value) == Current(s.history)
  {
    if s.history.cursor >= 0 {
      UndoAfterPush(s.history, Snapshot(s));
    }
  }

  /** Undo and redo do nothing exactly when the editor's `canUndo` and
      `canRedo` flags are off; otherwise they move the cursor by one and show
      the snapshot it lands on. */
  lemma UndoRedoGuards(s: Session)
    requires Valid(s.history)
    ensures !CanUndo(s.history) ==> UndoStep(s) == s
    ensures !CanRedo(s.history) ==> RedoStep(s) == s
    ensures CanUndo(s.history) ==>
              UndoStep(s).history.cursor == s.history.cursor - 1 &&
              Current(UndoStep(s).history) == Some(Snapshot(UndoStep(s))) && Shows(UndoStep(s))
    ensures CanRedo(s.history) ==>
              RedoStep(s).history.cursor == s.history.cursor + 1 &&
              Current(RedoStep(s).history) == Some(Snapshot(RedoStep(s))) && Shows(RedoStep(s))
  {
  }

  /** Redo after undo returns to the same history and shows the snapshot
      that was current, and the other way round. */
  lemma UndoThenRedo(s: Session)
    requires Valid(s.history)
    ensures CanUndo(s.history) ==>
              RedoStep(UndoStep(s)).history == s.history &&
              Some(Snapshot(RedoStep(UndoStep(s)))) == Current(s.history)
    ensures CanRedo(s.history) ==>
              UndoStep(RedoStep(s)).history == s.history &&
              Some(Snapshot(UndoStep(RedoStep(s)))) == Current(s.history)
  {
    UndoRedoInverse(s.history);
  }

  /** Deleting removes exactly the layers with the id, clears the selection
      only when it was that id, and commits once, even when no layer had the
      id. */
  lemma DeleteElementSpec(s: Session, id: string)
    ensures var r := DeleteElement(s, id);
              (forall e :: e in r.elements <==> e in s.elements && e.id != id) &&
              (r.selected.None? <==> s.selected.None? || s.selected == Some(id)) &&
              r.history == Push(s.history, Snapshot(r)) && Shows(r)
    ensures (forall k :: 0 <= k < |s.elements| ==> s.elements[k].id != id) ==>
              DeleteElement(s, id).elements == s.elements
  {
    if forall k :: 0 <= k < |s.elements| ==> s.elements[k].id != id {
      RemoveAbsentId(s.elements, id);
    }
  }

  /** Toggling flips only the flag of the matching layers and commits
      nothing; toggling twice gives the layers back. */
  lemma ToggleSpec(s: Session, id: string)
    ensures ToggleElementVisibility(s, id).history == s.history
    ensures |ToggleElementVisibility(s, id).elements| == |s.elements|
    ensures ToggleElementVisibility(ToggleElementVisibility(s, id), id).elements == s.elements
  {
    ToggleInvolution(s.elements, id);
  }

  /** Reordering permutes the layers, puts the moved one at its target, and
      commits once. */
  lemma ReorderSpec(s: Session, from: int, to: int)
    requires 0 < |s.elements| && from < |s.elements|
    ensures var r := ReorderElements(s, from, to);
              multiset(r.elements) == multiset(s.elements) &&
              r.elements[MoveTarget(|s.elements|, to)] == s.elements[RelativeIndex(|s.elements|, from)] &&
              r.history == Push(s.history, Snapshot(r))
  {
    MovePermutes(s.elements, from, to);
  }

  /** A stroke: starting puts a one-point stroke on top and sets the drawing
      flag; a point while drawing extends that stroke only; stopping clears
      the flag and commits once; moving or stopping when not drawing does
      nothing. */
  lemma StrokeSpec(s: Session, id: string, p: Point)
    ensures var r := StartDrawing(s, id, p.x, p.y);
              r.isDrawing && r.currentDrawId == Some(id) && r.history == s.history &&
              r.elements[..|s.elements|] == s.elements && |r.elements| == |s.elements| + 1 &&
              r.elements[|s.elements|].DrawElement? && r.elements[|s.elements|].points == [p]
    ensures !s.isDrawing ==> ContinueDrawing(s, p.x, p.y) == s && StopDrawing(s) == s
    ensures s.isDrawing && s.currentDrawId.Some? && s.currentDrawId.value != "" ==>
              ContinueDrawing(s, p.x, p.y).elements == AppendPoint(s.elements, s.currentDrawId.value, p)
    ensures s.isDrawing ==>
              !StopDrawing(s).isDrawing && StopDrawing(s).elements == s.elements &&
              StopDrawing(s).history == Push(s.history, Snapshot(s))
  {
    assert (s.elements + [DrawElement(id, [p], s.drawSettings.color, s.drawSettings.brushSize, true)])[..|s.elements|] == s.elements;
  }

  /** Applying a descriptor: the new filters are the old ones with exactly the
      descriptor's channels overwritten; without a canvas nothing changes;
      without an overlay or an image the image stays and one commit is
      made. */
  lemma TransformationSpec(s: Session, d: Descriptor)
    ensures s.canvas.None? ==> ApplyTransformation(s, d) == s
    ensures s.canvas.Some? ==>
              var r := ApplyTransformation(s, d);
              (forall ch :: Get(r.filters, ch) ==
                 if d.filters.Some? && GetPartial(d.filters.value, ch).Some?
                 then GetPartial(d.filters.value, ch).value else Get(s.filters, ch)) &&
              r.elements == s.elements && r.history == Push(s.history, Snapshot(r)) && Shows(r)
    ensures s.canvas.Some? && (d.overlay.None? || s.image.None?) ==>
              ApplyTransformation(s, d).image == s.image
  {
  }

  /** Crop and resize change the image and the size only: the layers and the
      filters stay, and one commit is made. */
  lemma CropResizeSpec(s: Session, region: CropRegion, w: real, h: real)
    requires s.image.Some? && s.canvas.Some?
    ensures var r := ApplyCrop(s, region);
              r.elements == s.elements && r.filters == s.filters && r.cropRegion.None? &&
              r.canvasWidth == region.width && r.canvasHeight == region.height &&
              r.image.value.pixels == Cropped(s.image.value.pixels, region) &&
              r.history == Push(s.history, Snapshot(r))
    ensures var r := ApplyResize(s, w, h);
              r.elements == s.elements && r.filters == s.filters &&
              r.canvasWidth == w && r.canvasHeight == h &&
              r.image.value.pixels == Resized(s.image.value.pixels, w, h) &&
              r.history == Push(s.history, Snapshot(r))
  {
  }

  /** Uploading resets the layers and filters to the defaults and commits the
      fresh state on top of the old history. Undo can then return to the
      previous snapshot, if there was one; the first upload on the empty
      history leaves nothing to undo. */
  lemma UploadSpec(s: Session, img: Image)
    requires s.canvas.Some? && Valid(s.history)
    ensures var r := UploadImage(s, Some(img));
              r.image == Some(img) && r.elements == [] && r.filters == DefaultFilters &&
              r.canvas == Some(Dims(img.width, img.height)) &&
              Current(r.history) == Some(HistoryEntry(Some(img), [], DefaultFilters)) &&
              (s.history.cursor >= 0 ==> CanUndo(r.history)) &&
              (s.history == EmptyHistory ==> !CanUndo(r.history))
    ensures UploadImage(s, None) == s
  {
  }
}

=== FILE: strings.dfy ===
/** The string operations the editor borrows from JavaScript: `join`, `split`
    on one character, `toLowerCase`, `includes`, number-to-text conversion of
    integers and the decimal `parseInt` of a digit run. */
module Strings {
  import opened Base

  // ---------------------------------------------------------------------------
  // join and split

  /** `parts.join(sep)`. */
  function Join(parts: seq<string>, sep: string): string
    decreases |parts|
  {
    if |parts| == 0 then ""
    else if |parts| == 1 then parts[0]
    else parts[0] + sep + Join(parts[1..], sep)
  }

  /** The joined text starts with the first part. */
  lemma {:induction false} JoinStartsWithFirst(parts: seq<string>, sep: string)
    requires |parts| > 0
    ensures |Join(parts, sep)| >= |parts[0]|
    ensures Join(parts, sep)[..|parts[0]|] == parts[0]
  {
    if |parts| > 1 {
      var rest := sep + Join(parts[1..], sep);
      assert Join(parts, sep) == parts[0] + rest;
    }
  }

  /** Position of the first `c` in `s`, or `|s|` when there is none. */
  function IndexOf(s: string, c: char): (i: nat)
    ensures i <= |s|
    ensures i < |s| ==> s[i] == c
    ensures forall k :: 0 <= k < i ==> s[k] != c
    ensures i == |s| <==> c !in s
  {
    if |s| == 0 then 0
    else if s[0] == c then 0
    else 1 + IndexOf(s[1..], c)
  }

  /** `s.split(c)` for a one-character separator: always at least one piece,
      and a trailing separator yields a trailing empty piece. */
  function Split(s: string, c: char): (pieces: seq<string>)
    ensures |pieces| > 0
    ensures forall k :: 0 <= k < |pieces| ==> c !in pieces[k]
    decreases |s|
  {
    var i := IndexOf(s, c);
    if i == |s| then [s]
    else [s[..i]] + Split(s[i + 1..], c)
  }

  /** Joining the pieces of a split with the separator gives back the text. */
  lemma {:induction false} JoinSplit(s: string, c: char)
    ensures Join(Split(s, c), [c]) == s
    decreases |s|
  {
    var i := IndexOf(s, c);
    if i < |s| {
      var rest := Split(s[i + 1..], c);
      JoinSplit(s[i + 1..], c);
      assert Split(s, c) == [s[..i]] + rest;
      assert Join(Split(s, c), [c]) == s[..i] + [c] + Join(rest, [c]);
      assert s == s[..i] + [c] + s[i + 1..];
    }
  }

  /** Splitting a join of separator-free pieces gives back the pieces. */
  lemma {:induction false} SplitJoin(parts: seq<string>, c: char)
    requires |parts| > 0
    requires forall k :: 0 <= k < |parts| ==> c !in parts[k]
    ensures Split(Join(parts, [c]), c) == parts
    decreases |parts|
  {
    var s := Join(parts, [c]);
    if |parts| == 1 {
      assert IndexOf(s, c) == |s|;
    } else {
      var rest := Join(parts[1..], [c]);
      assert s == parts[0] + [c] + rest;
      IndexOfPrefix(parts[0], c, rest);
      assert s[..|parts[0]|] == parts[0];
      assert s[|parts[0]| + 1..] == rest;
      SplitJoin(parts[1..], c);
      assert parts == [parts[0]] + parts[1..];
    }
  }

  lemma IndexOfPrefix(a: string, c: char, b: string)
    requires c !in a
    ensures IndexOf(a + [c] + b, c) == |a|
  {
    var s := a + [c] + b;
    assert forall k :: 0 <= k < |a| ==> s[k] == a[k];
    assert s[|a|] == c;
  }

  // ---------------------------------------------------------------------------
  // case and containment

  /** `toLowerCase` on one character (ASCII letters only). */
  function LowerChar(ch: char): (r: char)
    ensures 'A' <= ch <= 'Z' ==> r as int == ch as int + 32
    ensures !('A' <= ch <= 'Z') ==> r == ch
  {
    if 'A' <= ch <= 'Z' then (ch as int + 32) as char else ch
  }

  /** `toUpperCase` on one character (ASCII letters only). */
  function UpperChar(ch: char): (r: char)
    ensures 'a' <= ch <= 'z' ==> r as int == ch as int - 32
    ensures !('a' <= ch <= 'z') ==> r == ch
  {
    if 'a' <= ch <= 'z' then (ch as int - 32) as char else ch
  }

  function Lower(s: string): (r: string)
    ensures |r| == |s|
    ensures forall i :: 0 <= i < |s| ==> r[i] == LowerChar(s[i])
  {
    seq(|s|, i requires 0 <= i < |s| => LowerChar(s[i]))
  }

  function Upper(s: string): (r: string)
    ensures |r| == |s|
    ensures forall i :: 0 <= i < |s| ==> r[i] == UpperChar(s[i])
  {
    seq(|s|, i requires 0 <= i < |s| => UpperChar(s[i]))
  }

  /** Two texts that differ only in the case of their letters. */
  predicate SameIgnoringCase(a: string, b: string) {
    |a| == |b| && forall i :: 0 <= i < |a| ==> LowerChar(a[i]) == LowerChar(b[i])
  }

  /** Lower-casing is idempotent and erases every change of case. */
  lemma LowerIgnoresCase(a: string, b: string)
    requires SameIgnoringCase(a, b)
    ensures Lower(a) == Lower(b)
  {
    assert forall i :: 0 <= i < |a| ==> Lower(a)[i] == Lower(b)[i];
  }

  lemma UpperSameIgnoringCase(s: string)
    ensures SameIgnoringCase(s, Upper(s))
    ensures SameIgnoringCase(s, Lower(s))
  {
  }

  /** `s.includes(sub)`. */
  predicate Contains(s: string, sub: string) {
    exists i :: 0 <= i <= |s| - |sub| && OccursAt(s, sub, i)
  }

  predicate OccursAt(s: string, sub: string, i: int) {
    0 <= i && i + |sub| <= |s| && s[i..i + |sub|] == sub
  }

  // ---------------------------------------------------------------------------
  // numbers as text

  predicate IsDigit(ch: char) {
    '0' <= ch <= '9'
  }

  predicate AllDigits(s: string) {
    forall i :: 0 <= i < |s| ==> IsDigit(s[i])
  }

  function DigitChar(d: nat): (ch: char)
    requires d < 10
    ensures IsDigit(ch) && ch as int - '0' as int == d
  {
    ('0' as int + d) as char
  }

  /** The decimal text of a natural number, as JavaScript prints it. */
  function NatToString(n: nat): (s: string)
    ensures |s| > 0 && AllDigits(s)
    decreases n
  {
    if n < 10 then [DigitChar(n)] else NatToString(n / 10) + [DigitChar(n % 10)]
  }

  /** The decimal text of an integer, with a leading `-` when negative. */
  function IntToString(n: int): (s: string)
    ensures |s| > 0
    ensures n >= 0 <==> IsDigit(s[0])
    ensures n < 0 ==> s[0] == '-'
    ensures ' ' !in s && '(' !in s
  {
    if n < 0 then "-" + NatToString(-n) else NatToString(n)
  }

  /** The value of a run of decimal digits (leading zeros allowed). */
  function DigitsValue(s: string): nat
    requires AllDigits(s)
    decreases |s|
  {
    if |s| == 0 then 0
    else DigitsValue(s[..|s| - 1]) * 10 + (s[|s| - 1] as int - '0' as int)
  }

  lemma {:induction false} DigitsValueOfNat(n: nat)
    ensures DigitsValue(NatToString(n)) == n
    decreases n
  {
    var s := NatToString(n);
    if n >= 10 {
      DigitsValueOfNat(n / 10);
      assert s[..|s| - 1] == NatToString(n / 10);
    }
  }

  // ---------------------------------------------------------------------------
  // scanning

  /** JavaScript's white space and line terminators: what `\\s` matches and
      what `parseInt` skips. */
  predicate IsSpace(c: char) {
    var u := c as int;
    u == 0x09 || u == 0x0A || u == 0x0B || u == 0x0C || u == 0x0D || u == 0x20 ||
    u == 0xA0 || u == 0x1680 || (0x2000 <= u <= 0x200A) || u == 0x2028 || u == 0x2029 ||
    u == 0x202F || u == 0x205F || u == 0x3000 || u == 0xFEFF
  }

  /** Length of the longest run of whitespace starting at `k`. */
  function SpaceRun(s: string, k: nat): (n: nat)
    requires k <= |s|
    ensures k + n <= |s|
    ensures forall j :: k <= j < k + n ==> IsSpace(s[j])
    ensures k + n == |s| || !IsSpace(s[k + n])
    decreases |s| - k
  {
    if k < |s| && IsSpace(s[k]) then 1 + SpaceRun(s, k + 1) else 0
  }

  /** Length of the longest run of decimal digits starting at `k`. */
  function DigitRun(s: string, k: nat): (n: nat)
    requires k <= |s|
    ensures k + n <= |s|
    ensures AllDigits(s[k..k + n])
    ensures k + n == |s| || !IsDigit(s[k + n])
    decreases |s| - k
  {
    if k < |s| && IsDigit(s[k]) then
      var n := 1 + DigitRun(s, k + 1);
      assert s[k..k + n] == [s[k]] + s[k + 1..k + n];
      n
    else 0
  }

  lemma {:induction false} DigitRunToEnd(s: string, k: nat)
    requires k <= |s| && AllDigits(s[k..])
    ensures DigitRun(s, k) == |s| - k
    decreases |s| - k
  {
    if k < |s| {
      assert s[k] == s[k..][0];
      assert s[k + 1..] == s[k..][1..];
      DigitRunToEnd(s, k + 1);
    }
  }

  /** JavaScript's `parseInt(s)` of decimal text: leading white space is
      skipped, an optional sign read, then the longest run of digits; `None`
      (`NaN`) when no digit follows. */
  function JsParseInt(s: string): Option<int> {
    var sp := SpaceRun(s, 0);
    var signed := sp < |s| && (s[sp] == '-' || s[sp] == '+');
    var start := if signed then sp + 1 else sp;
    var n := DigitRun(s, start);
    if n == 0 then None
    else
      var v := DigitsValue(s[start..start + n]);
      Some(if signed && s[sp] == '-' then 0 - v else v)
  }

  /** `parseInt` reads back the decimal text of every integer. */
  lemma JsParseIntOfInt(n: int)
    ensures JsParseInt(IntToString(n)) == Some(n)
  {
    if n < 0 {
      JsParseIntOfNegative(-n);
    } else {
      JsParseIntOfNat(n);
    }
  }

  lemma JsParseIntOfNat(n: nat)
    ensures JsParseInt(NatToString(n)) == Some(n)
  {
    var s := NatToString(n);
    assert IsDigit(s[0]) && !IsSpace(s[0]);
    assert SpaceRun(s, 0) == 0;
    DigitRunPrefix(s, 0, |s|);
    assert s[0..|s|] == s;
    DigitsValueOfNat(n);
  }

  lemma JsParseIntOfNegative(m: nat)
    requires m > 0
    ensures JsParseInt(IntToString(0 - m)) == Some(0 - m)
  {
    var s := IntToString(0 - m);
    assert s == "-" + NatToString(m);
    assert s[0] == '-' && !IsSpace(s[0]);
    assert SpaceRun(s, 0) == 0;
    assert s[1..|s|] == NatToString(m);
    DigitRunPrefix(s, 1, |s| - 1);
    DigitsValueOfNat(m);
  }

  /** `parseInt` stops at the first character that is not a digit. */
  lemma JsParseIntStopsAtNonDigit(digits: string, rest: string)
    requires |digits| > 0 && AllDigits(digits)
    requires |rest| > 0 && !IsDigit(rest[0])
    ensures JsParseInt(digits + rest) == Some(DigitsValue(digits))
  {
    var s := digits + rest;
    assert !IsSpace(s[0]);
    assert SpaceRun(s, 0) == 0;
    DigitRunPrefix(s, 0, |digits|);
    assert s[0..|digits|] == digits;
  }

  lemma {:induction false} DigitRunPrefix(s: string, k: nat, n: nat)
    requires k + n <= |s| && AllDigits(s[k..k + n])
    requires k + n == |s| || !IsDigit(s[k + n])
    ensures DigitRun(s, k) == n
    decreases n
  {
    if n > 0 {
      assert s[k] == s[k..k + n][0];
      assert s[k + 1..k + 1 + (n - 1)] == s[k..k + n][1..];
      DigitRunPrefix(s, k + 1, n - 1);
    }
  }

  /** Parses an optionally negative decimal integer; `None` for anything else. */
  function ParseInt(s: string): Option<int> {
    if |s| > 1 && s[0] == '-' && AllDigits(s[1..]) then Some(0 - DigitsValue(s[1..]))
    else if |s| > 0 && AllDigits(s) then Some(DigitsValue(s))
    else None
  }

  /** Printing an integer and parsing the text back gives the integer. */
  lemma IntToStringRoundTrip(n: int)
    ensures ParseInt(IntToString(n)) == Some(n)
  {
    if n < 0 {
      var s := IntToString(n);
      assert s[1..] == NatToString(-n);
      DigitsValueOfNat(-n);
    } else {
      DigitsValueOfNat(n);
    }
  }
}

=== FILE: workspace.dfy ===
/** The canvas's pointer controller: a press starts a drag, moves stretch a
    rectangle or a stroke, and the release finishes whatever the active tool
    does. Each handler returns the new drag state and the calls it makes, in
    order. */
module Workspace {
  import opened Base
  import opened EditorTypes

  /** Whether a drag is in progress, and where it began. */
  datatype Drag = Drag(dragging: bool, start: Point)

  const Idle := Drag(false, Point(0.0, 0.0))

  /** The calls the controller makes into the editor. */
  datatype Call =
    | DrawStart(at: Point)
    | DrawMove(at: Point)
    | DrawEnd
    | CanvasClick(at: Point)
    | ShapeEnd(region: CropRegion)
    | SetRegion(next: Option<CropRegion>)

  /** The rectangle spanned by two corners, whichever way the drag went. */
  function DragRegion(a: Point, b: Point): (r: CropRegion)
    ensures r.width >= 0.0 && r.height >= 0.0
    ensures (r.x == a.x && r.x + r.width == b.x) || (r.x == b.x && r.x + r.width == a.x)
    ensures (r.y == a.y && r.y + r.height == b.y) || (r.y == b.y && r.y + r.height == a.y)
  {
    CropRegion(Min(a.x, b.x), Min(a.y, b.y), Abs(b.x - a.x), Abs(b.y - a.y))
  }

  /** The region does not depend on the direction of the drag. */
  lemma DragRegionSymmetric(a: Point, b: Point)
    ensures DragRegion(a, b) == DragRegion(b, a)
  {
  }

  /** Whether the tool stretches a rectangle. */
  predicate Stretches(tool: ToolType) {
    tool == Crop || tool == Shape
  }

  /** `handleMouseDown`: starts a drag at `pos`; the draw tool starts a
      stroke, the crop and shape tools an empty region at `pos`. */
  function MouseDown(tool: ToolType, pos: Point): (r: (Drag, seq<Call>))
    ensures r.0 == Drag(true, pos)
    ensures tool == Draw ==> r.1 == [DrawStart(pos)]
    ensures Stretches(tool) ==> r.1 == [SetRegion(Some(CropRegion(pos.x, pos.y, 0.0, 0.0)))]
    ensures tool != Draw && !Stretches(tool) ==> r.1 == []
  {
    var calls :=
      if tool == Draw then [DrawStart(pos)]
      else if Stretches(tool) then [SetRegion(Some(CropRegion(pos.x, pos.y, 0.0, 0.0)))]
      else [];
    (Drag(true, pos), calls)
  }

  /** `handleMouseMove`: nothing unless dragging; the draw tool extends the
      stroke, the crop and shape tools set the region spanned from the start. */
  function MouseMove(d: Drag, tool: ToolType, pos: Point): (calls: seq<Call>)
    ensures !d.dragging ==> calls == []
    ensures d.dragging && Stretches(tool) ==> calls == [SetRegion(Some(DragRegion(d.start, pos)))]
    ensures d.dragging && tool == Draw ==> calls == [DrawMove(pos)]
    ensures d.dragging && tool != Draw && !Stretches(tool) ==> calls == []
  {
    if !d.dragging then []
    else if tool == Draw then [DrawMove(pos)]
    else if Stretches(tool) then [SetRegion(Some(DragRegion(d.start, pos)))]
    else []
  }

  /** The shape tool keeps a rectangle only when it is wider and taller than
      five pixels. */
  predicate LargeEnoughForShape(r: CropRegion) {
    r.width > 5.0 && r.height > 5.0
  }

  /** `handleMouseUp`, which also handles the pointer leaving the canvas:
      nothing unless dragging; otherwise the drag ends, the draw tool ends
      its stroke, the text tool places text at the release point, and the
      shape tool emits the current region when it is large enough and clears
      it either way. The crop tool keeps its region for the crop panel. */
  function MouseUp(d: Drag, tool: ToolType, region: Option<CropRegion>, pos: Point): (r: (Drag, seq<Call>))
    ensures !d.dragging ==> r == (d, [])
    ensures d.dragging ==> !r.0.dragging
    ensures d.dragging && tool == Draw ==> r.1 == [DrawEnd]
    ensures d.dragging && tool == Text ==> r.1 == [CanvasClick(pos)]
    ensures d.dragging && tool == Shape && region.Some? ==>
              r.1 == (if LargeEnoughForShape(region.value) then [ShapeEnd(region.value)] else []) + [SetRegion(None)]
    ensures tool == Crop ==> forall c :: c in r.1 ==> !c.SetRegion?
    ensures d.dragging && tool != Draw && tool != Text && !(tool == Shape && region.Some?) ==> r.1 == []
  {
    if !d.dragging then (d, [])
    else
      var calls :=
        if tool == Draw then [DrawEnd]
        else if tool == Text then [CanvasClick(pos)]
        else if tool == Shape && region.Some? then
          (if LargeEnoughForShape(region.value) then [ShapeEnd(region.value)] else []) + [SetRegion(None)]
        else [];
      (d.(dragging := false), calls)
  }

  /** A shape drag from `a` to `b`: press, one move, release. The calls are
      the empty region, the spanned region, then the shape when it is large
      enough, then clearing the region. */
  lemma ShapeGesture(a: Point, b: Point)
    ensures var (d1, c1) := MouseDown(Shape, a);
            var c2 := MouseMove(d1, Shape, b);
            var region := DragRegion(a, b);
            var (d3, c3) := MouseUp(d1, Shape, Some(region), b);
            c1 + c2 + c3 ==
              [SetRegion(Some(CropRegion(a.x, a.y, 0.0, 0.0))), SetRegion(Some(region))] +
              (if LargeEnoughForShape(region) then [ShapeEnd(region)] else []) + [SetRegion(None)] &&
            !d3.dragging
  {
  }
}
